=== FILE: README.md ===
# grpc-test-ui, modelled in Dafny

grpc-test-ui is a small web tool for calling the RPC methods of one gRPC service
(`store_product_service.StoreProductService`) against a QA or a production host.
Its server finds the service's `.proto` files, catalogues their methods with an
example request for each, forwards calls, and refreshes the proto files with an
authenticated `git pull`. Its React client lists the methods, edits the request
headers, cleans comments out of the message text and sends the call.

This project models the sequential logic at the heart of those pieces:

- `ExampleGenerator` (`example_generator.dfy`) models `generateExampleFromType`.
  It walks the fields of a message type in declaration order and synthesises an
  example request. Repeated fields give `[]`, well-known wrapper types give bare
  defaults, scalars give zero values with a few name-keyed overrides, and nested
  messages are recursed into.
  - The source has no cycle guard. Its recursion ends only when the JavaScript
    call stack runs out. The model counts the remaining stack as `fuel`, and an
    exhausted stack is the `RangeError` the engine throws.
  - `ProtoSchema` (`proto_schema.dfy`) holds the reflected schema: types, fields,
    and the two protobufjs lookups as given functions.
- `ProtoParser` (`proto_parser.dfy`) models `parseProtoFile`:
  - the recursive search for `.proto` files, as a class whose methods push into
    the `protoFiles` and `methods` arrays;
  - the service-files-first load order;
  - the `resolvePath` import hook's candidate order;
  - the `findServices` walk that builds one record per selected method. As in
    the source, the top-level children are walked twice, so every method appears
    twice.
- `GrpcRoute` (`grpc_route.dfy`) models the `/call` handler:
  - the parameter checks;
  - the environment table;
  - the metadata filter;
  - `convertMessageForGrpc`, which wraps four named string fields as
    `{value: ...}`;
  - the reply for each outcome of loading and calling.
- `GithubRoute` (`github_route.dfy`) models the `/update-proto` route:
  - the token check;
  - the repository path the remote URL regex extracts;
  - the token-bearing URL;
  - when the original remote is written back;
  - the up-to-date tests;
  - the classification of git errors into HTTP statuses.
- `AppClient` (`app_client.dfy`) models the client:
  - `sortMethods`;
  - the header rows (`addHeader`, `removeHeader`, `handleHeaderChange`) and the
    headers object a call sends;
  - the line pass of `stripJsonComments`, a state machine over the lines of the
    message;
  - the request `handleGrpcCall` prepares.
- `Text`, `Json` and `Wrappers` hold the JavaScript string operations, JSON-like
  values with insertion-ordered keys, and `Option`/`Result`.

Code that updates state step by step is modelled with methods, loops and
classes; code that computes a value is modelled with functions:

- `ProtoScan.FindProtoFiles`, `ProtoScan.FindServices`, `ResolvePath`,
  `BuildMetadata`, `ConvertMessage`, `SortMethods`, `BuildHeadersObject`,
  `HandleHeaderChange` and `CleanLines` are methods. Each is proved equal to a
  specification function.
- The properties are proved as lemmas about those functions.

The code has no guard against recursive types, hard-codes its name overrides,
never inserts absent wrapper keys, and replaces a nested example with null only
when it has no keys; the model does the same.

Two of the code's exits do something other than what it evidently intends (see "## Findings"). `GrpcRoute.HandleCall` and `GithubRoute.Update` model the code as written. `GrpcRoute.HandleCallIntended` and `GithubRoute.UpdateIntended` model the corrected behaviour beside them.

## Model

| member | source | states |
|---|---|---|
| Text.Trim | client/src/App.js:511 | `trim` gives a text no longer than its input that neither starts nor ends with white space, and is empty exactly when the input is all white space |
| Text.TrimIsInfix | client/src/App.js:511 | `trim` removes exactly the leading and trailing white space: its result is an infix of the input with only white space before and after it |
| Text.IndexOf | client/src/App.js:519 | `indexOf` gives -1 or an index where the pattern occurs, and no occurrence lies before it |
| Text.ContainsMeans | server/utils/protoParser.js:264 | `includes` holds exactly when `indexOf` finds the pattern, that is when it occurs at some index |
| Text.ContainsInConcat | server/routes/github.js:43 | an occurrence inside a part of a string is an occurrence in the whole string |
| Json.Get | server/routes/grpc.js:160-161 | reading a key gives nothing exactly when the key is absent, and otherwise a value stored under that key |
| Json.PutKeys | server/utils/protoParser.js:254 | assigning to a key keeps the key order and appends the key only when it was absent |
| Json.PutGet | server/utils/protoParser.js:254 | after `obj[k] = v`, reading `k` gives `v` and every other key reads as before |
| Json.IndexKey | server/routes/grpc.js:152 | the key an array index gets is a non-empty run of decimal digits |
| Json.Entries | server/routes/grpc.js:97 | the entries of an object are its members; those of an array are its items keyed by index; a primitive has none |
| ProtoSchema.FirstFoundMeans | server/utils/protoParser.js:114-117 | an `a \|\| b \|\| ...` chain of lookups is null exactly when every lookup misses; otherwise it gives the node, or the exception, of the first lookup that does not miss |
| ProtoSchema.FirstFoundCons | server/utils/protoParser.js:348 | one step of a lookup chain: a found node ends it, an exception escapes, a miss moves on |
| ExampleGenerator.TargetCases | server/utils/protoParser.js:342-348 | a nested field uses its resolved type if it has one, otherwise `lookupType` and then `lookup` on its type name, with their exceptions escaping |
| ExampleGenerator.FieldNests | server/utils/protoParser.js:340-351 | a field that no scalar or wrapper rule covers is filled by a nested call on its target type |
| ExampleGenerator.NestedOf | server/utils/protoParser.js:343-344 | a nested call with no stack left throws the stack-overflow error; otherwise it gives the nested example, null when that has no keys |
| ExampleGenerator.NamedFieldsHaveNames | server/utils/protoParser.js:245-249 | the named fields are exactly the fields with a non-empty name |
| ExampleGenerator.FieldsExampleLast | server/utils/protoParser.js:244-304 | one turn of the `forEach`: an unnamed field is skipped, a field's exception aborts, otherwise its value is assigned under its name |
| ExampleGenerator.ExampleKeys | server/utils/protoParser.js:241-249 | the example's keys are exactly the names of the named fields (none for a type without fields); with distinct names they come in declaration order |
| ExampleGenerator.ExampleFieldValue | server/utils/protoParser.js:244-304 | each named field's key holds the value the field policy gives it; of several fields sharing a name, the last one's value is kept |
| ExampleGenerator.ExceptionAbortsExample | server/utils/protoParser.js:343-351 | an exception raised for one field aborts the whole example |
| ExampleGenerator.WrapperPolicy | server/utils/protoParser.js:256-304 | the wrapper defaults in the order tried: on the resolved type's name, `StringValue` gives `'hello world'` for `product_variant_id` else `''`, then `Int32Value`/`Int64Value` give 0, `BoolValue` false, `DoubleValue`/`FloatValue` 0; only when the resolved type is absent or names no wrapper is the written type name tested the same way, its `StringValue` giving `'hello world'` for any name containing `id` |
| ExampleGenerator.FieldPolicy | server/utils/protoParser.js:253-339 | a repeated field gives `[]`; for a field that is no wrapper, `string` gives `'velit'` for `campaign_tag_id`, `'hello world'` for names with `id` but not `campaign`, else `''`; integer kinds give 0 except `'61974'` for `campaign_id`; `bool` gives false except for `is_zepto_three_enabled`; floats give 0; an unlisted undotted type without a resolved type gives `''` |
| ExampleGenerator.NestedPolicy | server/utils/protoParser.js:340-360 | a message field nests the example of its resolved type, or of the type `lookupType` and then `lookup` find for a dotted name, and an empty one becomes null; a dotted name neither lookup finds gives null; a lookup's exception propagates; with no stack left the nested call overflows |
| ExampleGenerator.FieldsExampleMoreFuel | server/utils/protoParser.js:244-364 | a field list whose example completes gives the same example with more stack |
| ExampleGenerator.FieldExampleMoreFuel | server/utils/protoParser.js:253-360 | a field whose value completes gives the same value with more stack |
| ExampleGenerator.NestedMoreFuel | server/utils/protoParser.js:343-351 | a nested call that completes gives the same value with more stack |
| ExampleGenerator.NestedValueOk | server/utils/protoParser.js:343-344 | a nested value is produced only from a nested example that completed |
| ExampleGenerator.ExampleMoreFuel | server/utils/protoParser.js:228-367 | an example that completes never changes when the call stack is deeper |
| ExampleGenerator.ClosedPrefixCompletes | server/utils/protoParser.js:244-364 | over fields that nest only linked types, every prefix of the `forEach` completes once the stack is as deep as the nesting |
| ExampleGenerator.NestedFieldCompletes | server/utils/protoParser.js:342-344 | a named field whose linked type is closed and shallow enough yields a value |
| ExampleGenerator.ClosedCompletes | server/utils/protoParser.js:228-367 | a type whose nesting goes only through linked types always yields an example once the stack is as deep as the nesting |
| ExampleGenerator.SelfReferenceNeverCompletes | server/utils/protoParser.js:345-351 | there is no cycle guard: a type with a field whose type name looks the type itself up never yields an example, whatever the stack depth |
| ProtoParser.LastSlash | server/utils/protoParser.js:43 | the index of the last `/`, or -1 when there is none |
| ProtoParser.Dirname | server/utils/protoParser.js:43 | `path.dirname` is `.` for a bare name, `/` when the only `/` is the first character, and otherwise the path up to its last `/` |
| ProtoParser.JoinAllSnoc | server/utils/protoParser.js:18-19 | joining one more name onto a joined path is joining the whole list |
| ProtoParser.FilesInAreProto | server/utils/protoParser.js:14-27 | every file found ends in `.proto`, in its full and its relative path |
| ProtoParser.ProtoScan.constructor | server/utils/protoParser.js:10-11 | the scan starts with empty `methods` and `protoFiles` arrays |
| ProtoParser.ProtoScan.FindProtoFiles | server/utils/protoParser.js:14-27 | `findProtoFiles` appends the `.proto` files below the directory, in walk order, with full and relative paths, and leaves `methods` alone |
| ProtoParser.ProtoScan.VisitEntry | server/utils/protoParser.js:17-26 | one entry: a directory is searched recursively, a `.proto` file is pushed, anything else is ignored |
| ProtoParser.ServiceFiles | server/utils/protoParser.js:83 | the service group holds only files of the input whose relative path contains `service` and `_service.proto` |
| ProtoParser.OtherFiles | server/utils/protoParser.js:84 | the other group holds only files of the input that fail that test |
| ProtoParser.LoadOrderPermutes | server/utils/protoParser.js:83-85 | the load order is a permutation of the files found |
| ProtoParser.LoadOrderServiceFirst | server/utils/protoParser.js:83-85 | every service file is loaded before every other file |
| ProtoParser.LoadOrderStable | server/utils/protoParser.js:83-85 | each group keeps the order the files were found in, since each filter distributes over concatenation |
| ProtoParser.ServiceSuffixSuffices | server/utils/protoParser.js:83 | a path containing `_service.proto` contains `service`, so the first test adds nothing |
| ProtoParser.FirstExisting | server/utils/protoParser.js:70-79 | an existing result is the fallback or one of the candidates |
| ProtoParser.FirstExistingMeans | server/utils/protoParser.js:40-80 | the result is the earliest existing candidate, or the target unchanged when none exists |
| ProtoParser.ResolvePath | server/utils/protoParser.js:40-80 | `resolvePath` returns the first existing candidate: origin-relative, then `protoDir/target`, then the five fixed subdirectories, else `target` |
| ProtoParser.MethodRecord | server/utils/protoParser.js:161-179 | every record carries the method's name and service, and `fullName` is `service.method` |
| ProtoParser.RequestTypePolicy | server/utils/protoParser.js:107-180 | the four lookups are tried in order and the first that does not miss decides: a node found gives its type name (or `Unknown` when it has none) and its example, while an exception from that lookup or from the example gives the unknown record; all four missing gives `Unknown` and `{}`; an empty name is recorded as written; the response type is the written name |
| ProtoParser.SelfReferentialRequestIsUnknown | server/utils/protoParser.js:142-180 | a request type that refers to itself by name overflows the stack, and the caught error gives the unknown record |
| ProtoParser.WalkRecords | server/utils/protoParser.js:100-189 | every record of the walk belongs to a selected method and is named `service.method` |
| ProtoParser.ServiceRecordsSelected | server/utils/protoParser.js:101-183 | a service yields a record for every selected method (all of them, or those named `specific`) and only for those; with no specific method exactly one per method, in declaration order |
| ProtoParser.WalkOrigins | server/utils/protoParser.js:100-189 | every record of the walk is the record of a selected method of some service at or below the node walked |
| ProtoParser.WalkFindsNamed | server/utils/protoParser.js:100-189 | for a specific name, the walk is non-empty exactly when some service at or below the node declares a method with that name |
| ProtoParser.WalkReachesAnyDepth | server/utils/protoParser.js:184-189 | the walk reaches services nested at any depth |
| ProtoParser.FindFirst | server/utils/protoParser.js:215 | `find` gives the first record with the name, or nothing when no record has it |
| ProtoParser.FindFirstAppend | server/utils/protoParser.js:215 | searching a concatenation finds a match in the first part before any match in the second |
| ProtoParser.Paths | server/utils/protoParser.js:87-89 | the loader receives each file's full path, in load order |
| ProtoParser.ProtoScan.FindServices | server/utils/protoParser.js:100-190 | `findServices` appends the walk's records to `methods` and leaves `protoFiles` alone |
| ProtoParser.ParseProtoFile | server/utils/protoParser.js:9-223 | `parseProtoFile` finds the files, loads them in service-first order, walks the top-level children twice, and returns the list or the first match |
| ProtoParser.NoFilesNoMethods | server/utils/protoParser.js:33-36 | with no `.proto` file the result is the empty list, even when one method is asked for |
| ProtoParser.ListedTwice | server/utils/protoParser.js:192-202 | the full list is the walk twice over: its second half repeats its first, so every method appears an even number of times |
| ProtoParser.Doubled | server/utils/protoParser.js:193-201 | a list pushed twice has equal halves and even multiplicities |
| ProtoParser.SpecificIsFirstMatch | server/utils/protoParser.js:192-220 | a specific method gives the first matching record of the walk, whose name is the one asked for, and null exactly when no service of the loaded root declares a method with that name |
| GrpcRoute.EnvironmentHost | server/routes/grpc.js:13-16 | the table has an entry exactly for `QA` and `PROD`, each with its host |
| GrpcRoute.ConstructorPassesAsWritten | server/routes/grpc.js:32 | the check as written lets `constructor` through although no environment has that name |
| GrpcRoute.EnvironmentCheckExact | server/routes/grpc.js:32-37 | the intended check accepts exactly `QA` and `PROD`, each with its host in the table |
| GrpcRoute.MetadataPairsMeans | server/routes/grpc.js:96-102 | the metadata holds exactly the header entries whose value is a non-empty string, key and value copied |
| GrpcRoute.BuildMetadata | server/routes/grpc.js:95-102 | the loop adds the non-empty string entries of an object, and nothing for missing or non-object headers |
| GrpcRoute.ConvertMessage | server/routes/grpc.js:147-178 | `convertMessageForGrpc` returns a falsy or non-object message as it came, and otherwise wraps the listed fields of a shallow copy of its entries, one name after another |
| GrpcRoute.WrapIdempotent | server/routes/grpc.js:163-173 | wrapping a wrapped value changes nothing, and a wrapped value is neither a string nor null |
| GrpcRoute.ConvertFieldKeysGet | server/routes/grpc.js:160-174 | one listed name: the keys stay, and a present key's value is wrapped |
| GrpcRoute.ConvertFieldsKeys | server/routes/grpc.js:152-175 | the conversion adds and removes no key |
| GrpcRoute.ConvertFieldsGet | server/routes/grpc.js:159-175 | each present listed key's value is wrapped, and every other key's value is unchanged |
| GrpcRoute.ConvertFieldsSettled | server/routes/grpc.js:163-173 | once no listed key holds a string or null, the conversion changes nothing |
| GrpcRoute.ConvertedIdempotent | server/routes/grpc.js:147-178 | converting a converted message changes nothing |
| GrpcRoute.ConvertedObject | server/routes/grpc.js:152-177 | an object keeps its keys; a listed string `v` becomes `{value: v}`, null becomes `{value: ''}`, absent keys stay absent, other values are kept |
| GrpcRoute.IndexKeysUnlisted | server/routes/grpc.js:156-160 | no array index key is one of the listed names |
| GrpcRoute.ConvertedOthers | server/routes/grpc.js:148-152 | a falsy or primitive message is returned unchanged; an array becomes an object keyed by index |
| GrpcRoute.HandleCall | server/routes/grpc.js:21-141 | the handler, with the environment check as written, answers 200, 400, 404 or 500, and 200 exactly when the call returned a response |
| GrpcRoute.HandleCallIntended | server/routes/grpc.js:21-141 | the handler with only `QA` and `PROD` passing the environment check answers with the same statuses |
| GrpcRoute.MissingParametersFirst | server/routes/grpc.js:25-30 | a falsy method, service, environment or message gives the 400 "Missing required parameters", whatever the backend |
| GrpcRoute.InvalidEnvironmentBeforeLoading | server/routes/grpc.js:32-37 | a name that is neither `QA`, `PROD` nor inherited from `Object.prototype` gives the 400 "Invalid environment" before the proto is loaded or a client made |
| GrpcRoute.InheritedEnvironmentReachesLoading | server/routes/grpc.js:32-92 | an inherited name such as `constructor` passes the check and reaches the proto file and loader checks; past them, making the client with a non-string address fails with the 500 "gRPC call failed"; it never gets the 400 "Invalid environment" nor a 200 |
| GrpcRoute.HandlersAgreeOffPrototype | server/routes/grpc.js:32 | the handler as written and as intended answer alike for every name not inherited from `Object.prototype` |
| GrpcRoute.InvalidEnvironmentBeforeLoadingIntended | server/routes/grpc.js:32-37 | corrected handler: every name other than `QA` and `PROD` gives the 400 "Invalid environment" before loading |
| GrpcRoute.SuccessfulCallIsShaped | server/routes/grpc.js:89-131 | a 200 comes from one call to the chosen environment's host with the converted message and the filtered metadata |
| GithubRoute.RepoPathAfter | server/routes/github.js:43-48 | after a prefix without `github.com`, the path is the rest after `github.com/` or `github.com:`, less one trailing `.git` |
| GithubRoute.RepoPathOfAuthenticatedUrl | server/routes/github.js:43-58 | the path read off an authenticated URL is the path it was built from |
| GithubRoute.RepoPathOfGitSuffix | server/routes/github.js:41-48 | `https://github.com/o.git` and `git@github.com:o.git` both give `o` |
| GithubRoute.RepoPathOfRemotes | server/routes/github.js:41-48 | an HTTPS remote and an SSH remote of the same repository give the same path, with or without `.git` |
| GithubRoute.NoGithubNoPath | server/routes/github.js:43-55 | a remote without `github.com` has an empty path, which is refused |
| GithubRoute.AtPrefixInToken | server/routes/github.js:58 | `github.com` before the `@` of an authenticated URL lies inside the token |
| GithubRoute.TokenPrefixClean | server/routes/github.js:58 | a token without `github.com` puts none before the `@` |
| GithubRoute.AuthenticatedUrlNotRestorable | server/routes/github.js:191 | an authenticated URL is never written back as an original remote |
| GithubRoute.UpToDateTests | server/routes/github.js:128-143 | a pull is up to date when its summary contains `up to date` or its file list is empty; a pull error is swallowed exactly when it contains `up to date` |
| GithubRoute.PullSummaryIgnored | server/routes/github.js:115-135 | the up-to-date test on a pull's result only chooses a log line: the reply and the remote do not depend on the summary or the files |
| GithubRoute.PullConflictText | server/routes/github.js:180-184 | the 409 text of a conflicting pull quotes the pull error |
| GithubRoute.GitConflictText | server/routes/github.js:233-237 | the 409 text of a conflicting git step quotes the git error |
| GithubRoute.GitFailedText | server/routes/github.js:241-244 | the 500 text quotes the git error |
| GithubRoute.ClassifyGitErrorCases | server/routes/github.js:211-244 | `Authentication`/`401`/`Bad credentials` give 401, then `Permission denied`/`403`/`not found`/`Not Found` give 403, then `CONFLICT`/`conflict` give 409, anything else 500; 409 and 500 quote the message |
| GithubRoute.ConflictOutcomeAsWritten | server/routes/github.js:179-185 | the conflict 409 as written leaves the token URL as the remote |
| GithubRoute.ConflictOutcome | server/routes/github.js:179-193 | corrected conflict exit: the 409 with the original remote written back when it may be |
| GithubRoute.ConflictKeepsTokenAsWritten | server/routes/github.js:179-193 | for every remote that should be written back, the conflict exit as written leaves the token URL instead |
| GithubRoute.Update | server/routes/github.js:14-245 | the route as written leaves the remote as it was or as the token URL built from its own path |
| GithubRoute.UpdateIntended | server/routes/github.js:14-245 | the route with the conflict exit corrected leaves the remote as it was or as the token URL |
| GithubRoute.TokenCheckedFirst | server/routes/github.js:18-23 | without a token the route answers 400 before any repository access, whatever the repository |
| GithubRoute.UpdateStatuses | server/routes/github.js:14-291 | the route answers 200, 400, 401, 403, 404, 409 or 500, and 200 only after a pull that went through or was up to date and a non-empty read of the proto files |
| GithubRoute.ConflictLeavesToken | server/routes/github.js:157-185 | as written, a conflicting pull answers 409 quoting the error and leaves the token URL as the remote, which differs from any original that should have been written back |
| GithubRoute.RemoteRestoredExceptOnConflict | server/routes/github.js:60-208 | as written, an original remote that may be written back is left in place on every exit except the conflict exit |
| GithubRoute.TokenUrlLeftBehindAsWritten | server/routes/github.js:60-208 | as written, the token URL stays exactly when it was written and then not replaced: the original may not be written back, or the pull conflicted |
| GithubRoute.UpdateAgreesOffConflict | server/routes/github.js:179-185 | off the conflict exit, the route as written and the corrected one give the same reply and remote |
| GithubRoute.RemoteRestored | server/routes/github.js:190-208 | corrected route: the remote is left as it was or as the token URL, and a remote that may be written back always is |
| GithubRoute.TokenUrlLeftBehind | server/routes/github.js:60-208 | corrected route: the token URL stays exactly when it was written and the original remote may not be written back |
| GithubRoute.UpToDateErrorIsSuccess | server/routes/github.js:136-145 | a pull error saying `up to date` goes on exactly like a pull that went through |
| AppClient.PriorityIndex | client/src/App.js:324-325 | `indexOf` on the priority list is -1 exactly for other names, and otherwise the first position of the name |
| AppClient.NameLeTotal | client/src/App.js:330 | any two names compare one way or the other |
| AppClient.NameLeTrans | client/src/App.js:330 | the name order is transitive |
| AppClient.RankLeTotalPreorder | client/src/App.js:323-327 | the priority comparator is a total preorder |
| AppClient.NameOrderTotalPreorder | client/src/App.js:330 | the name comparator is a total preorder |
| AppClient.InsertPerm | client/src/App.js:323-330 | inserting adds exactly the one element |
| AppClient.InsertSorted | client/src/App.js:323-330 | inserting into a sorted list keeps it sorted |
| AppClient.SortBySorted | client/src/App.js:323-330 | the library sort returns its input in the comparator's order |
| AppClient.SortByPerm | client/src/App.js:323-330 | the library sort drops and repeats nothing |
| AppClient.PartitionPerm | client/src/App.js:314-320 | the `forEach` puts every method on exactly one side |
| AppClient.PriorityPartSide | client/src/App.js:315-316 | the priority side holds only priority methods |
| AppClient.OtherPartSide | client/src/App.js:317-318 | the other side holds no priority method |
| AppClient.SortMethods | client/src/App.js:310-333 | the partition loop followed by the two sorts computes `sortMethods` |
| AppClient.ConcatOrdered | client/src/App.js:332 | the sorted priority side followed by the sorted other side keeps both orders |
| AppClient.SortByMembers | client/src/App.js:323-330 | sorting keeps every element on its side |
| AppClient.SortedMethodsCorrect | client/src/App.js:302-333 | the result is a permutation of the input; every priority method precedes every other one, in the order of `priorityMethods`; the others are in ascending name order |
| AppClient.HeaderRow.constructor | client/src/App.js:480 | a new row holds the given key, value and enabled flag |
| AppClient.Snapshot | client/src/App.js:610-611 | the contents of the rows, one header per row, in order |
| AppClient.AddHeader | client/src/App.js:479-481 | the new array keeps the old rows and appends one fresh, empty, enabled row |
| AppClient.RemoveFromOutside | client/src/App.js:484 | an index outside the list filters nothing out |
| AppClient.RemoveFromInside | client/src/App.js:484 | an index inside the list filters out exactly that entry |
| AppClient.RemoveAtMeans | client/src/App.js:483-485 | `removeHeader(i)` drops exactly entry `i` and keeps the others in order; an index outside the list changes nothing |
| AppClient.RemoveAddedRow | client/src/App.js:479-485 | removing the row just added gives back the rows before it |
| AppClient.ApplyEditOnlyField | client/src/App.js:471-475 | an edit sets its own field, leaves the other two, and repeating it changes nothing |
| AppClient.HandleHeaderChange | client/src/App.js:469-477 | the new array holds the same row objects, and the edited row changes only in the named field |
| AppClient.LastSentMeans | client/src/App.js:611-614 | the last sending row for a key is absent exactly when no row sends it, and otherwise no later row sends it |
| AppClient.HeadersObjectGet | client/src/App.js:610-615 | `headersObj` has a key exactly for the enabled rows with a non-empty key, and it holds the last such row's value |
| AppClient.BuildHeadersObject | client/src/App.js:610-615 | the loop builds that object from the rows |
| AppClient.SplitLines | client/src/App.js:504 | `split('\n')` gives at least one line, and no line contains a line feed |
| AppClient.JoinSplit | client/src/App.js:568 | joining the lines of a split gives back the text |
| AppClient.SplitJoin | client/src/App.js:568 | splitting a join of lines without line feeds gives back the lines |
| AppClient.QuotedValueOf | client/src/App.js:547 | a quoted value with an optional comma is recognised as standalone, and its text captured |
| AppClient.UuidValueOf | client/src/App.js:549 | a UUID with an optional comma is recognised as standalone, and its text captured |
| AppClient.Step | client/src/App.js:509-566 | a turn of the loop keeps the state consistent: the pass waits exactly when it remembers a key line, and that line exists |
| AppClient.Run | client/src/App.js:509-566 | the same consistency holds after any number of lines |
| AppClient.RunSnoc | client/src/App.js:509 | the state after one more line is one more turn |
| AppClient.CleanLines | client/src/App.js:504-566 | the loop computes the line pass |
| AppClient.CleanLine | client/src/App.js:510-566 | one turn of the loop, with `continue` as an early return |
| AppClient.TakeValue | client/src/App.js:544-565 | the end of a turn: a waiting key takes a standalone value, or the wait ends and the line is kept |
| AppClient.BlankAndCommentLinesDropped | client/src/App.js:511-516 | an empty line or a line that is only a comment leaves the state unchanged |
| AppClient.CommentAfterEvenQuotesCut | client/src/App.js:519-541 | a `//` after an even, non-zero number of quotes cuts the line to its trimmed text before the comment, or drops it when that is empty |
| AppClient.OtherLinesKept | client/src/App.js:519-565 | a line without a cut comment (no `//`, or zero or an odd number of quotes before it) is kept whole when no key waits |
| AppClient.KeyLineWaits | client/src/App.js:529-533 | a key line whose value is commented out is kept up to its colon, and the pass waits on it |
| AppClient.WaitingTakesValue | client/src/App.js:545-556 | while waiting, a standalone value is appended, quoted, to the remembered key line |
| AppClient.KeyTakesNextValue | client/src/App.js:529-556 | a key line with a commented value and a standalone value on the next line become one line, `key: "value"` |
| AppClient.WaitEndsOnOtherLine | client/src/App.js:557-565 | a line that is not a standalone value ends the wait and is kept whole |
| AppClient.StepKeepsNoBlankLine | client/src/App.js:509-566 | one turn adds at most one line and never a blank one |
| AppClient.RunKeepsNoBlankLine | client/src/App.js:509-566 | the pass keeps no more lines than it reads, and none of them is blank |
| AppClient.NoMethodNoRequest | client/src/App.js:587-591 | with no method selected the call is refused with "Please select a gRPC method" and nothing is sent |
| AppClient.SentRequestPassesServerChecks | client/src/App.js:598-625 | a sent request names the selected method on `StoreProductService` and carries the parsed message and the headers object; with a known environment and a truthy message it passes the server's own checks |

## Left out

- File-system access (`readdir`, `existsSync`, `fs.access`, `readFile`) is not modelled. A directory tree is a value, file existence is a set of paths, and the outcome of reading the proto files is a parameter of `GithubRoute.Update`. `readProtoFiles` itself (server/routes/github.js:314-335) is not part of this model.
- protobufjs (`Root.load`, `lookupType`, `lookup`), `@grpc/proto-loader` and grpc-js are library code. The loader is a function from the ordered paths to a loaded root. The lookups are given total functions that may return a node, null or an exception. The unary call is a function from the outgoing request to a response or an error message. With the real protobufjs, `lookupType` throws on a miss, so the null branch at server/utils/protoParser.js:352-354 is reached only if a library lookup returns null.
- `path.join` is modelled only for plain names, without `.`, `..` or repeated separators.
- ExampleGenerator.Example: the JavaScript call stack is a `fuel` count. Its real depth depends on the engine and is not modelled.
- ProtoParser.ResolveRequest: the second round of lookups through the service's parent and the package prefix (server/utils/protoParser.js:121-140) is left out. It can never change the result, because a resolved node has an empty name to look up and an unresolved one is null.
- ProtoParser.Parse: an error from `readdir` and the logging are left out.
- All simple-git operations (reading and writing the config, status, stash, pull, rebase and merge abort) are given by their outcome (`GithubRoute.GitRun`).
  - GithubRoute.Update: the stash and its restore are not modelled, since they change only the working tree.
  - GithubRoute.Update: the outer 500 for an error thrown outside the git steps is not modelled (server/routes/github.js:293-308).
  - GithubRoute.Update: timestamps, `expectedPath` fields, and the `JSON.stringify` of a non-string pull summary are not modelled.
- GrpcRoute.HandleCall: a request body whose fields are not strings is not modelled, and the `details` field of the 500 reply is left out. The timestamp is left out, and so is the `JSON.parse(JSON.stringify(response))` copy. grpc-js's own key normalisation in `Metadata.add` is library behaviour.
- GithubRoute.Update: writing the original remote back (server/routes/github.js:192) is taken to succeed. If that write threw, the outer `catch` would try it once more.
- GrpcRoute.HandleCall: the message grpc-js throws when a client is made with an address that is not a string is a parameter of the backend (`clientError`).
- AppClient.HeadersObject and GrpcRoute.MetadataPairs keep header keys in insertion order. JavaScript enumerates integer-like keys first, in ascending order, so headers keyed `b` then `1` reach `metadata.add` as `1`, `b` in the source. The model does not capture that reordering.
- JSON numbers are reals; NaN and `undefined` are not values of the model.
- AppClient.HeadersObjectGet and ExampleGenerator.FieldsExample: an object key named `__proto__` is treated like any other key. JavaScript treats an assignment to it as a prototype change.
- AppClient.SortedMethodsCorrect: `localeCompare` is approximated by the order of Unicode code points (Dafny characters). For the ASCII names of proto methods that is also the order of UTF-16 code units. Locale collation is not modelled.
- AppClient.SortedMethodsCorrect: the stability of the sorts is built into `SortBy` (stable insertion) but not stated as a separate property.
- AppClient.StripJsonComments: the regular-expression rewrites before and after the line pass (client/src/App.js:494-501, 572-581) are parameters. Only the line pass is modelled.
- AppClient.PrepareCall: `JSON.parse` is a parameter. The axios request, the tones and the React state updates are left out.
- AppClient.HandleHeaderChange: it requires an index inside the list. The source throws a `TypeError` on any other index, and that path is not modelled.
- React rendering, `localStorage`, the JSON viewer and highlighter, resizing and the Web Audio tones are not modelled. server/index.js and server/routes/proto.js are not part of this model.

## Findings

| source | as written | input that shows it | evidently intended | confidence | as-written member | corrected member |
|---|---|---|---|---|---|---|
| server/routes/grpc.js:32 | `!ENVIRONMENTS[environment]` also finds the members every object inherits | environment `"constructor"` passes the check, the proto is loaded and the client is made with no host, ending in a 500 | only `QA` and `PROD` pass | not executed | GrpcRoute.InheritedEnvironmentReachesLoading | GrpcRoute.InvalidEnvironmentBeforeLoadingIntended |
| server/routes/github.js:179-185 | the 409 for a conflicting pull returns from the inner `catch` before the original remote is written back | remote `https://github.com/zeptonow/product-assortment-service.git` and a pull failing with a `CONFLICT` message: the token URL stays in the repository's config | the original remote is written back on this exit as on every other | not executed | GithubRoute.ConflictLeavesToken | GithubRoute.RemoteRestored |

=== FILE: app_client.dfy ===
/**
 * The client's list and text logic: the order the method list is shown in,
 * the editable header rows and the object sent as headers, the line pass that
 * strips comments from the message text, and the request a call sends.
 */
module AppClient {
  import opened Wrappers
  import opened Text
  import opened Json
  import opened ProtoParser
  import opened GrpcRoute

  // ---------------------------------------------------------------------------
  // The method list: priority methods first, the rest by name

  const PriorityMethods: seq<string> := [
    "FetchProductDetail",
    "FetchDetailsForSPIdsV",
    "FetchStoreProductByStoreSubcategoryId",
    "FetchProductEnrichmentDataForCart"]

  predicate IsPriority(m: MethodInfo) {
    m.name in PriorityMethods
  }

  /** `priorityMethods.indexOf(name)`. */
  function PriorityIndex(name: string): (r: int)
    ensures -1 <= r < |PriorityMethods|
    ensures r >= 0 <==> name in PriorityMethods
    ensures r >= 0 ==> PriorityMethods[r] == name && forall j :: 0 <= j < r ==> PriorityMethods[j] != name
  {
    if name == PriorityMethods[0] then 0
    else if name == PriorityMethods[1] then 1
    else if name == PriorityMethods[2] then 2
    else if name == PriorityMethods[3] then 3
    else -1
  }

  /**
   * `a.localeCompare(b) <= 0`, taken as the order of Unicode code points: a
   * proper prefix comes first, otherwise the first differing character decides.
   */
  predicate NameLe(a: string, b: string) {
    if a == [] then true
    else if b == [] then false
    else if a[0] != b[0] then a[0] < b[0]
    else NameLe(a[1..], b[1..])
  }

  lemma {:induction false} NameLeTotal(a: string, b: string)
    ensures NameLe(a, b) || NameLe(b, a)
  {
    if a != [] && b != [] && a[0] == b[0] {
      NameLeTotal(a[1..], b[1..]);
    }
  }

  lemma {:induction false} NameLeTrans(a: string, b: string, c: string)
    requires NameLe(a, b) && NameLe(b, c)
    ensures NameLe(a, c)
  {
    if a != [] && b != [] && c != [] && a[0] == b[0] && b[0] == c[0] {
      NameLeTrans(a[1..], b[1..], c[1..]);
    }
  }

  /** The comparator of the priority methods: their positions in `PriorityMethods`. */
  predicate RankLe(x: MethodInfo, y: MethodInfo) {
    PriorityIndex(x.name) <= PriorityIndex(y.name)
  }

  /** The comparator of the other methods: `localeCompare` on their names. */
  predicate NameOrder(x: MethodInfo, y: MethodInfo) {
    NameLe(x.name, y.name)
  }

  /** A comparator that relates any two methods one way or the other, transitively. */
  ghost predicate TotalPreorder(le: (MethodInfo, MethodInfo) -> bool) {
    && (forall x, y :: le(x, y) || le(y, x))
    && (forall x, y, z :: le(x, y) && le(y, z) ==> le(x, z))
  }

  lemma RankLeTotalPreorder()
    ensures TotalPreorder(RankLe)
  {
  }

  lemma NameOrderTotalPreorder()
    ensures TotalPreorder(NameOrder)
  {
    forall x, y
      ensures NameOrder(x, y) || NameOrder(y, x)
    {
      NameLeTotal(x.name, y.name);
    }
    forall x, y, z | NameOrder(x, y) && NameOrder(y, z)
      ensures NameOrder(x, z)
    {
      NameLeTrans(x.name, y.name, z.name);
    }
  }

  predicate SortedBy(le: (MethodInfo, MethodInfo) -> bool, s: seq<MethodInfo>) {
    forall i, j :: 0 <= i < j < |s| ==> le(s[i], s[j])
  }

  /** `x` placed before the first element that sorts strictly after it. */
  function Insert(le: (MethodInfo, MethodInfo) -> bool, x: MethodInfo, s: seq<MethodInfo>): seq<MethodInfo> {
    if s == [] then [x]
    else if !le(s[0], x) then [x] + s
    else [s[0]] + Insert(le, x, s[1..])
  }

  /**
   * `Array.prototype.sort` with the comparator `le`: a stable sort, written
   * as insertion of each element, in order, into the sorted elements before it.
   */
  function SortBy(le: (MethodInfo, MethodInfo) -> bool, s: seq<MethodInfo>): seq<MethodInfo> {
    if s == [] then [] else Insert(le, s[|s| - 1], SortBy(le, s[..|s| - 1]))
  }

  lemma {:induction false} InsertPerm(le: (MethodInfo, MethodInfo) -> bool, x: MethodInfo, s: seq<MethodInfo>)
    ensures multiset(Insert(le, x, s)) == multiset(s) + multiset{x}
  {
    if s != [] && le(s[0], x) {
      InsertPerm(le, x, s[1..]);
      assert s == [s[0]] + s[1..];
    }
  }

  lemma {:induction false} InsertSorted(le: (MethodInfo, MethodInfo) -> bool, x: MethodInfo, s: seq<MethodInfo>)
    requires TotalPreorder(le) && SortedBy(le, s)
    ensures SortedBy(le, Insert(le, x, s))
  {
    if s == [] {
    } else if !le(s[0], x) {
      forall j | 0 <= j < |s|
        ensures le(x, s[j])
      {
        if j > 0 { assert le(x, s[0]) && le(s[0], s[j]); }
      }
    } else {
      var rest := Insert(le, x, s[1..]);
      InsertSorted(le, x, s[1..]);
      InsertPerm(le, x, s[1..]);
      forall j | 0 <= j < |rest|
        ensures le(s[0], rest[j])
      {
        assert rest[j] in multiset(rest);
        assert rest[j] == x || rest[j] in s[1..];
      }
    }
  }

  /** The sort returns its input in the comparator's order. */
  lemma {:induction false} SortBySorted(le: (MethodInfo, MethodInfo) -> bool, s: seq<MethodInfo>)
    requires TotalPreorder(le)
    ensures SortedBy(le, SortBy(le, s))
  {
    if s != [] {
      SortBySorted(le, s[..|s| - 1]);
      InsertSorted(le, s[|s| - 1], SortBy(le, s[..|s| - 1]));
    }
  }

  /** The sort returns its input reordered: nothing dropped, nothing repeated. */
  lemma {:induction false} SortByPerm(le: (MethodInfo, MethodInfo) -> bool, s: seq<MethodInfo>)
    ensures multiset(SortBy(le, s)) == multiset(s)
  {
    if s != [] {
      var init := s[..|s| - 1];
      SortByPerm(le, init);
      InsertPerm(le, s[|s| - 1], SortBy(le, init));
      assert s == init + [s[|s| - 1]];
    }
  }

  /** The methods `forEach` pushes into `priority`. */
  function PriorityPart(ms: seq<MethodInfo>): seq<MethodInfo> {
    if ms == [] then []
    else PriorityPart(ms[..|ms| - 1]) + (if IsPriority(ms[|ms| - 1]) then [ms[|ms| - 1]] else [])
  }

  /** The methods `forEach` pushes into `others`. */
  function OtherPart(ms: seq<MethodInfo>): seq<MethodInfo> {
    if ms == [] then []
    else OtherPart(ms[..|ms| - 1]) + (if IsPriority(ms[|ms| - 1]) then [] else [ms[|ms| - 1]])
  }

  lemma {:induction false} PartitionPerm(ms: seq<MethodInfo>)
    ensures multiset(PriorityPart(ms)) + multiset(OtherPart(ms)) == multiset(ms)
  {
    if ms != [] {
      var init, last := ms[..|ms| - 1], ms[|ms| - 1];
      PartitionPerm(init);
      assert ms == init + [last];
      assert multiset(ms) == multiset(init) + multiset{last};
    }
  }

  lemma {:induction false} PriorityPartSide(ms: seq<MethodInfo>)
    ensures forall i :: 0 <= i < |PriorityPart(ms)| ==> IsPriority(PriorityPart(ms)[i])
  {
    if ms != [] { PriorityPartSide(ms[..|ms| - 1]); }
  }

  lemma {:induction false} OtherPartSide(ms: seq<MethodInfo>)
    ensures forall i :: 0 <= i < |OtherPart(ms)| ==> !IsPriority(OtherPart(ms)[i])
  {
    if ms != [] { OtherPartSide(ms[..|ms| - 1]); }
  }

  /** `sortMethods(methodsList)`. */
  function SortedMethods(ms: seq<MethodInfo>): seq<MethodInfo> {
    SortBy(RankLe, PriorityPart(ms)) + SortBy(NameOrder, OtherPart(ms))
  }

  /** `sortMethods`: the partition loop, then the two library sorts. */
  method SortMethods(methodsList: seq<MethodInfo>) returns (r: seq<MethodInfo>)
    ensures r == SortedMethods(methodsList)
  {
    var priority: seq<MethodInfo> := [];
    var others: seq<MethodInfo> := [];
    for i := 0 to |methodsList|
      invariant priority == PriorityPart(methodsList[..i])
      invariant others == OtherPart(methodsList[..i])
    {
      assert methodsList[..i + 1][..i] == methodsList[..i];
      var method_ := methodsList[i];
      if method_.name in PriorityMethods {
        priority := priority + [method_];
      } else {
        others := others + [method_];
      }
    }
    assert methodsList[..|methodsList|] == methodsList;
    priority := SortBy(RankLe, priority);
    others := SortBy(NameOrder, others);
    r := priority + others;
  }

  /** The priority side sorted by rank, then the other side sorted by name, keep their sides in order. */
  lemma {:induction false} ConcatOrdered(p: seq<MethodInfo>, o: seq<MethodInfo>)
    requires forall i :: 0 <= i < |p| ==> IsPriority(p[i])
    requires forall i :: 0 <= i < |o| ==> !IsPriority(o[i])
    requires SortedBy(RankLe, p) && SortedBy(NameOrder, o)
    ensures var r := p + o;
      && (forall i, j :: 0 <= i < j < |r| && IsPriority(r[j]) ==> IsPriority(r[i]) && PriorityIndex(r[i].name) <= PriorityIndex(r[j].name))
      && (forall i, j :: 0 <= i < j < |r| && !IsPriority(r[i]) ==> NameLe(r[i].name, r[j].name))
  {
    var r := p + o;
    forall i, j | 0 <= i < j < |r|
      ensures IsPriority(r[j]) ==> IsPriority(r[i]) && PriorityIndex(r[i].name) <= PriorityIndex(r[j].name)
      ensures !IsPriority(r[i]) ==> NameLe(r[i].name, r[j].name)
    {
      if j < |p| {
        assert r[i] == p[i] && r[j] == p[j];
        assert RankLe(p[i], p[j]);
      } else if i >= |p| {
        assert r[i] == o[i - |p|] && r[j] == o[j - |p|];
        assert NameOrder(o[i - |p|], o[j - |p|]);
      } else {
        assert r[i] == p[i] && r[j] == o[j - |p|];
      }
    }
  }

  /** A sort keeps the elements of a side on that side. */
  lemma SortByMembers(le: (MethodInfo, MethodInfo) -> bool, s: seq<MethodInfo>, priority: bool)
    requires forall i :: 0 <= i < |s| ==> IsPriority(s[i]) == priority
    ensures forall i :: 0 <= i < |SortBy(le, s)| ==> IsPriority(SortBy(le, s)[i]) == priority
  {
    var r := SortBy(le, s);
    SortByPerm(le, s);
    forall i | 0 <= i < |r|
      ensures IsPriority(r[i]) == priority
    {
      assert r[i] in multiset(r);
      assert r[i] in s;
    }
  }

  /**
   * The sorted list holds the same methods; no priority method follows a
   * non-priority one; priority methods follow the order of `PriorityMethods`;
   * the others are in ascending name order.
   */
  lemma SortedMethodsCorrect(ms: seq<MethodInfo>)
    ensures var r := SortedMethods(ms);
      && multiset(r) == multiset(ms)
      && (forall i, j :: 0 <= i < j < |r| && IsPriority(r[j]) ==> IsPriority(r[i]) && PriorityIndex(r[i].name) <= PriorityIndex(r[j].name))
      && (forall i, j :: 0 <= i < j < |r| && !IsPriority(r[i]) ==> NameLe(r[i].name, r[j].name))
  {
    PartitionPerm(ms);
    PriorityPartSide(ms);
    OtherPartSide(ms);
    SortByPerm(RankLe, PriorityPart(ms));
    SortByPerm(NameOrder, OtherPart(ms));
    RankLeTotalPreorder();
    NameOrderTotalPreorder();
    SortBySorted(RankLe, PriorityPart(ms));
    SortBySorted(NameOrder, OtherPart(ms));
    SortByMembers(RankLe, PriorityPart(ms), true);
    SortByMembers(NameOrder, OtherPart(ms), false);
    ConcatOrdered(SortBy(RankLe, PriorityPart(ms)), SortBy(NameOrder, OtherPart(ms)));
  }

  // ---------------------------------------------------------------------------
  // Header rows

  /** A header row as the form holds it. */
  class HeaderRow {
    var key: string
    var value: string
    var enabled: bool

    constructor (key: string, value: string, enabled: bool)
      ensures this.key == key && this.value == value && this.enabled == enabled
    {
      this.key := key;
      this.value := value;
      this.enabled := enabled;
    }
  }

  /** A header row's contents. */
  datatype Header = Header(key: string, value: string, enabled: bool)

  /** The contents of the rows, in order. */
  function Snapshot(rows: seq<HeaderRow>): (hs: seq<Header>)
    reads rows
    ensures |hs| == |rows|
    ensures forall i :: 0 <= i < |rows| ==> hs[i] == Header(rows[i].key, rows[i].value, rows[i].enabled)
  {
    if rows == [] then []
    else
      var last := rows[|rows| - 1];
      Snapshot(rows[..|rows| - 1]) + [Header(last.key, last.value, last.enabled)]
  }

  /** `addHeader`: a new array with one fresh, empty, enabled row at the end. */
  method AddHeader(rows: seq<HeaderRow>) returns (newRows: seq<HeaderRow>)
    ensures |newRows| == |rows| + 1 && newRows[..|rows|] == rows && fresh(newRows[|rows|])
    ensures Snapshot(newRows) == Snapshot(rows) + [Header("", "", true)]
  {
    var row := new HeaderRow("", "", true);
    newRows := rows + [row];
    assert newRows[..|rows|] == rows;
  }

  /** `s.filter((_, i) => i !== index)`, with `base` the index of `s[0]`. */
  function RemoveFrom<T>(s: seq<T>, index: int, base: int): seq<T> {
    if s == [] then []
    else (if base == index then [] else [s[0]]) + RemoveFrom(s[1..], index, base + 1)
  }

  /** `removeHeader(index)`. */
  function RemoveAt<T>(s: seq<T>, index: int): seq<T> {
    RemoveFrom(s, index, 0)
  }

  lemma {:induction false} RemoveFromOutside<T>(s: seq<T>, index: int, base: int)
    requires !(base <= index < base + |s|)
    ensures RemoveFrom(s, index, base) == s
  {
    if s != [] {
      RemoveFromOutside(s[1..], index, base + 1);
      assert [s[0]] + s[1..] == s;
    }
  }

  lemma {:induction false} RemoveFromInside<T>(s: seq<T>, index: int, base: int)
    requires base <= index < base + |s|
    ensures RemoveFrom(s, index, base) == s[..index - base] + s[index - base + 1..]
  {
    if index == base {
      RemoveFromOutside(s[1..], index, base + 1);
      assert s[..0] + s[1..] == s[1..];
    } else {
      var t := s[1..];
      RemoveFromInside(t, index, base + 1);
      assert RemoveFrom(s, index, base) == [s[0]] + (t[..index - base - 1] + t[index - base..]);
      assert s[..index - base] == [s[0]] + t[..index - base - 1];
      assert s[index - base + 1..] == t[index - base..];
    }
  }

  /**
   * Removing drops exactly the entry at `index` and keeps the others in order;
   * an index outside the list removes nothing.
   */
  lemma RemoveAtMeans<T>(s: seq<T>, index: int)
    ensures 0 <= index < |s| ==> |RemoveAt(s, index)| == |s| - 1
    ensures 0 <= index < |s| ==> forall k :: 0 <= k < |s| - 1 ==> RemoveAt(s, index)[k] == if k < index then s[k] else s[k + 1]
    ensures !(0 <= index < |s|) ==> RemoveAt(s, index) == s
  {
    if 0 <= index < |s| { RemoveFromInside(s, index, 0); } else { RemoveFromOutside(s, index, 0); }
  }

  /** Removing the row just added gives back the rows before it. */
  lemma RemoveAddedRow<T>(s: seq<T>, x: T)
    ensures RemoveAt(s + [x], |s|) == s
  {
    RemoveFromInside(s + [x], |s|, 0);
    assert (s + [x])[..|s|] == s;
    assert (s + [x])[|s| + 1..] == [];
  }

  /** The edits the form makes to a row. */
  datatype Edit = SetKey(key: string) | SetValue(value: string) | SetEnabled(enabled: bool)

  function ApplyEdit(h: Header, e: Edit): Header {
    match e
    case SetKey(k) => h.(key := k)
    case SetValue(v) => h.(value := v)
    case SetEnabled(b) => h.(enabled := b)
  }

  /** An edit sets its own field and leaves the other two as they were. */
  lemma ApplyEditOnlyField(h: Header, e: Edit)
    ensures e.SetKey? ==> ApplyEdit(h, e) == Header(e.key, h.value, h.enabled)
    ensures e.SetValue? ==> ApplyEdit(h, e) == Header(h.key, e.value, h.enabled)
    ensures e.SetEnabled? ==> ApplyEdit(h, e) == Header(h.key, h.value, e.enabled)
    ensures ApplyEdit(ApplyEdit(h, e), e) == ApplyEdit(h, e)
  {
  }

  /**
   * `handleHeaderChange(index, field, value)`: the array is copied but its row
   * objects are shared, so the edit lands in the row the old array holds too.
   */
  method HandleHeaderChange(rows: seq<HeaderRow>, index: nat, e: Edit) returns (newRows: seq<HeaderRow>)
    requires index < |rows|
    modifies rows[index]
    ensures newRows == rows
    ensures Header(rows[index].key, rows[index].value, rows[index].enabled) ==
            ApplyEdit(Header(old(rows[index].key), old(rows[index].value), old(rows[index].enabled)), e)
  {
    newRows := rows;
    match e {
      case SetEnabled(b) => newRows[index].enabled := b;
      case SetKey(k) => newRows[index].key := k;
      case SetValue(v) => newRows[index].value := v;
    }
  }

  // ---------------------------------------------------------------------------
  // The headers object a call sends

  /** The object `headers.forEach` fills: enabled rows with a key, assigned in order. */
  function HeadersObject(hs: seq<Header>): seq<Member> {
    if hs == [] then []
    else
      var h := hs[|hs| - 1];
      var before := HeadersObject(hs[..|hs| - 1]);
      if h.enabled && h.key != "" then Put(before, h.key, JStr(h.value)) else before
  }

  predicate Sends(h: Header, k: string) {
    h.enabled && h.key != "" && h.key == k
  }

  /** The value of the last enabled row with key `k`, if there is one. */
  function LastSent(hs: seq<Header>, k: string): Option<string> {
    if hs == [] then None
    else if Sends(hs[|hs| - 1], k) then Some(hs[|hs| - 1].value)
    else LastSent(hs[..|hs| - 1], k)
  }

  lemma {:induction false} LastSentMeans(hs: seq<Header>, k: string)
    ensures LastSent(hs, k).None? <==> forall i :: 0 <= i < |hs| ==> !Sends(hs[i], k)
    ensures LastSent(hs, k).Some? ==> exists i :: 0 <= i < |hs| && Sends(hs[i], k) && hs[i].value == LastSent(hs, k).value
                                                && forall j :: i < j < |hs| ==> !Sends(hs[j], k)
  {
    if hs != [] {
      var init := hs[..|hs| - 1];
      LastSentMeans(init, k);
      if !Sends(hs[|hs| - 1], k) && LastSent(init, k).Some? {
        var i :| 0 <= i < |init| && Sends(init[i], k) && init[i].value == LastSent(init, k).value
                 && forall j :: i < j < |init| ==> !Sends(init[j], k);
        assert hs[i] == init[i];
      }
    }
  }

  /**
   * The headers object has a key exactly for the enabled rows with a non-empty
   * key, and each such key holds the value of the last of its rows.
   */
  lemma {:induction false} HeadersObjectGet(hs: seq<Header>, k: string)
    ensures Get(HeadersObject(hs), k) == match LastSent(hs, k) case Some(v) => Some(JStr(v)) case None => None
    ensures k in Keys(HeadersObject(hs)) <==> exists i :: 0 <= i < |hs| && Sends(hs[i], k)
  {
    if hs != [] {
      var init := hs[..|hs| - 1];
      var h := hs[|hs| - 1];
      HeadersObjectGet(init, k);
      if h.enabled && h.key != "" {
        PutGet(HeadersObject(init), h.key, JStr(h.value), k);
      }
    }
    LastSentMeans(hs, k);
  }

  /** `headers.forEach(...)` over the rows, assigning into `headersObj`. */
  method BuildHeadersObject(rows: seq<HeaderRow>) returns (headersObj: seq<Member>)
    ensures headersObj == HeadersObject(Snapshot(rows))
  {
    headersObj := [];
    ghost var hs := Snapshot(rows);
    for i := 0 to |rows|
      invariant headersObj == HeadersObject(hs[..i])
    {
      assert hs[..i + 1][..i] == hs[..i];
      var header := rows[i];
      if header.enabled && header.key != "" {
        headersObj := Put(headersObj, header.key, JStr(header.value));
      }
    }
    assert hs[..|rows|] == hs;
  }

  // ---------------------------------------------------------------------------
  // The line pass of stripJsonComments

  /** `s.split('\n')`. */
  function SplitLines(s: string): (r: seq<string>)
    ensures |r| >= 1
    ensures forall i :: 0 <= i < |r| ==> '\n' !in r[i]
    decreases |s|
  {
    var i := IndexOf(s, "\n");
    if i < 0 then
      assert forall j :: 0 <= j < |s| ==> !At(s, "\n", j);
      assert forall j :: 0 <= j < |s| ==> s[j] != '\n' by {
        forall j | 0 <= j < |s| ensures s[j] != '\n' { assert !At(s, "\n", j); assert s[j..j + 1] == [s[j]]; }
      }
      [s]
    else
      assert forall j :: 0 <= j < i ==> s[j] != '\n' by {
        forall j | 0 <= j < i ensures s[j] != '\n' { assert !At(s, "\n", j); assert s[j..j + 1] == [s[j]]; }
      }
      [s[..i]] + SplitLines(s[i + 1..])
  }

  /** `lines.join('\n')`. */
  function JoinLines(ls: seq<string>): string {
    if ls == [] then ""
    else if |ls| == 1 then ls[0]
    else ls[0] + "\n" + JoinLines(ls[1..])
  }

  lemma AtNewline(s: string, j: int)
    ensures At(s, "\n", j) <==> 0 <= j < |s| && s[j] == '\n'
  {
    if 0 <= j < |s| { assert s[j..j + 1] == [s[j]]; }
  }

  lemma NoNewline(s: string)
    requires '\n' !in s
    ensures IndexOf(s, "\n") == -1
  {
    forall j | 0 <= j < |s|
      ensures !At(s, "\n", j)
    {
      AtNewline(s, j);
    }
    var r := IndexOf(s, "\n");
    AtNewline(s, r);
  }

  lemma FirstNewline(a: string, rest: string)
    requires '\n' !in a
    ensures IndexOf(a + "\n" + rest, "\n") == |a|
  {
    var s := a + "\n" + rest;
    forall j | 0 <= j < |a|
      ensures !At(s, "\n", j)
    {
      AtNewline(s, j);
      assert s[j] == a[j];
    }
    AtNewline(s, |a|);
    AtNewline(s, IndexOf(s, "\n"));
  }

  lemma SplitLinesAt(s: string, i: int)
    requires i == IndexOf(s, "\n") && i >= 0
    ensures SplitLines(s) == [s[..i]] + SplitLines(s[i + 1..])
  {
  }

  lemma JoinLinesCons(a: string, ls: seq<string>)
    requires |ls| >= 1
    ensures JoinLines([a] + ls) == a + "\n" + JoinLines(ls)
  {
    assert ([a] + ls)[1..] == ls;
  }

  lemma SplitAround(s: string, i: int)
    requires 0 <= i < |s| && s[i] == '\n'
    ensures s[..i] + "\n" + s[i + 1..] == s
  {
    var t := s[..i] + "\n" + s[i + 1..];
    assert |t| == |s|;
    forall k | 0 <= k < |s|
      ensures t[k] == s[k]
    {
      if k < i {
        assert t[k] == s[..i][k];
      } else if k > i {
        assert t[k] == s[i + 1..][k - i - 1];
      }
    }
  }

  /** Joining the pieces of a split gives back the text. */
  lemma {:induction false} JoinSplit(s: string)
    ensures JoinLines(SplitLines(s)) == s
    decreases |s|
  {
    var i := IndexOf(s, "\n");
    if i >= 0 {
      var rest := s[i + 1..];
      SplitLinesAt(s, i);
      JoinLinesCons(s[..i], SplitLines(rest));
      JoinSplit(rest);
      AtNewline(s, i);
      SplitAround(s, i);
    }
  }

  /** Splitting a join of lines without line feeds gives back the lines. */
  lemma {:induction false} SplitJoin(ls: seq<string>)
    requires |ls| >= 1 && forall i :: 0 <= i < |ls| ==> '\n' !in ls[i]
    ensures SplitLines(JoinLines(ls)) == ls
  {
    if |ls| == 1 {
      NoNewline(ls[0]);
    } else {
      var a, rest := ls[0], JoinLines(ls[1..]);
      var s := a + "\n" + rest;
      assert JoinLines(ls) == s;
      SplitJoin(ls[1..]);
      FirstNewline(a, rest);
      assert s[..|a|] == a;
      assert s[|a| + 1..] == rest;
      assert SplitLines(s) == [a] + ls[1..];
      assert [a] + ls[1..] == ls;
    }
  }

  /** The number of `"` in `s`: the length of `s.match(/"/g)`, or 0 for its null. */
  function Quotes(s: string): nat {
    if s == [] then 0 else Quotes(s[..|s| - 1]) + (if s[|s| - 1] == '"' then 1 else 0)
  }

  /** `\s*,?\s*$`: spaces, at most one comma, spaces. */
  predicate TrailingComma(r: string) {
    var k := IndexOf(r, ",");
    AllSpace(r) || (k >= 0 && AllSpace(r[..k]) && AllSpace(r[k + 1..]))
  }

  /** `/^"([^"]+)"\s*,?\s*$/`: the capture of a quoted standalone value. */
  function QuotedValue(t: string): Option<string> {
    if |t| >= 1 && t[0] == '"' then
      var j := IndexOfFrom(t, "\"", 1);
      if j >= 2 && TrailingComma(t[j + 1..]) then Some(t[1..j]) else None
    else None
  }

  predicate IsHex(c: char) {
    ('0' <= c <= '9') || ('a' <= c <= 'f') || ('A' <= c <= 'F')
  }

  /** `[a-f0-9]{8}-[a-f0-9]{4}-[a-f0-9]{4}-[a-f0-9]{4}-[a-f0-9]{12}`, case-insensitive. */
  predicate UuidShape(u: string) {
    |u| == 36 && forall i :: 0 <= i < 36 ==> if i == 8 || i == 13 || i == 18 || i == 23 then u[i] == '-' else IsHex(u[i])
  }

  /** The capture of an unquoted UUID standing alone on its line. */
  function UuidValue(t: string): Option<string> {
    if |t| >= 36 && UuidShape(t[..36]) && TrailingComma(t[36..]) then Some(t[..36]) else None
  }

  /** The value a waiting key takes from a standalone line, quoted. */
  function StandaloneValue(trimmed: string): Option<string> {
    match QuotedValue(trimmed)
    case Some(c) => Some("\"" + c + "\"")
    case None =>
      match UuidValue(trimmed)
      case Some(u) => Some("\"" + u + "\"")
      case None => None
  }

  /** A quoted value followed by an optional comma is recognised, and its text captured. */
  lemma QuotedValueOf(c: string, tail: string)
    requires c != [] && '"' !in c
    requires tail == "" || tail == ","
    ensures QuotedValue("\"" + c + "\"" + tail) == Some(c)
  {
    var t := "\"" + c + "\"" + tail;
    forall j | 1 <= j < |c| + 1
      ensures !At(t, "\"", j)
    {
      assert t[j] == c[j - 1];
      assert t[j..j + 1] == [t[j]];
    }
    assert At(t, "\"", |c| + 1);
    assert t[1..|c| + 1] == c;
    var r := t[|c| + 2..];
    assert r == tail;
    if tail == "," {
      assert IndexOf(r, ",") == 0;
      assert r[..0] == [] && r[1..] == [];
    }
  }

  /** A UUID followed by an optional comma is recognised, and its text captured. */
  lemma UuidValueOf(u: string, tail: string)
    requires UuidShape(u)
    requires tail == "" || tail == ","
    ensures UuidValue(u + tail) == Some(u)
  {
    var t := u + tail;
    assert t[..36] == u && t[36..] == tail;
    if tail == "," {
      assert IndexOf(tail, ",") == 0;
      assert tail[..0] == [] && tail[1..] == [];
    }
  }

  /**
   * The pass's variables: the kept lines, `waitingForValue`, and
   * `lastKeyLine` (`None` for null).
   */
  datatype PassState = PassState(cleaned: seq<string>, waiting: bool, lastKeyLine: Option<nat>)

  /** The pass waits exactly when it remembers a key line, and that line exists. */
  predicate Valid(st: PassState) {
    (st.waiting <==> st.lastKeyLine.Some?) && (st.lastKeyLine.Some? ==> st.lastKeyLine.value < |st.cleaned|)
  }

  /** The comment on `line` when the text before it holds an even, non-zero number of quotes. */
  predicate OutsideStringComment(line: string) {
    var ci := IndexOf(line, "//");
    ci >= 0 && Quotes(line[..ci]) > 0 && Quotes(line[..ci]) % 2 == 0
  }

  /** The text before the comment, trimmed. */
  function BeforeComment(line: string): string
    requires IndexOf(line, "//") >= 0
  {
    Trim(line[..IndexOf(line, "//")])
  }

  /** One turn of the loop over the lines. */
  function Step(st: PassState, line: string): (r: PassState)
    requires Valid(st)
    ensures Valid(r)
  {
    var trimmed := Trim(line);
    if |trimmed| == 0 || StartsWith(trimmed, "//") then st
    else if OutsideStringComment(line) then
      var before := BeforeComment(line);
      if EndsWith(before, ":") then PassState(st.cleaned + [before], true, Some(|st.cleaned|))
      else if |before| > 0 then PassState(st.cleaned + [before], st.waiting, st.lastKeyLine)
      else st
    else if st.waiting && st.lastKeyLine.Some? then
      match StandaloneValue(trimmed)
      case Some(v) =>
        var k := st.lastKeyLine.value;
        PassState(st.cleaned[k := st.cleaned[k] + " " + v], false, None)
      case None => PassState(st.cleaned + [line], false, None)
    else PassState(st.cleaned + [line], st.waiting, st.lastKeyLine)
  }

  /** The state after the loop has seen `lines`. */
  function Run(lines: seq<string>): (r: PassState)
    ensures Valid(r)
  {
    if lines == [] then PassState([], false, None) else Step(Run(lines[..|lines| - 1]), lines[|lines| - 1])
  }

  /** The line pass of `stripJsonComments` over the lines of the text. */
  method CleanLines(lines: seq<string>) returns (cleaned: seq<string>)
    ensures cleaned == Run(lines).cleaned
  {
    cleaned := [];
    var waitingForValue := false;
    var lastKeyLine: Option<nat> := None;
    for i := 0 to |lines|
      invariant PassState(cleaned, waitingForValue, lastKeyLine) == Run(lines[..i])
    {
      RunSnoc(lines, i);
      cleaned, waitingForValue, lastKeyLine := CleanLine(cleaned, waitingForValue, lastKeyLine, lines[i]);
    }
    assert lines[..|lines|] == lines;
  }

  lemma RunSnoc(lines: seq<string>, i: nat)
    requires i < |lines|
    ensures Run(lines[..i + 1]) == Step(Run(lines[..i]), lines[i])
  {
    assert lines[..i + 1][..i] == lines[..i];
  }

  /** One turn of the loop of `CleanLines`; a `return` is the loop's `continue`. */
  method CleanLine(cleaned: seq<string>, waitingForValue: bool, lastKeyLine: Option<nat>, line: string)
    returns (kept: seq<string>, waiting: bool, keyLine: Option<nat>)
    requires Valid(PassState(cleaned, waitingForValue, lastKeyLine))
    ensures PassState(kept, waiting, keyLine) == Step(PassState(cleaned, waitingForValue, lastKeyLine), line)
  {
    kept, waiting, keyLine := cleaned, waitingForValue, lastKeyLine;
    var trimmed := Trim(line);
    if |trimmed| == 0 || StartsWith(trimmed, "//") {
      return;
    }
    var commentIndex := IndexOf(line, "//");
    if commentIndex != -1 {
      var beforeComment := line[..commentIndex];
      var stringMatches := Quotes(beforeComment);
      if stringMatches > 0 && stringMatches % 2 == 0 {
        var beforeCommentTrimmed := Trim(beforeComment);
        if EndsWith(beforeCommentTrimmed, ":") {
          kept := kept + [beforeCommentTrimmed];
          waiting := true;
          keyLine := Some(|kept| - 1);
          return;
        }
        if |beforeCommentTrimmed| > 0 {
          kept := kept + [beforeCommentTrimmed];
        }
        return;
      }
    }
    kept, waiting, keyLine := TakeValue(cleaned, waitingForValue, lastKeyLine, line);
  }

  /** The rest of a turn, for a line that is neither skipped nor cut at a comment. */
  method TakeValue(cleaned: seq<string>, waitingForValue: bool, lastKeyLine: Option<nat>, line: string)
    returns (kept: seq<string>, waiting: bool, keyLine: Option<nat>)
    requires Valid(PassState(cleaned, waitingForValue, lastKeyLine))
    requires !AllSpace(line) && !StartsWith(Trim(line), "//") && !OutsideStringComment(line)
    ensures PassState(kept, waiting, keyLine) == Step(PassState(cleaned, waitingForValue, lastKeyLine), line)
  {
    kept, waiting, keyLine := cleaned, waitingForValue, lastKeyLine;
    if waiting && keyLine.Some? {
      var value := StandaloneValue(Trim(line));
      if value.Some? {
        kept := kept[keyLine.value := kept[keyLine.value] + " " + value.value];
        waiting := false;
        keyLine := None;
        return;
      } else {
        waiting := false;
        keyLine := None;
      }
    }
    kept := kept + [line];
  }

  /** An empty line and a line that is only a comment leave the pass as it was. */
  lemma BlankAndCommentLinesDropped(st: PassState, line: string)
    requires Valid(st)
    requires AllSpace(line) || StartsWith(Trim(line), "//")
    ensures Step(st, line) == st
  {
  }

  /**
   * A comment after an even, non-zero number of quotes cuts the line: only the
   * trimmed text before it is kept, and nothing when that text is empty.
   */
  lemma CommentAfterEvenQuotesCut(st: PassState, line: string)
    requires Valid(st)
    requires !AllSpace(line) && !StartsWith(Trim(line), "//") && OutsideStringComment(line)
    ensures var before := Trim(line[..IndexOf(line, "//")]);
      Step(st, line).cleaned == st.cleaned + (if before == "" then [] else [before])
    ensures var before := Trim(line[..IndexOf(line, "//")]);
      Step(st, line).waiting == (EndsWith(before, ":") || st.waiting)
  {
  }

  /**
   * A line without a cut comment (no `//`, or no quote or an odd number of
   * quotes before it) is kept whole unless a key is waiting for it.
   */
  lemma OtherLinesKept(st: PassState, line: string)
    requires Valid(st) && !st.waiting
    requires !AllSpace(line) && !StartsWith(Trim(line), "//") && !OutsideStringComment(line)
    ensures Step(st, line) == PassState(st.cleaned + [line], false, None)
  {
  }

  /**
   * A key whose value was commented out takes the next line's standalone
   * value: the two lines become one, `key: "value"`, and the pass stops
   * waiting.
   */
  lemma KeyTakesNextValue(st: PassState, keyLine: string, valueLine: string, v: string)
    requires Valid(st)
    requires !AllSpace(keyLine) && !StartsWith(Trim(keyLine), "//") && OutsideStringComment(keyLine)
    requires EndsWith(BeforeComment(keyLine), ":")
    requires !AllSpace(valueLine) && !StartsWith(Trim(valueLine), "//") && !OutsideStringComment(valueLine)
    requires StandaloneValue(Trim(valueLine)) == Some(v)
    ensures Step(Step(st, keyLine), valueLine) == PassState(st.cleaned + [BeforeComment(keyLine) + " " + v], false, None)
  {
    var b := BeforeComment(keyLine);
    var mid := PassState(st.cleaned + [b], true, Some(|st.cleaned|));
    KeyLineWaits(st, keyLine);
    WaitingTakesValue(mid, valueLine, v);
    assert (st.cleaned + [b])[|st.cleaned| := b + " " + v] == st.cleaned + [b + " " + v];
  }

  /** A key line whose value is commented out is kept up to its colon, and the pass waits. */
  lemma KeyLineWaits(st: PassState, keyLine: string)
    requires Valid(st)
    requires !AllSpace(keyLine) && !StartsWith(Trim(keyLine), "//") && OutsideStringComment(keyLine)
    requires EndsWith(BeforeComment(keyLine), ":")
    ensures Step(st, keyLine) == PassState(st.cleaned + [BeforeComment(keyLine)], true, Some(|st.cleaned|))
  {
  }

  /** While waiting, a standalone value is appended to the remembered key line. */
  lemma WaitingTakesValue(st: PassState, line: string, v: string)
    requires Valid(st) && st.waiting
    requires !AllSpace(line) && !StartsWith(Trim(line), "//") && !OutsideStringComment(line)
    requires StandaloneValue(Trim(line)) == Some(v)
    ensures var k := st.lastKeyLine.value;
      Step(st, line) == PassState(st.cleaned[k := st.cleaned[k] + " " + v], false, None)
  {
  }

  /** A line that is not a standalone value ends the wait and is kept whole. */
  lemma WaitEndsOnOtherLine(st: PassState, line: string)
    requires Valid(st) && st.waiting
    requires !AllSpace(line) && !StartsWith(Trim(line), "//") && !OutsideStringComment(line)
    requires StandaloneValue(Trim(line)).None?
    ensures Step(st, line) == PassState(st.cleaned + [line], false, None)
  {
  }

  lemma NotAllSpaceConcat(a: string, b: string)
    requires !AllSpace(a)
    ensures !AllSpace(a + b)
  {
    var i :| 0 <= i < |a| && !IsSpace(a[i]);
    assert (a + b)[i] == a[i];
  }

  predicate NoBlankLine(ls: seq<string>) {
    forall i :: 0 <= i < |ls| ==> !AllSpace(ls[i])
  }

  /** One turn adds at most one line, and never a blank one. */
  lemma StepKeepsNoBlankLine(st: PassState, line: string)
    requires Valid(st) && NoBlankLine(st.cleaned)
    ensures |Step(st, line).cleaned| <= |st.cleaned| + 1
    ensures NoBlankLine(Step(st, line).cleaned)
  {
    var trimmed := Trim(line);
    var r := Step(st, line);
    if |trimmed| == 0 || StartsWith(trimmed, "//") {
      assert r == st;
    } else if OutsideStringComment(line) {
      var before := BeforeComment(line);
      if EndsWith(before, ":") {
        assert before[|before| - 1] == ':';
        assert r.cleaned == st.cleaned + [before];
        PushKeepsNoBlankLine(st.cleaned, before);
      } else if |before| > 0 {
        assert r.cleaned == st.cleaned + [before];
        PushKeepsNoBlankLine(st.cleaned, before);
      } else {
        assert r == st;
      }
    } else if st.waiting && st.lastKeyLine.Some? && StandaloneValue(trimmed).Some? {
      var k := st.lastKeyLine.value;
      var v := StandaloneValue(trimmed).value;
      assert r.cleaned == st.cleaned[k := st.cleaned[k] + " " + v];
      NotAllSpaceConcat(st.cleaned[k], " " + v);
      assert st.cleaned[k] + " " + v == st.cleaned[k] + (" " + v);
    } else {
      assert r.cleaned == st.cleaned + [line];
      PushKeepsNoBlankLine(st.cleaned, line);
    }
  }

  lemma PushKeepsNoBlankLine(ls: seq<string>, l: string)
    requires NoBlankLine(ls) && !AllSpace(l)
    ensures NoBlankLine(ls + [l])
  {
  }

  /** The pass keeps no more lines than it reads, and none of them is blank. */
  lemma {:induction false} RunKeepsNoBlankLine(lines: seq<string>)
    ensures |Run(lines).cleaned| <= |lines|
    ensures NoBlankLine(Run(lines).cleaned)
  {
    if lines != [] {
      RunKeepsNoBlankLine(lines[..|lines| - 1]);
      StepKeepsNoBlankLine(Run(lines[..|lines| - 1]), lines[|lines| - 1]);
    }
  }

  /** The regular-expression rewrites before and after the line pass. */
  datatype Passes = Passes(pre: string -> string, post: string -> string)

  /** `stripJsonComments(text)`. */
  function StripJsonComments(text: string, passes: Passes): string {
    passes.post(JoinLines(Run(SplitLines(passes.pre(text))).cleaned))
  }

  // ---------------------------------------------------------------------------
  // Making a call

  const ServiceName := "StoreProductService"

  /** What `handleGrpcCall` does: refuse, report bad JSON, or send a request body. */
  datatype CallAttempt = NoMethod(error: string) | InvalidJson(error: string) | Send(body: CallBody)

  /**
   * `handleGrpcCall` with the selected method (empty for none), the chosen
   * environment, the message text and the header rows' contents; `parse` is
   * `JSON.parse`, giving the value or the message of its exception.
   */
  function PrepareCall(selected: string, environment: string, message: string, headers: seq<Header>,
                       passes: Passes, parse: string -> Result<Json, string>): (r: CallAttempt)
  {
    if selected == "" then NoMethod("Please select a gRPC method")
    else match parse(StripJsonComments(message, passes))
      case Err(e) => InvalidJson("Invalid JSON in message field: " + e)
      case Ok(m) => Send(CallBody(selected, ServiceName, environment, Some(m), Some(JObj(HeadersObject(headers)))))
  }

  /** With no method selected the call is refused before the message is even read. */
  lemma NoMethodNoRequest(environment: string, message: string, headers: seq<Header>,
                          passes: Passes, parse: string -> Result<Json, string>)
    ensures PrepareCall("", environment, message, headers, passes, parse) == NoMethod("Please select a gRPC method")
  {
  }

  /**
   * A request that is sent names the selected method on the fixed service, and
   * carries the parsed message and the headers object. With a known
   * environment and a truthy message it passes the server's own checks, and
   * the server's metadata comes from that headers object.
   */
  lemma SentRequestPassesServerChecks(selected: string, environment: string, message: string, headers: seq<Header>,
                                      passes: Passes, parse: string -> Result<Json, string>)
    requires PrepareCall(selected, environment, message, headers, passes, parse).Send?
    ensures var b := PrepareCall(selected, environment, message, headers, passes, parse).body;
      && b.methodName == selected && selected != "" && b.serviceName == ServiceName && b.environment == environment
      && b.message == Some(parse(StripJsonComments(message, passes)).value)
      && HeaderEntries(b.headers) == HeadersObject(headers)
      && (environment in {"QA", "PROD"} && Truthy(b.message.value) ==> !MissingParameters(b) && EnvironmentCheckPasses(environment))
  {
  }
}

=== FILE: example_generator.dfy ===
/**
 * `generateExampleFromType` of server/utils/protoParser.js: the example request
 * shown to the operator, built field by field from a message type.
 *
 * The source has no cycle guard. Its recursion is bounded only by the
 * JavaScript call stack, and exhausting the stack throws a RangeError. `fuel`
 * stands for the stack frames that remain: every nested call of the generator
 * uses one, and a nested call with none left fails with that error, as the
 * engine would. An exception escaping the generator is an `Err` carrying its
 * message.
 */
module ExampleGenerator {
  import opened Wrappers
  import opened Text
  import opened Json
  import opened ProtoSchema

  /** The message of the RangeError thrown when the call stack is exhausted. */
  const StackOverflow := "Maximum call stack size exceeded"

  const IntegerKinds: set<string> := {"int32", "int64", "uint32", "uint64"}
  const FloatKinds: set<string> := {"double", "float"}

  predicate IsScalarKind(t: string) {
    t == "string" || t in IntegerKinds || t == "bool" || t in FloatKinds
  }

  /**
   * The bare default of a well-known wrapper type, recognised by substring of a
   * type name; `illustrative` selects the placeholder for a string wrapper.
   */
  function WrapperExample(typeName: string, illustrative: bool): Option<Json> {
    if Contains(typeName, "StringValue") then Some(JStr(if illustrative then "hello world" else ""))
    else if Contains(typeName, "Int32Value") || Contains(typeName, "Int64Value") then Some(JNum(0.0))
    else if Contains(typeName, "BoolValue") then Some(JBool(false))
    else if Contains(typeName, "DoubleValue") || Contains(typeName, "FloatValue") then Some(JNum(0.0))
    else None
  }

  /** The wrapper check: first on the resolved type's name, then on the written type. */
  function WrapperDefault(f: Field): Option<Json> {
    var byResolved :=
      if f.resolvedType.Some? then WrapperExample(f.resolvedType.value.name, f.name == "product_variant_id")
      else None;
    if byResolved.Some? then byResolved else WrapperExample(f.typeName, Contains(f.name, "id"))
  }

  /** The example for a bare `string` field, with its name-keyed placeholders. */
  function StringExample(name: string): string {
    if name == "campaign_tag_id" then "velit"
    else if Contains(name, "id") && !Contains(name, "campaign") then "hello world"
    else ""
  }

  /** The members of the example object for a type, in the order its fields are declared. */
  function Example(t: TypeNode, reg: Registry, fuel: nat): Result<seq<Member>, string>
    decreases fuel, 2, 0
  {
    FieldsExample(t.fields, reg, fuel)
  }

  /** The `forEach` over the fields: unnamed fields are skipped, every other one is assigned. */
  function FieldsExample(fs: seq<Field>, reg: Registry, fuel: nat): Result<seq<Member>, string>
    decreases fuel, 1, |fs|
  {
    if fs == [] then Ok([])
    else
      var f := fs[|fs| - 1];
      match FieldsExample(fs[..|fs| - 1], reg, fuel)
      case Err(e) => Err(e)
      case Ok(obj) =>
        if f.name == "" then Ok(obj)
        else match FieldExample(f, reg, fuel)
          case Err(e) => Err(e)
          case Ok(v) => Ok(Put(obj, f.name, v))
  }

  /** The value one named field contributes. */
  function FieldExample(f: Field, reg: Registry, fuel: nat): Result<Json, string>
    decreases fuel, 0, 1
  {
    match LeafExample(f)
    case Some(v) => Ok(v)
    case None => NestedExample(Target(f, reg), reg, fuel)
  }

  /**
   * The field policy for every field that does not nest another message, in the
   * order the generator tries it; `None` for a field that nests one.
   */
  function LeafExample(f: Field): Option<Json> {
    if f.repeated then Some(JArr([]))
    else if WrapperDefault(f).Some? then WrapperDefault(f)
    else if f.typeName == "string" then Some(JStr(StringExample(f.name)))
    else if f.typeName in IntegerKinds then Some(if f.name == "campaign_id" then JStr("61974") else JNum(0.0))
    else if f.typeName == "bool" then Some(JBool(f.name == "is_zepto_three_enabled"))
    else if f.typeName in FloatKinds then Some(JNum(0.0))
    else if f.resolvedType.Some? || Contains(f.typeName, ".") then None
    else Some(JStr(""))
  }

  /**
   * The message type a non-scalar field nests: its resolved type when the
   * loader linked one, otherwise what `lookupType` and then `lookup` find.
   */
  function Target(f: Field, reg: Registry): Result<TypeRef, string> {
    if f.resolvedType.Some? then Ok(Resolved(f.resolvedType.value))
    else FirstFound([reg.lookupType(f.typeName), reg.lookup(f.typeName)])
  }

  /**
   * A nested call of the generator on the type found for a field; an exception
   * from a lookup propagates, a type not found gives null, and an example
   * without keys becomes null.
   */
  function NestedExample(target: Result<TypeRef, string>, reg: Registry, fuel: nat): Result<Json, string>
    decreases fuel, 0, 0
  {
    match target
    case Err(e) => Err(e)
    case Ok(Unresolved) => Ok(JNull)
    case Ok(Resolved(t)) =>
      if fuel == 0 then Err(StackOverflow)
      else NestedValue(Example(t, reg, fuel - 1))
  }

  /** The value a nested call contributes: its exception, or its object with null for one without keys. */
  function NestedValue(example: Result<seq<Member>, string>): Result<Json, string> {
    match example
    case Err(e) => Err(e)
    case Ok(ms) => Ok(if ms == [] then JNull else JObj(ms))
  }

  // One-step unfoldings of the mutually recursive definitions above, so that
  // the proofs below never need to look two calls deep.

  lemma TargetCases(f: Field, reg: Registry)
    ensures Target(f, reg) ==
      if f.resolvedType.Some? then Ok(Resolved(f.resolvedType.value))
      else match reg.lookupType(f.typeName)
        case Found(t) => Ok(Resolved(t))
        case Throws(e) => Err(e)
        case Missing =>
          match reg.lookup(f.typeName)
          case Found(t) => Ok(Resolved(t))
          case Throws(e) => Err(e)
          case Missing => Ok(Unresolved)
  {
    var a, b := reg.lookupType(f.typeName), reg.lookup(f.typeName);
    assert [a, b] == [a] + [b];
    assert [b] == [b] + [];
    FirstFoundCons(a, [b]);
    FirstFoundCons(b, []);
  }

  lemma FieldNests(f: Field, reg: Registry, fuel: nat)
    requires LeafExample(f).None?
    ensures FieldExample(f, reg, fuel) == NestedExample(Target(f, reg), reg, fuel)
  {
  }

  lemma NestedOf(t: TypeNode, reg: Registry, fuel: nat)
    ensures NestedExample(Ok(Resolved(t)), reg, fuel) ==
      if fuel == 0 then Err(StackOverflow)
      else NestedValue(FieldsExample(t.fields, reg, fuel - 1))
  {
    if fuel > 0 {
      assert Example(t, reg, fuel - 1) == FieldsExample(t.fields, reg, fuel - 1);
    }
  }

  // ---------------------------------------------------------------------------
  // Keys and values of the example

  /** The names of the fields that have one, in declaration order. */
  function NamedFields(fs: seq<Field>): seq<string> {
    if fs == [] then []
    else NamedFields(fs[..|fs| - 1]) + (if fs[|fs| - 1].name == "" then [] else [fs[|fs| - 1].name])
  }

  predicate Distinct(s: seq<string>) {
    forall i, j :: 0 <= i < j < |s| ==> s[i] != s[j]
  }

  lemma DistinctSnoc(s: seq<string>, x: string)
    requires Distinct(s + [x])
    ensures Distinct(s) && x !in s
  {
    var t := s + [x];
    forall i, j | 0 <= i < j < |s| ensures s[i] != s[j] { assert t[i] == s[i] && t[j] == s[j]; }
    forall i | 0 <= i < |s| ensures s[i] != x { assert t[i] == s[i] && t[|s|] == x; }
  }

  lemma {:induction false} NamedFieldsHaveNames(fs: seq<Field>)
    ensures forall k :: k in NamedFields(fs) <==> exists i :: 0 <= i < |fs| && fs[i].name == k && k != ""
  {
    if fs != [] {
      var p := fs[..|fs| - 1];
      NamedFieldsHaveNames(p);
      forall k
        ensures k in NamedFields(fs) <==> exists i :: 0 <= i < |fs| && fs[i].name == k && k != ""
      {
        if k in NamedFields(fs) && k in NamedFields(p) {
          var i :| 0 <= i < |p| && p[i].name == k && k != "";
          assert fs[i] == p[i];
        }
        if exists i :: 0 <= i < |fs| && fs[i].name == k && k != "" {
          var i :| 0 <= i < |fs| && fs[i].name == k && k != "";
          if i < |p| { assert p[i] == fs[i]; }
        }
      }
    }
  }

  /** One step of the `forEach`: the example of a field list from that of its prefix. */
  lemma FieldsExampleLast(fs: seq<Field>, reg: Registry, fuel: nat)
    requires fs != []
    ensures var prev := FieldsExample(fs[..|fs| - 1], reg, fuel);
            var f := fs[|fs| - 1];
            FieldsExample(fs, reg, fuel) ==
              if prev.Err? || f.name == "" then prev
              else if FieldExample(f, reg, fuel).Err? then Err(FieldExample(f, reg, fuel).error)
              else Ok(Put(prev.value, f.name, FieldExample(f, reg, fuel).value))
  {
  }

  /**
   * Every named field contributes a key and every key comes from a named field;
   * when names are distinct the keys are exactly the field names in declaration
   * order.
   */
  lemma {:induction false} ExampleKeys(fs: seq<Field>, reg: Registry, fuel: nat)
    requires FieldsExample(fs, reg, fuel).Ok?
    ensures forall k :: k in Keys(FieldsExample(fs, reg, fuel).value) <==> k in NamedFields(fs)
    ensures Distinct(NamedFields(fs)) ==> Keys(FieldsExample(fs, reg, fuel).value) == NamedFields(fs)
  {
    if fs != [] {
      var p := fs[..|fs| - 1];
      var f := fs[|fs| - 1];
      FieldsExampleLast(fs, reg, fuel);
      var prev := FieldsExample(p, reg, fuel);
      assert prev.Ok?;
      ExampleKeys(p, reg, fuel);
      var ks := Keys(FieldsExample(fs, reg, fuel).value);
      if f.name == "" {
        assert NamedFields(fs) == NamedFields(p);
      } else {
        var v := FieldExample(f, reg, fuel).value;
        assert FieldsExample(fs, reg, fuel).value == Put(prev.value, f.name, v);
        PutKeys(prev.value, f.name, v);
        assert NamedFields(fs) == NamedFields(p) + [f.name];
        if Distinct(NamedFields(fs)) {
          DistinctSnoc(NamedFields(p), f.name);
        }
      }
    }
  }

  /**
   * The key of a named field holds the value the field policy gives that field;
   * when several fields share a name, the last one's value is the one kept.
   */
  lemma {:induction false} ExampleFieldValue(fs: seq<Field>, reg: Registry, fuel: nat, i: nat)
    requires FieldsExample(fs, reg, fuel).Ok?
    requires i < |fs| && fs[i].name != ""
    requires forall j :: i < j < |fs| ==> fs[j].name != fs[i].name
    ensures FieldExample(fs[i], reg, fuel).Ok?
    ensures Get(FieldsExample(fs, reg, fuel).value, fs[i].name) == Some(FieldExample(fs[i], reg, fuel).value)
  {
    var p := fs[..|fs| - 1];
    var f := fs[|fs| - 1];
    FieldsExampleLast(fs, reg, fuel);
    var prev := FieldsExample(p, reg, fuel);
    if i < |fs| - 1 {
      assert p[i] == fs[i];
      ExampleFieldValue(p, reg, fuel, i);
      if f.name != "" {
        PutGet(prev.value, f.name, FieldExample(f, reg, fuel).value, fs[i].name);
      }
    } else {
      PutGet(prev.value, f.name, FieldExample(f, reg, fuel).value, f.name);
    }
  }

  /** An exception raised for one field aborts the example of every longer field list. */
  lemma {:induction false} ExceptionAbortsExample(fs: seq<Field>, n: nat, reg: Registry, fuel: nat)
    requires n <= |fs| && FieldsExample(fs[..n], reg, fuel).Err?
    ensures FieldsExample(fs, reg, fuel) == FieldsExample(fs[..n], reg, fuel)
    decreases |fs| - n
  {
    if n < |fs| {
      var q := fs[..n + 1];
      assert q[..n] == fs[..n];
      ExceptionAbortsExample(fs, n + 1, reg, fuel);
    } else {
      assert fs[..n] == fs;
    }
  }

  /** A type name the wrapper check recognises, by substring. */
  predicate NamesWrapper(typeName: string) {
    || Contains(typeName, "StringValue") || Contains(typeName, "Int32Value") || Contains(typeName, "Int64Value")
    || Contains(typeName, "BoolValue") || Contains(typeName, "DoubleValue") || Contains(typeName, "FloatValue")
  }

  /** The field's resolved type is a wrapper, by its name. */
  predicate ResolvedWrapper(f: Field) {
    f.resolvedType.Some? && NamesWrapper(f.resolvedType.value.name)
  }

  /**
   * The wrapper defaults, in the order they are tried: the resolved type's
   * name first (string, then 32/64-bit integer, then bool, then double/float
   * wrappers), and the written type name only when the resolved type is absent
   * or names no wrapper. A string wrapper found on the resolved type is
   * illustrated only for `product_variant_id`; one found on the written type
   * for every name containing `id`.
   */
  lemma WrapperPolicy(f: Field, reg: Registry, fuel: nat)
    requires !f.repeated
    ensures f.resolvedType.Some? ==> var n := f.resolvedType.value.name;
      && (Contains(n, "StringValue") ==>
            FieldExample(f, reg, fuel) == Ok(JStr(if f.name == "product_variant_id" then "hello world" else "")))
      && (!Contains(n, "StringValue") && (Contains(n, "Int32Value") || Contains(n, "Int64Value")) ==>
            FieldExample(f, reg, fuel) == Ok(JNum(0.0)))
      && (!Contains(n, "StringValue") && !Contains(n, "Int32Value") && !Contains(n, "Int64Value")
          && Contains(n, "BoolValue") ==>
            FieldExample(f, reg, fuel) == Ok(JBool(false)))
      && (!Contains(n, "StringValue") && !Contains(n, "Int32Value") && !Contains(n, "Int64Value")
          && !Contains(n, "BoolValue") && (Contains(n, "DoubleValue") || Contains(n, "FloatValue")) ==>
            FieldExample(f, reg, fuel) == Ok(JNum(0.0)))
    ensures !ResolvedWrapper(f) ==> var n := f.typeName;
      && (Contains(n, "StringValue") ==>
            FieldExample(f, reg, fuel) == Ok(JStr(if Contains(f.name, "id") then "hello world" else "")))
      && (!Contains(n, "StringValue") && (Contains(n, "Int32Value") || Contains(n, "Int64Value")) ==>
            FieldExample(f, reg, fuel) == Ok(JNum(0.0)))
      && (!Contains(n, "StringValue") && !Contains(n, "Int32Value") && !Contains(n, "Int64Value")
          && Contains(n, "BoolValue") ==>
            FieldExample(f, reg, fuel) == Ok(JBool(false)))
      && (!Contains(n, "StringValue") && !Contains(n, "Int32Value") && !Contains(n, "Int64Value")
          && !Contains(n, "BoolValue") && (Contains(n, "DoubleValue") || Contains(n, "FloatValue")) ==>
            FieldExample(f, reg, fuel) == Ok(JNum(0.0)))
    ensures WrapperDefault(f).None? <==> !ResolvedWrapper(f) && !NamesWrapper(f.typeName)
  {
  }

  /**
   * The field policy for fields that do not nest another type: a repeated
   * field is an empty list, and a field that is no wrapper gets the example of
   * its scalar kind, with the name-keyed placeholders.
   */
  lemma FieldPolicy(f: Field, reg: Registry, fuel: nat)
    ensures f.repeated ==> FieldExample(f, reg, fuel) == Ok(JArr([]))
    ensures var noWrapper := !f.repeated && !ResolvedWrapper(f) && !NamesWrapper(f.typeName);
      && (noWrapper && f.typeName == "string" ==>
            FieldExample(f, reg, fuel) == Ok(JStr(
              if f.name == "campaign_tag_id" then "velit"
              else if Contains(f.name, "id") && !Contains(f.name, "campaign") then "hello world"
              else "")))
      && (noWrapper && f.typeName in IntegerKinds ==>
            FieldExample(f, reg, fuel) == Ok(if f.name == "campaign_id" then JStr("61974") else JNum(0.0)))
      && (noWrapper && f.typeName == "bool" ==>
            FieldExample(f, reg, fuel) == Ok(JBool(f.name == "is_zepto_three_enabled")))
      && (noWrapper && f.typeName in FloatKinds ==>
            FieldExample(f, reg, fuel) == Ok(JNum(0.0)))
      && (noWrapper && !IsScalarKind(f.typeName) && f.resolvedType.None? && !Contains(f.typeName, ".") ==>
            FieldExample(f, reg, fuel) == Ok(JStr("")))
  {
  }

  /**
   * A non-wrapper message field is synthesised by a nested call, and a nested
   * example without keys is replaced by null; a dotted name that neither lookup
   * finds gives null.
   */
  lemma NestedPolicy(f: Field, reg: Registry, fuel: nat)
    requires !f.repeated && WrapperDefault(f).None? && !IsScalarKind(f.typeName)
    ensures f.resolvedType.Some? && fuel > 0 && Example(f.resolvedType.value, reg, fuel - 1) == Ok([]) ==>
      FieldExample(f, reg, fuel) == Ok(JNull)
    ensures f.resolvedType.Some? && fuel > 0 && Example(f.resolvedType.value, reg, fuel - 1).Ok?
            && Example(f.resolvedType.value, reg, fuel - 1).value != [] ==>
      FieldExample(f, reg, fuel) == Ok(JObj(Example(f.resolvedType.value, reg, fuel - 1).value))
    ensures f.resolvedType.None? && Contains(f.typeName, ".")
            && reg.lookupType(f.typeName) == Missing && reg.lookup(f.typeName) == Missing ==>
      FieldExample(f, reg, fuel) == Ok(JNull)
    ensures f.resolvedType.None? && Contains(f.typeName, ".") && reg.lookupType(f.typeName).Throws? ==>
      FieldExample(f, reg, fuel) == Err(reg.lookupType(f.typeName).message)
    ensures f.resolvedType.None? && Contains(f.typeName, ".") && reg.lookupType(f.typeName) == Missing
            && reg.lookup(f.typeName).Throws? ==>
      FieldExample(f, reg, fuel) == Err(reg.lookup(f.typeName).message)
    ensures f.resolvedType.None? && Contains(f.typeName, ".") && reg.lookupType(f.typeName).Found? && fuel > 0 ==>
      FieldExample(f, reg, fuel) == NestedValue(Example(reg.lookupType(f.typeName).node, reg, fuel - 1))
    ensures f.resolvedType.None? && Contains(f.typeName, ".") && reg.lookupType(f.typeName) == Missing
            && reg.lookup(f.typeName).Found? && fuel > 0 ==>
      FieldExample(f, reg, fuel) == NestedValue(Example(reg.lookup(f.typeName).node, reg, fuel - 1))
    ensures (f.resolvedType.Some? || (Contains(f.typeName, ".") && reg.lookupType(f.typeName).Found?)
             || (Contains(f.typeName, ".") && reg.lookupType(f.typeName) == Missing && reg.lookup(f.typeName).Found?))
            && fuel == 0 ==>
      FieldExample(f, reg, fuel) == Err(StackOverflow)
  {
    assert LeafExample(f).None? <==> f.resolvedType.Some? || Contains(f.typeName, ".");
    TargetCases(f, reg);
    if LeafExample(f).None? {
      FieldNests(f, reg, fuel);
      var r := Target(f, reg);
      if r.Ok? && r.value.Resolved? {
        NestedOf(r.value.node, reg, fuel);
        if fuel > 0 {
          assert Example(r.value.node, reg, fuel - 1) == FieldsExample(r.value.node.fields, reg, fuel - 1);
        }
      }
    }
  }

  // ---------------------------------------------------------------------------
  // Termination: more stack never changes a finished example; an acyclic
  // schema always finishes; a type that refers to itself through a lookup never does.

  lemma {:induction false} FieldsExampleMoreFuel(fs: seq<Field>, reg: Registry, fuel: nat, more: nat)
    requires fuel <= more && FieldsExample(fs, reg, fuel).Ok?
    ensures FieldsExample(fs, reg, more) == FieldsExample(fs, reg, fuel)
    decreases fuel, 1, |fs|
  {
    if fs != [] {
      var f := fs[|fs| - 1];
      FieldsExampleMoreFuel(fs[..|fs| - 1], reg, fuel, more);
      if f.name != "" {
        FieldExampleMoreFuel(f, reg, fuel, more);
      }
    }
  }

  lemma {:induction false} FieldExampleMoreFuel(f: Field, reg: Registry, fuel: nat, more: nat)
    requires fuel <= more && FieldExample(f, reg, fuel).Ok?
    ensures FieldExample(f, reg, more) == FieldExample(f, reg, fuel)
    decreases fuel, 0, 1
  {
    if LeafExample(f).None? {
      FieldNests(f, reg, fuel);
      FieldNests(f, reg, more);
      var target := Target(f, reg);
      if target.Ok? && target.value.Resolved? {
        NestedMoreFuel(target.value.node, reg, fuel, more);
      }
    }
  }

  lemma {:induction false} NestedMoreFuel(t: TypeNode, reg: Registry, fuel: nat, more: nat)
    requires fuel <= more && NestedExample(Ok(Resolved(t)), reg, fuel).Ok?
    ensures NestedExample(Ok(Resolved(t)), reg, more) == NestedExample(Ok(Resolved(t)), reg, fuel)
    decreases fuel, 0, 0
  {
    NestedOf(t, reg, fuel);
    NestedOf(t, reg, more);
    var a := FieldsExample(t.fields, reg, fuel - 1);
    NestedValueOk(a);
    FieldsExampleMoreFuel(t.fields, reg, fuel - 1, more - 1);
  }

  lemma NestedValueOk(example: Result<seq<Member>, string>)
    requires NestedValue(example).Ok?
    ensures example.Ok?
  {
  }

  /** Theorem: with `fuel` frames to spare the example never changes when more are given. */
  lemma ExampleMoreFuel(t: TypeNode, reg: Registry, fuel: nat, more: nat)
    requires fuel <= more && Example(t, reg, fuel).Ok?
    ensures Example(t, reg, more) == Example(t, reg, fuel)
  {
    FieldsExampleMoreFuel(t.fields, reg, fuel, more);
  }

  /** The field is synthesised through the name lookup of the registry. */
  predicate NeedsLookup(f: Field) {
    LeafExample(f).None? && f.resolvedType.None?
  }

  /** How deeply resolved types nest below `t`. */
  function Depth(t: TypeNode): nat
    decreases t, |t.fields| + 1
  {
    DepthUpTo(t, |t.fields|)
  }

  function DepthUpTo(t: TypeNode, n: nat): nat
    requires n <= |t.fields|
    decreases t, n
  {
    if n == 0 then 0
    else
      var f := t.fields[n - 1];
      var here := if f.resolvedType.Some? then 1 + Depth(f.resolvedType.value) else 0;
      var before := DepthUpTo(t, n - 1);
      if here < before then before else here
  }

  /** No field of `t`, nor of any type nested in it, is synthesised through a name lookup. */
  predicate Closed(t: TypeNode)
    decreases t, |t.fields| + 1
  {
    ClosedUpTo(t, |t.fields|)
  }

  predicate ClosedUpTo(t: TypeNode, n: nat)
    requires n <= |t.fields|
    decreases t, n
  {
    n == 0 ||
    (var f := t.fields[n - 1];
     && ClosedUpTo(t, n - 1)
     && (f.name != "" ==> !NeedsLookup(f))
     && (f.resolvedType.Some? ==> Closed(f.resolvedType.value)))
  }

  lemma {:induction false} ClosedPrefixCompletes(t: TypeNode, n: nat, reg: Registry, fuel: nat)
    requires n <= |t.fields| && ClosedUpTo(t, n) && DepthUpTo(t, n) <= fuel
    ensures FieldsExample(t.fields[..n], reg, fuel).Ok?
    decreases t, n
  {
    if n > 0 {
      var fs := t.fields[..n];
      var f := t.fields[n - 1];
      assert fs[..n - 1] == t.fields[..n - 1];
      assert fs[n - 1] == f;
      ClosedPrefixCompletes(t, n - 1, reg, fuel);
      FieldsExampleLast(fs, reg, fuel);
      if f.name != "" && LeafExample(f).None? {
        NestedFieldCompletes(t, f, reg, fuel);
      }
    }
  }

  /** A named field nesting a closed type shallow enough for the fuel yields a value. */
  lemma {:induction false} NestedFieldCompletes(t: TypeNode, f: Field, reg: Registry, fuel: nat)
    requires f in t.fields && f.name != "" && LeafExample(f).None?
    requires !NeedsLookup(f) && Closed(f.resolvedType.value) && 1 + Depth(f.resolvedType.value) <= fuel
    ensures FieldExample(f, reg, fuel).Ok?
    decreases t, 0
  {
    var c := f.resolvedType.value;
    FieldNests(f, reg, fuel);
    assert Target(f, reg) == Ok(Resolved(c));
    ClosedCompletes(c, reg, fuel - 1);
    NestedOf(c, reg, fuel);
  }

  /** Theorem: a schema whose nesting is all through resolved types always yields an example. */
  lemma {:induction false} ClosedCompletes(t: TypeNode, reg: Registry, fuel: nat)
    requires Closed(t) && Depth(t) <= fuel
    ensures Example(t, reg, fuel).Ok?
    decreases t, |t.fields| + 1
  {
    ClosedPrefixCompletes(t, |t.fields|, reg, fuel);
    assert t.fields[..|t.fields|] == t.fields;
  }

  /**
   * Theorem: there is no cycle guard. A type with a named field whose type name
   * the lookup resolves back to the type itself never yields an example, however
   * much stack there is: the recursion only ends by an exception.
   */
  lemma {:induction false} SelfReferenceNeverCompletes(t: TypeNode, i: nat, reg: Registry, fuel: nat)
    requires i < |t.fields| && t.fields[i].name != "" && NeedsLookup(t.fields[i])
    requires reg.lookupType(t.fields[i].typeName) == Found(t)
    ensures Example(t, reg, fuel).Err?
    decreases fuel
  {
    var fs := t.fields;
    var f := fs[i];
    var q := fs[..i + 1];
    assert q[..i] == fs[..i];
    assert q[i] == f;
    FieldsExampleLast(q, reg, fuel);
    if FieldsExample(fs[..i], reg, fuel).Ok? {
      FieldNests(f, reg, fuel);
      TargetCases(f, reg);
      NestedOf(t, reg, fuel);
      if fuel > 0 {
        SelfReferenceNeverCompletes(t, i, reg, fuel - 1);
        assert Example(t, reg, fuel - 1) == FieldsExample(t.fields, reg, fuel - 1);
      }
    }
    ExceptionAbortsExample(fs, i + 1, reg, fuel);
  }
}

=== FILE: github_route.dfy ===
/**
 * The `/update-proto` route: the token check, the repository path read off the
 * `origin` remote, the token-bearing URL the pull runs against, the condition
 * under which the original remote is written back, and the statuses git
 * errors are reported with. The git commands themselves are given as their
 * outcome (`GitRun`); the remote URL the repository is left with is part of
 * the result.
 */
module GithubRoute {
  import opened Wrappers
  import opened Text

  const RepoDir := "/Users/pradeepyadav/Documents/product-assortment-service"
  const ProtoDir := RepoDir + "/proto"

  // ---------------------------------------------------------------------------
  // The repository path: /github\.com[\/:](.+?)(?:\.git)?$/

  /**
   * The match of the pattern starting at `i`, as its capture: `github.com`,
   * then `/` or `:`, then the shortest non-empty run of characters other than
   * line terminators that is followed by an optional `.git` and the end of
   * the string.
   */
  function GithubMatchAt(s: string, i: nat): Option<string> {
    if At(s, "github.com", i) && i + 10 < |s| && (s[i + 10] == '/' || s[i + 10] == ':') then
      var t := s[i + 11..];
      if t != [] && SingleLine(t) then Some(if |t| > 4 && EndsWith(t, ".git") then t[..|t| - 4] else t)
      else None
    else None
  }

  /** The leftmost match at or after `from`. */
  function GithubMatchFrom(s: string, from: nat): Option<string>
    decreases |s| - from
  {
    if from >= |s| then None
    else match GithubMatchAt(s, from)
      case Some(p) => Some(p)
      case None => GithubMatchFrom(s, from + 1)
  }

  /** `repoPath` as the route computes it from the remote URL; empty when nothing matches. */
  function RepoPath(url: string): string {
    if Contains(url, "github.com") then GithubMatchFrom(url, 0).GetOr("") else ""
  }

  /** `https://<token>@github.com/<repoPath>.git`. */
  function AuthenticatedUrl(token: string, repoPath: string): string {
    "https://" + token + "@github.com/" + repoPath + ".git"
  }

  lemma GithubMatchSkip(s: string, from: nat, to: nat)
    requires from <= to
    requires forall i :: from <= i < to ==> !At(s, "github.com", i)
    ensures GithubMatchFrom(s, from) == GithubMatchFrom(s, to)
    decreases (to as int) - (from as int)
  {
    if from < to && from < |s| {
      GithubMatchSkip(s, from + 1, to);
    }
  }

  lemma AtChars(s: string, p: string, i: int)
    requires At(s, p, i)
    ensures forall j :: 0 <= j < |p| ==> s[i + j] == p[j]
  {
    forall j | 0 <= j < |p|
      ensures s[i + j] == p[j]
    {
      assert s[i..i + |p|][j] == s[i + j];
    }
  }

  /** `g` occurs in `github.com` only at its start. */
  lemma OneG(j: int)
    requires 0 < j < 10
    ensures "github.com"[j] != 'g'
  {
  }

  lemma SingleLineConcat(a: string, b: string)
    requires SingleLine(a) && SingleLine(b)
    ensures SingleLine(a + b)
  {
    forall i | 0 <= i < |a + b|
      ensures !IsLineTerminator((a + b)[i])
    {
      if i >= |a| { assert (a + b)[i] == b[i - |a|]; }
    }
  }

  /**
   * After a prefix in which `github.com` does not occur, the repository path
   * is what follows `github.com/` or `github.com:`, less one trailing `.git`.
   */
  lemma RepoPathAfter(prefix: string, sep: char, rest: string)
    requires !Contains(prefix, "github.com")
    requires sep == '/' || sep == ':'
    requires rest != [] && SingleLine(rest)
    ensures RepoPath(prefix + "github.com" + [sep] + rest) ==
            if |rest| > 4 && EndsWith(rest, ".git") then rest[..|rest| - 4] else rest
  {
    var s := prefix + "github.com" + [sep] + rest;
    var n := |prefix|;
    assert s == prefix + "github.com" + ([sep] + rest);
    assert Contains("github.com", "github.com");
    ContainsInConcat(prefix, "github.com", [sep] + rest, "github.com");
    ContainsMeans(prefix, "github.com");
    forall i | 0 <= i < n
      ensures !At(s, "github.com", i)
    {
      if i + 10 <= n {
        assert s[i..i + 10] == prefix[i..i + 10];
        assert !At(prefix, "github.com", i);
      } else {
        assert s[n] == 'g';
        OneG(n - i);
        if i + 10 <= |s| {
          assert s[i..i + 10][n - i] == 'g';
        }
      }
    }
    GithubMatchSkip(s, 0, n);
    assert s[n..n + 10] == "github.com";
    assert s[n + 11..] == rest;
  }

  /** An occurrence of `github.com` before the `@` lies inside the token. */
  lemma AtPrefixInToken(token: string, i: int)
    ensures At("https://" + token + "@", "github.com", i) ==> i >= 8 && At(token, "github.com", i - 8)
  {
    var prefix := "https://" + token + "@";
    if At(prefix, "github.com", i) {
      AtChars(prefix, "github.com", i);
      assert prefix[i] == 'g';
      assert prefix[i + 9] == 'm';
      assert prefix[|prefix| - 1] == '@';
      assert i >= 8;
      assert i + 10 <= |prefix| - 1;
      assert prefix[i..i + 10] == token[i - 8..i - 8 + 10];
    }
  }

  /** `github.com` cannot straddle the `@` after a token that does not contain it. */
  lemma TokenPrefixClean(token: string)
    requires !Contains(token, "github.com")
    ensures !Contains("https://" + token + "@", "github.com")
  {
    ContainsMeans(token, "github.com");
    ContainsMeans("https://" + token + "@", "github.com");
    forall i
      ensures !At("https://" + token + "@", "github.com", i)
    {
      AtPrefixInToken(token, i);
    }
  }

  /** The path read back off an authenticated URL is the path it was built from. */
  lemma RepoPathOfAuthenticatedUrl(token: string, repoPath: string)
    requires !Contains(token, "github.com")
    requires repoPath != "" && SingleLine(repoPath)
    ensures RepoPath(AuthenticatedUrl(token, repoPath)) == repoPath
  {
    var prefix := "https://" + token + "@";
    var rest := repoPath + ".git";
    assert AuthenticatedUrl(token, repoPath) == prefix + "github.com" + ['/'] + rest;
    TokenPrefixClean(token);
    SingleLineConcat(repoPath, ".git");
    assert rest[..|rest| - 4] == repoPath;
    RepoPathAfter(prefix, '/', rest);
  }

  /** The path of a remote `<scheme>github.com<sep><owner>.git` is `<owner>`. */
  lemma RepoPathOfGitSuffix(scheme: string, sep: char, owner: string)
    requires scheme == "https://" || scheme == "git@"
    requires sep == '/' || sep == ':'
    requires owner != "" && SingleLine(owner)
    ensures RepoPath(scheme + "github.com" + [sep] + owner + ".git") == owner
  {
    var rest := owner + ".git";
    SingleLineConcat(owner, ".git");
    assert rest[..|rest| - 4] == owner && rest[|rest| - 4..] == ".git";
    assert scheme + "github.com" + [sep] + owner + ".git" == scheme + "github.com" + [sep] + rest;
    ContainsMeans(scheme, "github.com");
    RepoPathAfter(scheme, sep, rest);
  }

  /** An HTTPS remote and an SSH remote give the same path. */
  lemma RepoPathOfRemotes(owner: string)
    requires owner != "" && SingleLine(owner)
    ensures RepoPath("https://github.com/" + owner + ".git") == owner
    ensures RepoPath("git@github.com:" + owner + ".git") == owner
    ensures RepoPath("https://github.com/" + owner) == owner || (|owner| > 4 && EndsWith(owner, ".git"))
  {
    var https, ssh := "https://" + "github.com" + ['/'], "git@" + "github.com" + [':'];
    assert https == "https://github.com/";
    assert ssh == "git@github.com:";
    RepoPathOfGitSuffix("https://", '/', owner);
    RepoPathOfGitSuffix("git@", ':', owner);
    ContainsMeans("https://", "github.com");
    RepoPathAfter("https://", '/', owner);
  }

  /** A remote that does not mention `github.com` has no path. */
  lemma NoGithubNoPath(url: string)
    requires !Contains(url, "github.com")
    ensures RepoPath(url) == ""
  {
  }

  // ---------------------------------------------------------------------------
  // The remote URL written back

  /** `currentRemoteUrl && !currentRemoteUrl.includes('@github.com')`. */
  predicate Restorable(url: string) {
    url != "" && !Contains(url, "@github.com")
  }

  /** An authenticated URL is never written back as an original remote. */
  lemma AuthenticatedUrlNotRestorable(token: string, repoPath: string)
    ensures !Restorable(AuthenticatedUrl(token, repoPath))
  {
    assert Contains("@github.com", "@github.com");
    assert AuthenticatedUrl(token, repoPath) == ("https://" + token) + "@github.com" + ("/" + repoPath + ".git");
    ContainsInConcat("https://" + token, "@github.com", "/" + repoPath + ".git", "@github.com");
  }

  // ---------------------------------------------------------------------------
  // Pull results and git errors

  /** The test that picks the "already up to date" log line after a pull. */
  predicate PullUpToDate(summary: string, files: Option<seq<string>>) {
    Contains(summary, "Already up to date") || Contains(summary, "up to date") || (files.Some? && |files.value| == 0)
  }

  /** A pull error that only says the repository is up to date is not an error. */
  predicate PullErrorSwallowed(message: string) {
    Contains(message, "Already up to date") || Contains(message, "up to date")
  }

  /** "Already up to date" contains "up to date": the first test adds nothing. */
  lemma UpToDateTests(message: string, files: Option<seq<string>>)
    ensures PullErrorSwallowed(message) <==> Contains(message, "up to date")
    ensures PullUpToDate(message, files) <==> Contains(message, "up to date") || (files.Some? && files.value == [])
  {
    if Contains(message, "Already up to date") {
      assert "Already up to date"[8..18] == "up to date";
      ContainsInfix(message, "Already up to date", "up to date", 8);
    }
  }

  /** One infix of `s` holding `q` at offset `k` puts `q` in `s` too. */
  lemma ContainsInfix(s: string, p: string, q: string, k: nat)
    requires Contains(s, p) && At(p, q, k)
    ensures Contains(s, q)
  {
    ContainsMeans(s, p);
    var i :| At(s, p, i);
    forall j | 0 <= j < |q|
      ensures s[i + k + j] == q[j]
    {
      assert s[i..i + |p|][k + j] == s[i + k + j];
      assert p[k..k + |q|][j] == p[k + j];
    }
    assert s[i + k..i + k + |q|] == q;
    assert At(s, q, i + k);
    ContainsMeans(s, q);
  }

  predicate IsAuthError(m: string) {
    Contains(m, "Authentication") || Contains(m, "401") || Contains(m, "Bad credentials")
  }

  predicate IsAccessError(m: string) {
    Contains(m, "Permission denied") || Contains(m, "403") || Contains(m, "not found") || Contains(m, "Not Found")
  }

  /** The conflict test of the inner `catch`. */
  predicate IsConflict(m: string) {
    Contains(m, "CONFLICT") || Contains(m, "conflict")
  }

  /** The reasons the route fails for, each with what its reply quotes. */
  datatype Failure =
    | TokenRequired
    | RepoDirMissing
    | InvalidRepoUrl(remote: string)
    | AuthenticationFailed
    | AccessDenied
    | PullConflict(message: string)
    | GitConflict(message: string)
    | GitFailed(message: string)
    | ProtoDirMissing
    | ReadFailed(message: string)
    | NoProtoFiles

  function StatusOf(f: Failure): nat {
    match f
    case TokenRequired => 400
    case RepoDirMissing => 404
    case InvalidRepoUrl(_) => 400
    case AuthenticationFailed => 401
    case AccessDenied => 403
    case PullConflict(_) => 409
    case GitConflict(_) => 409
    case GitFailed(_) => 500
    case ProtoDirMissing => 404
    case ReadFailed(_) => 500
    case NoProtoFiles => 404
  }

  /** The `error` and `message` fields of the reply's JSON body. */
  function ReplyText(f: Failure): (string, string) {
    match f
    case TokenRequired => ("GitHub token is required", "Please provide a GitHub token to authenticate and pull latest changes.")
    case RepoDirMissing =>
      ("Repository directory not found",
       "Repository directory not found at: " + RepoDir + ". Please ensure the product-assortment-service repository exists at this location.")
    case InvalidRepoUrl(url) => ("Invalid repository URL", "Could not extract repository path from remote URL: " + url)
    case AuthenticationFailed => ("GitHub authentication failed", "Invalid GitHub token. Please check your token and try again.")
    case AccessDenied =>
      ("Repository access denied",
       "Your token does not have access to the repository. Please:\n1. Ensure you have access to zeptonow/product-assortment-service\n2. Enable SSO for the token if required: https://github.com/settings/tokens\n3. Check with your admin for repository access.")
    case PullConflict(m) => ("Merge conflict detected", PullConflictText(m))
    case GitConflict(m) => ("Merge conflict detected", GitConflictText(m))
    case GitFailed(m) => ("Git pull failed", GitFailedText(m))
    case ProtoDirMissing => ("Proto directory not found", "Proto directory not found at: " + ProtoDir + " after git pull.")
    case ReadFailed(m) => ("Failed to read proto files", "Error reading proto files: " + m)
    case NoProtoFiles =>
      ("No proto files found", "No .proto files found in: " + ProtoDir + ". Please check if proto files exist in the repository.")
  }

  lemma ContainsExtend(s: string, t: string, p: string)
    requires Contains(s, p)
    ensures Contains(s + t, p)
  {
    ContainsMeans(s, p);
    var i :| At(s, p, i);
    assert (s + t)[i..i + |p|] == s[i..i + |p|];
    assert At(s + t, p, i);
    ContainsMeans(s + t, p);
  }

  lemma ContainsSelf(m: string, a: string)
    ensures Contains(a + m, m)
  {
    assert (a + m)[|a|..|a| + |m|] == m;
    assert At(a + m, m, |a|);
    ContainsMeans(a + m, m);
  }

  const PullConflictHead := "Git pull failed due to merge conflicts. Please resolve conflicts manually in the repository.\n\nError: "
  const PullConflictTail := "\n2. Resolve conflicts manually\n3. Run: git add . && git commit\n4. Then try Update Proto again"
  const GitConflictHead := "Git pull failed due to merge conflicts.\n\nError: "
  const GitConflictTail :=
    "\n2. Run: git rebase --abort (if rebase in progress)\n3. Run: git pull origin main --no-rebase --strategy-option=theirs\n4. Then try Update Proto again"
  const GitFailedHead := "Failed to pull latest changes: "
  const GitFailedTail := "\n\nPossible causes:\n- Repository access issues\n- Git conflicts\n- Network issues\n\nCheck server logs for more details."
  const ResolveHead := "\n\nTo resolve:\n1. Go to: "

  /** The 409 text of the inner `catch`, quoting the pull error `m`. */
  function PullConflictText(m: string): (r: string)
    ensures Contains(r, m)
  {
    ContainsSelf(m, PullConflictHead);
    ContainsExtend(PullConflictHead + m, ResolveHead, m);
    ContainsExtend(PullConflictHead + m + ResolveHead, RepoDir, m);
    ContainsExtend(PullConflictHead + m + ResolveHead + RepoDir, PullConflictTail, m);
    PullConflictHead + m + ResolveHead + RepoDir + PullConflictTail
  }

  /** The 409 text of the outer `catch`, quoting the git error `m`. */
  function GitConflictText(m: string): (r: string)
    ensures Contains(r, m)
  {
    ContainsSelf(m, GitConflictHead);
    ContainsExtend(GitConflictHead + m, ResolveHead, m);
    ContainsExtend(GitConflictHead + m + ResolveHead, RepoDir, m);
    ContainsExtend(GitConflictHead + m + ResolveHead + RepoDir, GitConflictTail, m);
    GitConflictHead + m + ResolveHead + RepoDir + GitConflictTail
  }

  /** The 500 text, quoting the git error `m`. */
  function GitFailedText(m: string): (r: string)
    ensures Contains(r, m)
  {
    ContainsSelf(m, GitFailedHead);
    ContainsExtend(GitFailedHead + m, GitFailedTail, m);
    GitFailedHead + m + GitFailedTail
  }

  /** What an error caught around the git steps is reported as, by the first test its message meets. */
  function ClassifyGitError(m: string): Failure {
    if IsAuthError(m) then AuthenticationFailed
    else if IsAccessError(m) then AccessDenied
    else if IsConflict(m) || Contains(m, "merge conflict") then GitConflict(m)
    else GitFailed(m)
  }

  /**
   * The classification, test by test: authentication first, then access, then
   * conflicts ("merge conflict" adds nothing to "conflict"), and anything else
   * is a 500 carrying the message.
   */
  lemma ClassifyGitErrorCases(m: string)
    ensures StatusOf(ClassifyGitError(m)) == 401 <==> IsAuthError(m)
    ensures StatusOf(ClassifyGitError(m)) == 403 <==> !IsAuthError(m) && IsAccessError(m)
    ensures StatusOf(ClassifyGitError(m)) == 409 <==> !IsAuthError(m) && !IsAccessError(m) && IsConflict(m)
    ensures StatusOf(ClassifyGitError(m)) == 500 <==> !IsAuthError(m) && !IsAccessError(m) && !IsConflict(m)
    ensures StatusOf(ClassifyGitError(m)) in {409, 500} ==> ClassifyGitError(m).message == m
  {
    if Contains(m, "merge conflict") {
      assert "merge conflict"[6..14] == "conflict";
      ContainsInfix(m, "merge conflict", "conflict", 6);
    }
  }

  // ---------------------------------------------------------------------------
  // The whole request

  /**
   * How the git steps went: writing the token URL into the remote threw, or
   * `git status` or `git stash` threw after it was written, or the pull threw,
   * or the pull returned its summary and file list.
   */
  datatype GitRun =
    | TokenWriteFailed(message: string)
    | SetupFailed(message: string)
    | PullFailed(message: string)
    | Pulled(summary: string, files: Option<seq<string>>)

  /** A proto file `readProtoFiles` returns: relative path and text. */
  datatype ProtoText = ProtoText(relative: string, text: string)

  /**
   * The repository around the request: whether its directory exists, the
   * `origin` URL (`''` when unset), the git steps' outcome, whether the proto
   * directory exists after the pull and what reading it gives.
   */
  datatype World = World(repoDirExists: bool, remote: string, git: GitRun,
                         protoDirExists: bool, read: Result<seq<ProtoText>, string>)

  datatype Body = Failed(failure: Failure) | Updated(files: seq<ProtoText>)

  /** The reply and the `origin` URL the repository is left with. */
  datatype Outcome = Outcome(body: Body, remote: string)

  function Status(o: Outcome): nat {
    match o.body
    case Failed(f) => StatusOf(f)
    case Updated(_) => 200
  }

  /** The URL written back over the authenticated one: the original when it may be, else none. */
  function Restored(original: string, authenticated: string): string {
    if Restorable(original) then original else authenticated
  }

  /**
   * The 409 for a conflicting pull as written: it returns from inside the
   * inner `catch`, before the original remote is written back, so the token
   * stays in the repository's configuration.
   */
  function ConflictOutcomeAsWritten(m: string, original: string, authenticated: string): (o: Outcome)
    ensures Status(o) == 409 && o.remote == authenticated
  {
    Outcome(Failed(PullConflict(m)), authenticated)
  }

  /** The 409 for a conflicting pull with the remote restored like on every other exit. */
  function ConflictOutcome(m: string, original: string, authenticated: string): (o: Outcome)
    ensures Status(o) == 409
    ensures Restorable(original) ==> o.remote == original
    ensures !Restorable(original) ==> o.remote == authenticated
  {
    Outcome(Failed(PullConflict(m)), Restored(original, authenticated))
  }

  /**
   * For every remote that should be written back, such as
   * `https://github.com/zeptonow/product-assortment-service.git`, a conflicting
   * pull as written leaves the token URL in its place.
   */
  lemma ConflictKeepsTokenAsWritten(m: string, original: string, token: string, repoPath: string)
    requires Restorable(original)
    ensures var auth := AuthenticatedUrl(token, repoPath);
      && ConflictOutcomeAsWritten(m, original, auth).remote == auth
      && auth != original
      && ConflictOutcome(m, original, auth).remote == original
  {
    AuthenticatedUrlNotRestorable(token, repoPath);
  }

  /** What follows a pull that went through or was only up to date. */
  function AfterPull(w: World, remote: string): Outcome {
    if !w.protoDirExists then Outcome(Failed(ProtoDirMissing), remote)
    else match w.read
      case Err(e) => Outcome(Failed(ReadFailed(e)), remote)
      case Ok(files) => if files == [] then Outcome(Failed(NoProtoFiles), remote) else Outcome(Updated(files), remote)
  }

  /** A pull error that the inner `catch` answers with its own 409. */
  predicate ConflictExit(g: GitRun) {
    g.PullFailed? && !PullErrorSwallowed(g.message) && IsConflict(g.message)
  }

  /**
   * The git steps run against `auth`, the remote's authenticated form. A failed
   * write of the token URL leaves the remote as it was (writing the original
   * back over itself changes nothing); every other exit has written `auth`.
   * `restoreOnConflict` chooses the conflict exit: as written it returns before
   * the original remote is written back.
   */
  function RunGit(w: World, auth: string, restoreOnConflict: bool): Outcome {
    match w.git
    case TokenWriteFailed(m) => Outcome(Failed(ClassifyGitError(m)), w.remote)
    case SetupFailed(m) => Outcome(Failed(ClassifyGitError(m)), Restored(w.remote, auth))
    case PullFailed(m) =>
      if PullErrorSwallowed(m) then AfterPull(w, Restored(w.remote, auth))
      else if IsConflict(m) then
        if restoreOnConflict then ConflictOutcome(m, w.remote, auth) else ConflictOutcomeAsWritten(m, w.remote, auth)
      else Outcome(Failed(ClassifyGitError(m)), Restored(w.remote, auth))
    case Pulled(_, _) => AfterPull(w, Restored(w.remote, auth))
  }

  /** The route's steps, with the conflict exit chosen by `restoreOnConflict`. */
  function Route(token: string, w: World, restoreOnConflict: bool): Outcome {
    if token == "" then Outcome(Failed(TokenRequired), w.remote)
    else if !w.repoDirExists then Outcome(Failed(RepoDirMissing), w.remote)
    else
      var repoPath := RepoPath(w.remote);
      if repoPath == "" then Outcome(Failed(InvalidRepoUrl(w.remote)), w.remote)
      else RunGit(w, AuthenticatedUrl(token, repoPath), restoreOnConflict)
  }

  /**
   * `POST /update-proto` with the token `token`, the empty string standing for
   * a missing one: the reply and the remote the repository is left with.
   */
  function Update(token: string, w: World): (o: Outcome)
    ensures o.remote == w.remote || o.remote == AuthenticatedUrl(token, RepoPath(w.remote))
  {
    Route(token, w, false)
  }

  /** The route with the remote written back on the conflict exit too. */
  function UpdateIntended(token: string, w: World): (o: Outcome)
    ensures o.remote == w.remote || o.remote == AuthenticatedUrl(token, RepoPath(w.remote))
  {
    Route(token, w, true)
  }

  /** Without a token the route answers 400 and touches nothing, whatever the repository. */
  lemma TokenCheckedFirst(w: World)
    ensures Status(Update("", w)) == 400 && Update("", w).remote == w.remote
    ensures Update("", w) == Update("", World(false, w.remote, SetupFailed(""), false, Err("")))
  {
  }

  /**
   * The statuses the route answers with; a 200 comes only from a pull that
   * went through (or was only up to date) and a non-empty list of files.
   */
  lemma UpdateStatuses(token: string, w: World)
    ensures Status(Update(token, w)) in {200, 400, 401, 403, 404, 409, 500}
    ensures Status(Update(token, w)) == 200 ==>
      && token != "" && w.repoDirExists && RepoPath(w.remote) != ""
      && (w.git.Pulled? || (w.git.PullFailed? && PullErrorSwallowed(w.git.message)))
      && w.protoDirExists && w.read.Ok? && w.read.value != []
      && Update(token, w).body == Updated(w.read.value)
  {
    if token != "" && w.repoDirExists && RepoPath(w.remote) != "" && !w.git.Pulled? {
      ClassifyGitErrorCases(w.git.message);
    }
  }

  /**
   * As written, a conflicting pull answers 409 and leaves the token URL as the
   * remote; when the original remote should have been written back, the
   * token URL is not that original.
   */
  lemma ConflictLeavesToken(token: string, w: World)
    requires token != "" && w.repoDirExists && RepoPath(w.remote) != "" && ConflictExit(w.git)
    ensures Status(Update(token, w)) == 409
    ensures Update(token, w).body == Failed(PullConflict(w.git.message))
    ensures Update(token, w).remote == AuthenticatedUrl(token, RepoPath(w.remote))
    ensures Restorable(w.remote) ==> Update(token, w).remote != w.remote
  {
    AuthenticatedUrlNotRestorable(token, RepoPath(w.remote));
  }

  /**
   * As written, an original remote that may be written back is written back on
   * every exit except the conflict exit of the inner `catch`.
   */
  lemma RemoteRestoredExceptOnConflict(token: string, w: World)
    requires Restorable(w.remote) && !ConflictExit(w.git)
    ensures Update(token, w).remote == w.remote
  {
  }

  /**
   * As written, the token URL stays behind exactly when it was written and
   * then not replaced: the original could not be written back, or the pull
   * conflicted (or the original already was that URL).
   */
  lemma TokenUrlLeftBehindAsWritten(token: string, w: World)
    requires token != "" && w.repoDirExists && RepoPath(w.remote) != ""
    ensures var auth := AuthenticatedUrl(token, RepoPath(w.remote));
      Update(token, w).remote == auth <==>
        (!w.git.TokenWriteFailed? && (!Restorable(w.remote) || ConflictExit(w.git))) || w.remote == auth
  {
  }

  /** Off the conflict exit, the route as written and the corrected one agree. */
  lemma UpdateAgreesOffConflict(token: string, w: World)
    requires !ConflictExit(w.git)
    ensures Update(token, w) == UpdateIntended(token, w)
  {
  }

  /**
   * With the conflict exit corrected, the git steps leave the remote as it
   * was, or carrying the token built from its own path; and an original
   * remote that may be written back always is, on every exit.
   */
  lemma RemoteRestored(token: string, w: World)
    ensures var o := UpdateIntended(token, w);
      o.remote == w.remote || o.remote == AuthenticatedUrl(token, RepoPath(w.remote))
    ensures Restorable(w.remote) ==> UpdateIntended(token, w).remote == w.remote
  {
  }

  /**
   * With the conflict exit corrected, the token URL stays behind exactly when
   * it was written and the original remote may not be written back (it was
   * empty or already held credentials).
   */
  lemma TokenUrlLeftBehind(token: string, w: World)
    requires token != "" && w.repoDirExists && RepoPath(w.remote) != ""
    ensures var auth := AuthenticatedUrl(token, RepoPath(w.remote));
      UpdateIntended(token, w).remote == auth <==>
        (!w.git.TokenWriteFailed? && !Restorable(w.remote)) || w.remote == auth
  {
  }

  /** A pull error that says "up to date" goes on exactly as a pull that went through. */
  lemma UpToDateErrorIsSuccess(token: string, w: World, m: string, summary: string, files: Option<seq<string>>)
    requires PullErrorSwallowed(m)
    ensures Update(token, w.(git := PullFailed(m))) == Update(token, w.(git := Pulled(summary, files)))
  {
  }

  /**
   * The up-to-date test on a pull's summary and files only picks a log line:
   * the reply and the remote are the same whatever the pull returned, whether
   * `PullUpToDate` holds of it or not.
   */
  lemma PullSummaryIgnored(token: string, w: World, s1: string, f1: Option<seq<string>>, s2: string, f2: Option<seq<string>>)
    ensures Update(token, w.(git := Pulled(s1, f1))) == Update(token, w.(git := Pulled(s2, f2)))
  {
  }
}

=== FILE: grpc_route.dfy ===
/**
 * The `/call` handler of the gRPC route: the checks on the request body, the
 * environment table, the metadata built from the headers and the reshaping of
 * the message before it is sent. Everything the handler asks of the file
 * system, of the proto loader and of the gRPC client is a field of `Backend`.
 */
module GrpcRoute {
  import opened Wrappers
  import opened Json
  import opened ProtoParser

  // ---------------------------------------------------------------------------
  // The environment table

  /** `ENVIRONMENTS`, in key order. */
  const Environments: seq<(string, string)> := [("QA", "pas.zeptonow.dev:443"), ("PROD", "pas.zepto.co.in:443")]

  const EnvironmentNames: seq<string> := ["QA", "PROD"]

  /** The own entry of the table named `env`. */
  function EnvironmentHost(env: string): (r: Option<string>)
    ensures r.Some? <==> env in EnvironmentNames
    ensures r.Some? ==> (env, r.value) in Environments
  {
    if env == "QA" then Some("pas.zeptonow.dev:443")
    else if env == "PROD" then Some("pas.zepto.co.in:443")
    else None
  }

  /** The properties every plain object inherits from `Object.prototype`. */
  const ObjectPrototypeNames: set<string> := {
    "constructor", "__defineGetter__", "__defineSetter__", "hasOwnProperty",
    "__lookupGetter__", "__lookupSetter__", "isPrototypeOf", "propertyIsEnumerable",
    "toString", "valueOf", "__proto__", "toLocaleString"}

  /**
   * `!ENVIRONMENTS[environment]` fails as written: a property read also finds
   * the inherited members, every one of which is a truthy function or object.
   */
  predicate EnvironmentCheckPassesAsWritten(env: string) {
    EnvironmentHost(env).Some? || env in ObjectPrototypeNames
  }

  /** The environment check as intended: only the table's own keys pass. */
  predicate EnvironmentCheckPasses(env: string) {
    EnvironmentHost(env).Some?
  }

  /** The check as written lets `constructor` through, which names no environment. */
  lemma ConstructorPassesAsWritten()
    ensures EnvironmentCheckPassesAsWritten("constructor")
    ensures !EnvironmentCheckPasses("constructor")
    ensures EnvironmentHost("constructor") == None
  {
  }

  /** The intended check accepts exactly the keys of the table, each with its host. */
  lemma EnvironmentCheckExact(env: string)
    ensures EnvironmentCheckPasses(env) <==> env == "QA" || env == "PROD"
    ensures EnvironmentCheckPasses(env) ==> exists i :: 0 <= i < |Environments| && Environments[i] == (env, EnvironmentHost(env).value)
  {
    if env == "QA" {
      assert Environments[0] == (env, EnvironmentHost(env).value);
    } else if env == "PROD" {
      assert Environments[1] == (env, EnvironmentHost(env).value);
    }
  }

  // ---------------------------------------------------------------------------
  // Metadata

  /** A header entry `metadata.add(key, value)` receives. */
  datatype Pair = Pair(key: string, value: string)

  /** The entries of `es` whose value is a non-empty string, in order. */
  function MetadataPairs(es: seq<Member>): seq<Pair> {
    if es == [] then []
    else
      var m := es[|es| - 1];
      MetadataPairs(es[..|es| - 1]) + (if m.value.JStr? && m.value.s != "" then [Pair(m.key, m.value.s)] else [])
  }

  /**
   * The metadata holds exactly the entries whose value is a non-empty string,
   * key and value copied, and never more entries than the headers have.
   */
  lemma {:induction false} MetadataPairsMeans(es: seq<Member>)
    ensures |MetadataPairs(es)| <= |es|
    ensures forall p :: p in MetadataPairs(es) <==> p.value != "" && Member(p.key, JStr(p.value)) in es
  {
    if es != [] {
      var init := es[..|es| - 1];
      MetadataPairsMeans(init);
      assert es == init + [es[|es| - 1]];
    }
  }

  /** The headers' entries when `headers && typeof headers === 'object'`, else none. */
  function HeaderEntries(headers: Option<Json>): seq<Member> {
    if headers.Some? && Truthy(headers.value) && IsObject(headers.value) then Entries(headers.value) else []
  }

  /** The metadata `new grpc.Metadata()` receives from the request's headers. */
  method BuildMetadata(headers: Option<Json>) returns (md: seq<Pair>)
    ensures md == MetadataPairs(HeaderEntries(headers))
  {
    md := [];
    if headers.Some? && Truthy(headers.value) && IsObject(headers.value) {
      var es := Entries(headers.value);
      for i := 0 to |es|
        invariant md == MetadataPairs(es[..i])
      {
        assert es[..i + 1][..i] == es[..i];
        var key, value := es[i].key, es[i].value;
        if value.JStr? && value.s != "" {
          md := md + [Pair(key, value.s)];
        }
      }
      assert es[..|es|] == es;
    }
  }

  // ---------------------------------------------------------------------------
  // Reshaping the message

  /** The fields the conversion wraps as `google.protobuf.StringValue`. */
  const StringValueFields: seq<string> := ["product_id", "store_id", "subcategory_id", "product_variant_id"]

  /** The value a listed field ends up with: a string or null is wrapped, anything else kept. */
  function Wrap(v: Json): Json {
    match v
    case JStr(s) => JObj([Member("value", JStr(s))])
    case JNull => JObj([Member("value", JStr(""))])
    case _ => v
  }

  /** The conversion's step for one listed name; an absent key stays absent. */
  function ConvertField(ms: seq<Member>, k: string): seq<Member> {
    match Get(ms, k)
    case None => ms
    case Some(v) => if v.JStr? || v.JNull? then Put(ms, k, Wrap(v)) else ms
  }

  /** The steps for `names`, in order. */
  function ConvertFields(ms: seq<Member>, names: seq<string>): seq<Member> {
    if names == [] then ms
    else ConvertField(ConvertFields(ms, names[..|names| - 1]), names[|names| - 1])
  }

  /** `convertMessageForGrpc(message)`: a falsy or non-object message is returned as it is. */
  function Converted(m: Json): Json {
    if !Truthy(m) || !IsObject(m) then m
    else JObj(ConvertFields(Entries(m), StringValueFields))
  }

  /** `convertMessageForGrpc`, on a shallow copy of the message's entries. */
  method ConvertMessage(message: Json) returns (r: Json)
    ensures r == Converted(message)
  {
    if !Truthy(message) || !IsObject(message) {
      return message;
    }
    var converted := Entries(message);
    for i := 0 to |StringValueFields|
      invariant converted == ConvertFields(Entries(message), StringValueFields[..i])
    {
      assert StringValueFields[..i + 1][..i] == StringValueFields[..i];
      var fieldName := StringValueFields[i];
      if fieldName in Keys(converted) {
        var value := Get(converted, fieldName).value;
        if value.JStr? {
          converted := Put(converted, fieldName, JObj([Member("value", value)]));
        } else if value.JNull? {
          converted := Put(converted, fieldName, JObj([Member("value", JStr(""))]));
        }
      }
    }
    assert StringValueFields[..|StringValueFields|] == StringValueFields;
    return JObj(converted);
  }

  lemma WrapIdempotent(v: Json)
    ensures Wrap(Wrap(v)) == Wrap(v)
    ensures !Wrap(v).JStr? && !Wrap(v).JNull?
  {
  }

  lemma ConvertFieldKeysGet(ms: seq<Member>, k: string, k': string)
    ensures Keys(ConvertField(ms, k)) == Keys(ms)
    ensures Get(ConvertField(ms, k), k') == if k' == k && Get(ms, k).Some? then Some(Wrap(Get(ms, k).value)) else Get(ms, k')
  {
    var g := Get(ms, k);
    if g.Some? && (g.value.JStr? || g.value.JNull?) {
      PutKeys(ms, k, Wrap(g.value));
      PutGet(ms, k, Wrap(g.value), k');
    }
  }

  /** The conversion adds and removes no key. */
  lemma {:induction false} ConvertFieldsKeys(ms: seq<Member>, names: seq<string>)
    ensures Keys(ConvertFields(ms, names)) == Keys(ms)
  {
    if names != [] {
      ConvertFieldsKeys(ms, names[..|names| - 1]);
      ConvertFieldKeysGet(ConvertFields(ms, names[..|names| - 1]), names[|names| - 1], "");
    }
  }

  /**
   * The conversion wraps the value of each listed key that is present and
   * leaves every other key's value as it was.
   */
  lemma {:induction false} ConvertFieldsGet(ms: seq<Member>, names: seq<string>, k: string)
    ensures Get(ConvertFields(ms, names), k) == if k in names && Get(ms, k).Some? then Some(Wrap(Get(ms, k).value)) else Get(ms, k)
  {
    if names != [] {
      var init, last := names[..|names| - 1], names[|names| - 1];
      var before := ConvertFields(ms, init);
      assert names == init + [last];
      ConvertFieldsGet(ms, init, k);
      ConvertFieldKeysGet(before, last, k);
      if k == last && Get(before, k).Some? {
        WrapIdempotent(Get(ms, k).value);
      }
    }
  }

  /** Once no listed key holds a string or null, the conversion changes nothing. */
  lemma {:induction false} ConvertFieldsSettled(ms: seq<Member>, names: seq<string>)
    requires forall k :: k in names && Get(ms, k).Some? ==> !Get(ms, k).value.JStr? && !Get(ms, k).value.JNull?
    ensures ConvertFields(ms, names) == ms
  {
    if names != [] {
      ConvertFieldsSettled(ms, names[..|names| - 1]);
    }
  }

  /** Converting a converted message changes nothing. */
  lemma ConvertedIdempotent(m: Json)
    ensures Converted(Converted(m)) == Converted(m)
  {
    if Truthy(m) && IsObject(m) {
      var once := ConvertFields(Entries(m), StringValueFields);
      forall k | k in StringValueFields && Get(once, k).Some?
        ensures !Get(once, k).value.JStr? && !Get(once, k).value.JNull?
      {
        ConvertFieldsGet(Entries(m), StringValueFields, k);
        WrapIdempotent(Get(Entries(m), k).value);
      }
      ConvertFieldsSettled(once, StringValueFields);
    }
  }

  /**
   * An object message keeps its keys in order; each listed key that holds a
   * string `v` now holds `{value: v}`, null becomes `{value: ''}`, and every
   * other value is the message's own.
   */
  lemma ConvertedObject(ms: seq<Member>, k: string)
    ensures Converted(JObj(ms)).JObj?
    ensures Keys(Converted(JObj(ms)).members) == Keys(ms)
    ensures var g := Get(Converted(JObj(ms)).members, k);
      && (k !in StringValueFields ==> g == Get(ms, k))
      && (k in StringValueFields ==> g == match Get(ms, k)
                                          case None => None
                                          case Some(JStr(s)) => Some(JObj([Member("value", JStr(s))]))
                                          case Some(JNull) => Some(JObj([Member("value", JStr(""))]))
                                          case Some(v) => Some(v))
  {
    ConvertFieldsKeys(ms, StringValueFields);
    ConvertFieldsGet(ms, StringValueFields, k);
  }

  /** No index key of an array is one of the listed names, which start with a letter. */
  lemma IndexKeysUnlisted(items: seq<Json>, k: string)
    requires k in StringValueFields
    ensures Get(Entries(JArr(items)), k) == None
  {
    var es := Entries(JArr(items));
    assert k[0] == 'p' || k[0] == 's';
    forall i | 0 <= i < |es|
      ensures es[i].key != k
    {
      var key := IndexKey(i);
      assert es[i].key == key;
      assert '0' <= key[0] <= '9' by { assert key[0] in key; }
    }
  }

  /** A falsy or primitive message is sent as it came; an array becomes an object keyed by index. */
  lemma ConvertedOthers(m: Json)
    ensures !Truthy(m) || !IsObject(m) ==> Converted(m) == m
    ensures m.JArr? ==> Converted(m) == JObj(Entries(m))
  {
    if m.JArr? {
      forall k | k in StringValueFields
        ensures Get(Entries(m), k) == None
      {
        IndexKeysUnlisted(m.items, k);
      }
      ConvertFieldsSettled(Entries(m), StringValueFields);
    }
  }

  // ---------------------------------------------------------------------------
  // The handler

  /**
   * The request body. `methodName`, `serviceName` and `environment` are the
   * body's strings, the empty string standing for a missing one; `message`
   * and `headers` are `None` when the body lacks them.
   */
  datatype CallBody = CallBody(methodName: string, serviceName: string, environment: string,
                               message: Option<Json>, headers: Option<Json>)

  /** What the handler hands to the gRPC client. */
  datatype Outgoing = Outgoing(host: string, service: string, rpc: string, message: Json, metadata: seq<Pair>)

  /**
   * The loaded package definition: the keys of the descriptor, the keys of the
   * `store_product_service` package, and whether `servicePackage[name]` is a
   * truthy value.
   */
  datatype Descriptor = Descriptor(packageKeys: seq<string>, serviceKeys: seq<string>, service: string -> bool)

  /**
   * The world the handler works in: the proto directory it settled on, whether
   * the service's proto file exists there, what loading it gives (or the
   * message it throws), the message `new Service(...)` throws when the address
   * it is given is not a string, and what the unary call answers (or the
   * message of the error it rejects with, a missing method included).
   */
  datatype Backend = Backend(protoDir: string, protoFileExists: bool, load: Result<Descriptor, string>,
                             clientError: string, call: Outgoing -> Result<Json, string>)

  datatype Body = Failure(error: string, message: string) | Response(response: Json)

  datatype Reply = Reply(status: nat, body: Body)

  const PackageKey := "store_product_service"

  /** `keys.join(sep)`. */
  function JoinWith(keys: seq<string>, sep: string): string {
    if keys == [] then ""
    else if |keys| == 1 then keys[0]
    else JoinWith(keys[..|keys| - 1], sep) + sep + keys[|keys| - 1]
  }

  function ProtoPath(protoDir: string): string {
    JoinAll(protoDir, ["service", "store-product-service", "store_product_service.proto"])
  }

  predicate MissingParameters(body: CallBody) {
    body.methodName == "" || body.serviceName == "" || body.environment == ""
    || body.message.None? || !Truthy(body.message.value)
  }

  const MissingReply := Reply(400, Failure("Missing required parameters", "methodName, serviceName, environment, and message are required"))

  const InvalidEnvironmentReply := Reply(400, Failure("Invalid environment", "Environment must be one of: " + JoinWith(EnvironmentNames, ", ")))

  function CallFailed(message: string): Reply {
    Reply(500, Failure("gRPC call failed", message))
  }

  /** The request the handler sends once every check has passed. */
  function OutgoingFor(body: CallBody): Outgoing
    requires !MissingParameters(body) && EnvironmentCheckPasses(body.environment)
  {
    Outgoing(EnvironmentHost(body.environment).value, body.serviceName, body.methodName,
             Converted(body.message.value), MetadataPairs(HeaderEntries(body.headers)))
  }

  /**
   * `POST /call`: the status and body of the reply. The environment check is
   * the one written, so an inherited name such as `constructor` goes on to the
   * proto file and the loader; the client is then made with an address that
   * is not a string, and what that throws ends in the outer `catch`.
   */
  function HandleCall(body: CallBody, b: Backend): (r: Reply)
    ensures r.status in {200, 400, 404, 500}
    ensures r.status == 200 <==> r.body.Response?
  {
    Handle(body, b, EnvironmentCheckPassesAsWritten(body.environment))
  }

  /** The handler with the environment check as intended: only `QA` and `PROD` pass. */
  function HandleCallIntended(body: CallBody, b: Backend): (r: Reply)
    ensures r.status in {200, 400, 404, 500}
    ensures r.status == 200 <==> r.body.Response?
  {
    Handle(body, b, EnvironmentCheckPasses(body.environment))
  }

  /** The handler's steps, given the verdict of the environment check. */
  function Handle(body: CallBody, b: Backend, environmentOk: bool): Reply {
    if MissingParameters(body) then MissingReply
    else if !environmentOk then InvalidEnvironmentReply
    else if !b.protoFileExists then
      Reply(404, Failure("Proto file not found", "Proto file not found at " + ProtoPath(b.protoDir) + ". Please update proto files first."))
    else match b.load
      case Err(e) => CallFailed(e)
      case Ok(d) =>
        if PackageKey !in d.packageKeys then
          Reply(400, Failure("Service package not found",
                             "Package 'store_product_service' not found. Available packages: " + JoinWith(d.packageKeys, ", ")))
        else if !d.service(body.serviceName) then
          Reply(400, Failure("Service not found",
                             "Service " + body.serviceName + " not found. Available services: " + JoinWith(d.serviceKeys, ", ")))
        else if !EnvironmentCheckPasses(body.environment) then CallFailed(b.clientError)
        else match b.call(OutgoingFor(body))
          case Ok(response) => Reply(200, Response(response))
          case Err(e) => CallFailed(e)
  }

  /** A falsy parameter is refused before anything else happens, whatever the backend. */
  lemma MissingParametersFirst(body: CallBody, b: Backend)
    requires MissingParameters(body)
    ensures HandleCall(body, b) == MissingReply && HandleCall(body, b).status == 400
  {
  }

  /**
   * A name that is neither a key of the table nor inherited from
   * `Object.prototype` is refused before the proto file is looked for or
   * loaded and before any client is made.
   */
  lemma InvalidEnvironmentBeforeLoading(body: CallBody, b: Backend)
    requires !MissingParameters(body) && body.environment != "QA" && body.environment != "PROD"
    requires body.environment !in ObjectPrototypeNames
    ensures HandleCall(body, b) == InvalidEnvironmentReply && HandleCall(body, b).status == 400
  {
  }

  /**
   * An inherited name passes the check as written: the reply is the one for a
   * missing proto file, a failed load or a missing package or service, and
   * past those checks the 500 for the client that could not be made. It is
   * never the 400 for an invalid environment, and never a success.
   */
  lemma InheritedEnvironmentReachesLoading(body: CallBody, b: Backend)
    requires !MissingParameters(body) && body.environment in ObjectPrototypeNames
    ensures HandleCall(body, b) != InvalidEnvironmentReply && HandleCall(body, b).status != 200
    ensures !b.protoFileExists ==> HandleCall(body, b).status == 404
    ensures b.protoFileExists && b.load.Err? ==> HandleCall(body, b) == CallFailed(b.load.error)
    ensures b.protoFileExists && b.load.Ok? && PackageKey in b.load.value.packageKeys
            && b.load.value.service(body.serviceName) ==>
      HandleCall(body, b) == CallFailed(b.clientError)
    ensures HandleCallIntended(body, b) == InvalidEnvironmentReply
  {
  }

  /** The handler as written and as intended answer alike for every name not inherited from `Object.prototype`. */
  lemma HandlersAgreeOffPrototype(body: CallBody, b: Backend)
    requires body.environment !in ObjectPrototypeNames
    ensures HandleCall(body, b) == HandleCallIntended(body, b)
  {
  }

  /** With the intended check, every name other than `QA` and `PROD` is refused before loading. */
  lemma InvalidEnvironmentBeforeLoadingIntended(body: CallBody, b: Backend)
    requires !MissingParameters(body) && body.environment != "QA" && body.environment != "PROD"
    ensures HandleCallIntended(body, b) == InvalidEnvironmentReply && HandleCallIntended(body, b).status == 400
  {
  }

  /**
   * A successful reply comes from one call to the host of the chosen
   * environment, carrying the converted message and the filtered headers.
   */
  lemma SuccessfulCallIsShaped(body: CallBody, b: Backend)
    requires HandleCall(body, b).status == 200
    ensures !MissingParameters(body) && EnvironmentCheckPasses(body.environment) && b.protoFileExists && b.load.Ok?
    ensures var out := OutgoingFor(body);
      && (body.environment, out.host) in Environments
      && out.message == Converted(body.message.value)
      && (forall p :: p in out.metadata <==> p.value != "" && Member(p.key, JStr(p.value)) in HeaderEntries(body.headers))
      && b.call(out) == Ok(HandleCall(body, b).body.response)
  {
    MetadataPairsMeans(HeaderEntries(body.headers));
  }
}

=== FILE: json.dfy ===
/**
 * JSON-like values as the server and client exchange them. An object keeps its
 * keys in insertion order. That is the order JavaScript enumerates them as long
 * as no key looks like an array index, which holds for keys taken from proto
 * field names; JavaScript lists integer-like keys first, in ascending order,
 * and the keys of the request headers are whatever the user typed.
 */
module Json {
  import opened Wrappers

  datatype Json =
    | JNull
    | JBool(b: bool)
    | JNum(n: real)
    | JStr(s: string)
    | JArr(items: seq<Json>)
    | JObj(members: seq<Member>)

  datatype Member = Member(key: string, value: Json)

  function Keys(ms: seq<Member>): (ks: seq<string>)
    ensures |ks| == |ms|
    ensures forall i :: 0 <= i < |ms| ==> ks[i] == ms[i].key
  {
    if ms == [] then [] else [ms[0].key] + Keys(ms[1..])
  }

  /** `obj[k]`: the value of the first member with key `k`. */
  function Get(ms: seq<Member>, k: string): (r: Option<Json>)
    ensures r.None? <==> k !in Keys(ms)
    ensures r.Some? ==> Member(k, r.value) in ms
  {
    if ms == [] then None
    else if ms[0].key == k then Some(ms[0].value)
    else Get(ms[1..], k)
  }

  /** Every member with key `k` gets the value `v`; nothing else changes. */
  function Replace(ms: seq<Member>, k: string, v: Json): seq<Member> {
    if ms == [] then []
    else [if ms[0].key == k then Member(k, v) else ms[0]] + Replace(ms[1..], k, v)
  }

  /** `obj[k] = v`: an existing key keeps its position, a new key is appended. */
  function Put(ms: seq<Member>, k: string, v: Json): seq<Member> {
    if k in Keys(ms) then Replace(ms, k, v) else ms + [Member(k, v)]
  }

  lemma {:induction false} ReplaceKeys(ms: seq<Member>, k: string, v: Json)
    ensures Keys(Replace(ms, k, v)) == Keys(ms)
  {
    if ms != [] {
      ReplaceKeys(ms[1..], k, v);
    }
  }

  lemma {:induction false} ReplaceGet(ms: seq<Member>, k: string, v: Json, k': string)
    ensures Get(Replace(ms, k, v), k') == if k' == k && k in Keys(ms) then Some(v) else Get(ms, k')
  {
    if ms != [] {
      ReplaceGet(ms[1..], k, v, k');
      ReplaceKeys(ms, k, v);
      assert Keys(ms) == [ms[0].key] + Keys(ms[1..]);
    }
  }

  lemma GetAppend(ms: seq<Member>, m: Member, k: string)
    ensures Get(ms + [m], k) == if k in Keys(ms) then Get(ms, k) else if m.key == k then Some(m.value) else None
  {
    if ms != [] {
      assert (ms + [m])[1..] == ms[1..] + [m];
      GetAppend(ms[1..], m, k);
    }
  }

  /** Assignment adds the key at the end exactly when it was absent. */
  lemma PutKeys(ms: seq<Member>, k: string, v: Json)
    ensures Keys(Put(ms, k, v)) == if k in Keys(ms) then Keys(ms) else Keys(ms) + [k]
  {
    if k in Keys(ms) {
      ReplaceKeys(ms, k, v);
    } else {
      assert Keys(ms + [Member(k, v)]) == Keys(ms) + [k];
    }
  }

  /** After `obj[k] = v`, reading `k` gives `v` and reading any other key is unchanged. */
  lemma PutGet(ms: seq<Member>, k: string, v: Json, k': string)
    ensures Get(Put(ms, k, v), k') == if k' == k then Some(v) else Get(ms, k')
  {
    if k in Keys(ms) {
      ReplaceGet(ms, k, v, k');
    } else {
      GetAppend(ms, Member(k, v), k');
    }
  }

  /** JavaScript truthiness (NaN is not a value of this model). */
  predicate Truthy(j: Json) {
    match j
    case JNull => false
    case JBool(b) => b
    case JNum(n) => n != 0.0
    case JStr(s) => s != ""
    case JArr(_) => true
    case JObj(_) => true
  }

  /** `x && typeof x === 'object'`: an array or a plain object. */
  predicate IsObject(j: Json) {
    j.JArr? || j.JObj?
  }

  function DigitChar(d: nat): (c: char)
    requires d < 10
    ensures '0' <= c <= '9'
  {
    (('0' as int) + d) as char
  }

  /** The decimal spelling of an array index, which is the key JavaScript gives it. */
  function IndexKey(i: nat): (r: string)
    ensures |r| > 0 && forall c :: c in r ==> '0' <= c <= '9'
  {
    if i < 10 then [DigitChar(i)] else IndexKey(i / 10) + [DigitChar(i % 10)]
  }

  /**
   * The own enumerable entries of an object value, as `Object.entries` and the
   * spread `{...x}` list them: an array contributes its indices as keys.
   */
  function Entries(j: Json): (r: seq<Member>)
    ensures j.JObj? ==> r == j.members
    ensures j.JArr? ==> |r| == |j.items| && forall i :: 0 <= i < |r| ==> r[i] == Member(IndexKey(i), j.items[i])
    ensures !IsObject(j) ==> r == []
  {
    match j
    case JObj(ms) => ms
    case JArr(items) => seq(|items|, i requires 0 <= i < |items| => Member(IndexKey(i), items[i]))
    case _ => []
  }
}

=== FILE: proto_parser.dfy ===
/**
 * `parseProtoFile` of server/utils/protoParser.js: finding the `.proto` files
 * under a directory, the order they are loaded in, the import resolution hook,
 * and the catalogue of RPC methods built by walking the loaded schema.
 *
 * The file system, protobufjs' loader and its lookups are parameters: the
 * directory tree is a value, file existence a set of paths, loading a function
 * from the ordered list of paths to the loaded root, and the lookups the
 * `Registry` of the loaded root.
 */
module ProtoParser {
  import opened Wrappers
  import opened Text
  import opened Json
  import opened ProtoSchema
  import opened ExampleGenerator

  // ---------------------------------------------------------------------------
  // Paths

  /** `path.join(a, b)` for a name `b` without `.` or `..` segments. */
  function Join(a: string, b: string): string {
    if a == "" || a == "." then b
    else if a[|a| - 1] == '/' then a + b
    else a + "/" + b
  }

  /** The index of the last `/` of `s`, or -1. */
  function LastSlash(s: string): (r: int)
    ensures -1 <= r < |s|
    ensures r >= 0 ==> s[r] == '/'
    ensures forall j :: r < j < |s| ==> s[j] != '/'
  {
    if s == [] then -1
    else if s[|s| - 1] == '/' then |s| - 1
    else LastSlash(s[..|s| - 1])
  }

  /** `path.dirname(p)` for a path without a trailing `/`. */
  function Dirname(p: string): (r: string)
    ensures LastSlash(p) < 0 ==> r == "."
    ensures LastSlash(p) == 0 ==> r == "/"
    ensures LastSlash(p) > 0 ==> r + p[LastSlash(p)..] == p
  {
    var i := LastSlash(p);
    if i < 0 then "." else if i == 0 then "/"
    else assert p[..i] + p[i..] == p; p[..i]
  }

  // ---------------------------------------------------------------------------
  // Finding the .proto files

  /** A directory entry as `readdir` lists it, with a sub-directory's own entries. */
  datatype DirEntry = Dir(name: string, entries: seq<DirEntry>) | File(name: string)

  /** A found file: its full path and its path relative to the proto directory. */
  datatype ProtoFile = ProtoFile(path: string, relative: string)

  /** `path.join(base, ...names)`. */
  function JoinAll(base: string, names: seq<string>): string
    decreases |names|
  {
    if names == [] then base else JoinAll(Join(base, names[0]), names[1..])
  }

  /** Joining one more name onto a joined path. */
  lemma {:induction false} JoinAllSnoc(base: string, names: seq<string>, x: string)
    ensures JoinAll(base, names + [x]) == Join(JoinAll(base, names), x)
    decreases |names|
  {
    if names != [] {
      assert (names + [x])[1..] == names[1..] + [x];
      JoinAllSnoc(Join(base, names[0]), names[1..], x);
    }
  }

  /**
   * The `.proto` files at or below the entry `e`, in the order the recursive
   * walk finds them; `segs` are the names leading from the proto directory to
   * `e`, `e`'s own included. A file's full path joins them onto the directory,
   * its relative path joins them onto the empty path.
   */
  function Files(e: DirEntry, protoDir: string, segs: seq<string>): seq<ProtoFile>
    decreases e, if e.Dir? then |e.entries| + 1 else 0
  {
    match e
    case File(n) =>
      if EndsWith(n, ".proto") then [ProtoFile(JoinAll(protoDir, segs), JoinAll("", segs))] else []
    case Dir(_, es) => FilesIn(e, |es|, protoDir, segs)
  }

  /** The files found under the first `n` entries of the directory `d`. */
  function FilesIn(d: DirEntry, n: nat, protoDir: string, segs: seq<string>): seq<ProtoFile>
    requires d.Dir? && n <= |d.entries|
    decreases d, n
  {
    if n == 0 then []
    else
      var e := d.entries[n - 1];
      FilesIn(d, n - 1, protoDir, segs) + Files(e, protoDir, segs + [e.name])
  }

  lemma EndsWithJoin(a: string, b: string, suffix: string)
    requires EndsWith(b, suffix)
    ensures EndsWith(Join(a, b), suffix)
  {
    var r := Join(a, b);
    assert r[|r| - |b|..] == b;
    assert r[|r| - |suffix|..] == b[|b| - |suffix|..];
  }

  /** Every path of `fs` ends in `.proto`, full and relative. */
  predicate AllProto(fs: seq<ProtoFile>) {
    forall i :: 0 <= i < |fs| ==> EndsWith(fs[i].relative, ".proto") && EndsWith(fs[i].path, ".proto")
  }

  lemma AllProtoConcat(a: seq<ProtoFile>, b: seq<ProtoFile>)
    requires AllProto(a) && AllProto(b)
    ensures AllProto(a + b)
  {
    forall i | 0 <= i < |a + b|
      ensures EndsWith((a + b)[i].relative, ".proto") && EndsWith((a + b)[i].path, ".proto")
    {
      if i >= |a| { assert (a + b)[i] == b[i - |a|]; }
    }
  }

  lemma FileIsProto(e: DirEntry, protoDir: string, segs: seq<string>)
    requires e.File?
    ensures AllProto(Files(e, protoDir, segs + [e.name]))
  {
    if EndsWith(e.name, ".proto") {
      JoinAllSnoc(protoDir, segs, e.name);
      JoinAllSnoc("", segs, e.name);
      EndsWithJoin(JoinAll(protoDir, segs), e.name, ".proto");
      EndsWithJoin(JoinAll("", segs), e.name, ".proto");
    }
  }

  /** Every file found has a name ending in `.proto`, in its full and its relative path. */
  lemma {:induction false} FilesInAreProto(d: DirEntry, n: nat, protoDir: string, segs: seq<string>)
    requires d.Dir? && n <= |d.entries|
    ensures AllProto(FilesIn(d, n, protoDir, segs))
    decreases d, n
  {
    if n > 0 {
      var e := d.entries[n - 1];
      FilesInAreProto(d, n - 1, protoDir, segs);
      var here := Files(e, protoDir, segs + [e.name]);
      if e.Dir? {
        assert here == FilesIn(e, |e.entries|, protoDir, segs + [e.name]);
        FilesInAreProto(e, |e.entries|, protoDir, segs + [e.name]);
      } else {
        FileIsProto(e, protoDir, segs);
      }
      AllProtoConcat(FilesIn(d, n - 1, protoDir, segs), here);
    }
  }

  // ---------------------------------------------------------------------------
  // Load order: service definitions first

  /** The test the code applies to a file's relative path. */
  predicate IsServiceFile(f: ProtoFile) {
    Contains(f.relative, "service") && Contains(f.relative, "_service.proto")
  }

  function ServiceFiles(fs: seq<ProtoFile>): (r: seq<ProtoFile>)
    ensures forall f :: f in r ==> f in fs && IsServiceFile(f)
  {
    if fs == [] then []
    else (if IsServiceFile(fs[0]) then [fs[0]] else []) + ServiceFiles(fs[1..])
  }

  function OtherFiles(fs: seq<ProtoFile>): (r: seq<ProtoFile>)
    ensures forall f :: f in r ==> f in fs && !IsServiceFile(f)
  {
    if fs == [] then []
    else (if IsServiceFile(fs[0]) then [] else [fs[0]]) + OtherFiles(fs[1..])
  }

  /** The order the files are loaded in. */
  function LoadOrder(fs: seq<ProtoFile>): seq<ProtoFile> {
    ServiceFiles(fs) + OtherFiles(fs)
  }

  /** Loading neither drops nor repeats a file. */
  lemma {:induction false} LoadOrderPermutes(fs: seq<ProtoFile>)
    ensures multiset(LoadOrder(fs)) == multiset(fs)
  {
    if fs != [] {
      LoadOrderPermutes(fs[1..]);
      assert fs == [fs[0]] + fs[1..];
    }
  }

  /** Every service file is loaded before every other file. */
  lemma LoadOrderServiceFirst(fs: seq<ProtoFile>)
    ensures var r := LoadOrder(fs); var k := |ServiceFiles(fs)|;
      (forall i :: 0 <= i < k ==> IsServiceFile(r[i])) && (forall i :: k <= i < |r| ==> !IsServiceFile(r[i]))
  {
    var r := LoadOrder(fs);
    var k := |ServiceFiles(fs)|;
    forall i | 0 <= i < k ensures IsServiceFile(r[i]) { assert r[i] in ServiceFiles(fs); }
    forall i | k <= i < |r| ensures !IsServiceFile(r[i]) { assert r[i] in OtherFiles(fs); }
  }

  /**
   * Both groups keep the order the files were found in: each filter distributes
   * over concatenation.
   */
  lemma {:induction false} LoadOrderStable(a: seq<ProtoFile>, b: seq<ProtoFile>)
    ensures ServiceFiles(a + b) == ServiceFiles(a) + ServiceFiles(b)
    ensures OtherFiles(a + b) == OtherFiles(a) + OtherFiles(b)
  {
    ServiceFilesConcat(a, b);
    OtherFilesConcat(a, b);
  }

  lemma {:induction false} ServiceFilesConcat(a: seq<ProtoFile>, b: seq<ProtoFile>)
    ensures ServiceFiles(a + b) == ServiceFiles(a) + ServiceFiles(b)
  {
    if a != [] {
      assert (a + b)[0] == a[0];
      assert (a + b)[1..] == a[1..] + b;
      ServiceFilesConcat(a[1..], b);
    } else {
      assert a + b == b;
    }
  }

  lemma {:induction false} OtherFilesConcat(a: seq<ProtoFile>, b: seq<ProtoFile>)
    ensures OtherFiles(a + b) == OtherFiles(a) + OtherFiles(b)
  {
    if a != [] {
      assert (a + b)[0] == a[0];
      assert (a + b)[1..] == a[1..] + b;
      OtherFilesConcat(a[1..], b);
    } else {
      assert a + b == b;
    }
  }

  /** The first test is implied by the second: any `_service.proto` path contains `service`. */
  lemma ServiceSuffixSuffices(rel: string)
    requires Contains(rel, "_service.proto")
    ensures Contains(rel, "service")
  {
    var p := "_service.proto";
    ContainsMeans(rel, p);
    var i := IndexOf(rel, p);
    assert rel[i..i + 14] == p;
    assert rel[i + 1..i + 8] == rel[i..i + 14][1..8];
    assert p[1..8] == "service";
    assert At(rel, "service", i + 1);
    ContainsMeans(rel, "service");
  }

  // ---------------------------------------------------------------------------
  // Import resolution

  /** The five fixed sub-directories tried last, in order. */
  function CommonPaths(protoDir: string, target: string): seq<string> {
    [ JoinAll(protoDir, ["google", target]),
      JoinAll(protoDir, ["google", "api", target]),
      JoinAll(protoDir, ["google", "protobuf", target]),
      JoinAll(protoDir, ["validate", target]),
      JoinAll(protoDir, ["service", target]) ]
  }

  /** Every place an import is looked for, in the order tried. */
  function Candidates(protoDir: string, origin: string, target: string): seq<string> {
    (if origin != "" then [Join(Dirname(origin), target)] else [])
    + [Join(protoDir, target)] + CommonPaths(protoDir, target)
  }

  /** The first candidate that exists, or `fallback` when none does. */
  function FirstExisting(cs: seq<string>, existing: set<string>, fallback: string): (r: string)
    ensures r in existing ==> r == fallback || r in cs
  {
    if cs == [] then fallback
    else if cs[0] in existing then cs[0]
    else FirstExisting(cs[1..], existing, fallback)
  }

  /**
   * The result is the earliest existing candidate; when no candidate exists it
   * is the fallback.
   */
  lemma {:induction false} FirstExistingMeans(cs: seq<string>, existing: set<string>, fallback: string)
    ensures var r := FirstExisting(cs, existing, fallback);
      (exists i :: 0 <= i < |cs| && cs[i] in existing && r == cs[i] && forall j :: 0 <= j < i ==> cs[j] !in existing)
      || (r == fallback && forall c :: c in cs ==> c !in existing)
  {
    if cs != [] && cs[0] !in existing {
      FirstExistingMeans(cs[1..], existing, fallback);
      var r := FirstExisting(cs, existing, fallback);
      if exists i :: 0 <= i < |cs[1..]| && cs[1..][i] in existing && r == cs[1..][i]
                     && forall j :: 0 <= j < i ==> cs[1..][j] !in existing {
        var i :| 0 <= i < |cs[1..]| && cs[1..][i] in existing && r == cs[1..][i]
                 && forall j :: 0 <= j < i ==> cs[1..][j] !in existing;
        assert cs[i + 1] == cs[1..][i];
        forall j | 0 <= j < i + 1 ensures cs[j] !in existing {
          if j > 0 { assert cs[j] == cs[1..][j - 1]; }
        }
      } else {
        forall c | c in cs ensures c !in existing {
          if c != cs[0] { assert c in cs[1..]; }
        }
      }
    } else if cs != [] {
      assert cs[0] in existing;
    }
  }

  lemma {:induction false} FirstExistingSkip(a: seq<string>, b: seq<string>, existing: set<string>, fallback: string)
    requires forall c :: c in a ==> c !in existing
    ensures FirstExisting(a + b, existing, fallback) == FirstExisting(b, existing, fallback)
  {
    if a != [] {
      assert (a + b)[1..] == a[1..] + b;
      FirstExistingSkip(a[1..], b, existing, fallback);
    } else {
      assert a + b == b;
    }
  }

  /**
   * `root.resolvePath`: where protobufjs reads an import `target` met in the file
   * `origin` (empty for a top-level file) from; `existing` is the set of paths
   * that exist.
   */
  method ResolvePath(protoDir: string, origin: string, target: string, existing: set<string>) returns (r: string)
    ensures r == FirstExisting(Candidates(protoDir, origin, target), existing, target)
  {
    var before: seq<string> := [];
    if origin != "" {
      var relativePath := Join(Dirname(origin), target);
      if relativePath in existing {
        return relativePath;
      }
      before := [relativePath];
    }
    var protoPath := Join(protoDir, target);
    if protoPath in existing {
      assert Candidates(protoDir, origin, target) == before + ([protoPath] + CommonPaths(protoDir, target));
      FirstExistingSkip(before, [protoPath] + CommonPaths(protoDir, target), existing, target);
      return protoPath;
    }
    before := before + [protoPath];
    var common := CommonPaths(protoDir, target);
    assert Candidates(protoDir, origin, target) == before + common;
    FirstExistingSkip(before, common, existing, target);
    var i := 0;
    while i < |common|
      invariant 0 <= i <= |common|
      invariant FirstExisting(Candidates(protoDir, origin, target), existing, target)
                == FirstExisting(common[i..], existing, target)
    {
      if common[i] in existing {
        return common[i];
      }
      assert common[i..][1..] == common[i + 1..];
      i := i + 1;
    }
    return target;
  }

  // ---------------------------------------------------------------------------
  // The loaded schema and the method records

  /** An RPC method as protobufjs reflects it; its request and response types are names. */
  datatype RpcMethod = RpcMethod(name: string, requestType: string, responseType: string)

  /**
   * A child of a namespace: a service, or anything else that may nest further
   * (a package, a message, an enum with no children).
   */
  datatype Node = Service(name: string, methods: seq<RpcMethod>) | Namespace(name: string, nested: seq<Node>)

  /** One entry of the method catalogue. */
  datatype MethodInfo = MethodInfo(
    name: string, service: string, requestType: string, responseType: string,
    exampleRequest: Json, fullName: string)

  /** The package tried as a prefix when a request type name is not found as written. */
  const PackagePrefix := "store_product_service."

  /** What the request type resolves to: a node, the raw (empty) name, or null. */
  datatype RequestRef = Node(node: TypeNode) | Raw(text: string) | Null

  /**
   * The resolution chain for a method's request type name; an empty name is not
   * looked up. The second round of lookups through the service's parent can
   * never run (a resolved node always reaches it with an empty name to look up,
   * and an unresolved one is null), so it changes nothing.
   */
  function ResolveRequest(rt: string, reg: Registry): Result<RequestRef, string> {
    if rt == "" then Ok(Raw(rt))
    else
      match FirstFound(RequestLookups(rt, reg))
      case Err(e) => Err(e)
      case Ok(Unresolved) => Ok(Null)
      case Ok(Resolved(t)) => Ok(Node(t))
  }

  /** The four lookups of a request type name, in the order they are tried. */
  function RequestLookups(rt: string, reg: Registry): (chain: seq<Lookup>)
    ensures |chain| == 4
  {
    [reg.lookupType(rt), reg.lookup(rt), reg.lookupType(PackagePrefix + rt), reg.lookup(PackagePrefix + rt)]
  }

  /** The request type name recorded: the node's name, the raw string, or `Unknown`. */
  function RequestTypeName(ref: RequestRef): string {
    match ref
    case Node(t) => if t.name != "" then t.name else "Unknown"
    case Raw(s) => s
    case Null => "Unknown"
  }

  /** The record pushed from the `catch`: unknown types and an empty example. */
  function UnknownRecord(service: string, m: RpcMethod): MethodInfo {
    MethodInfo(m.name, service, "Unknown", "Unknown", JObj([]), service + "." + m.name)
  }

  /**
   * The record for one method of `service`. An exception while resolving the
   * request type or generating the example is caught and gives the unknown
   * record; `fuel` is the stack the generator has.
   */
  function MethodRecord(service: string, m: RpcMethod, reg: Registry, fuel: nat): (r: MethodInfo)
    ensures r.name == m.name && r.service == service && r.fullName == service + "." + m.name
  {
    match ResolveRequest(m.requestType, reg)
    case Err(_) => UnknownRecord(service, m)
    case Ok(ref) =>
      var example := if ref.Node? then Example(ref.node, reg, fuel) else Ok([]);
      match example
      case Err(_) => UnknownRecord(service, m)
      case Ok(ms) => MethodInfo(m.name, service, RequestTypeName(ref), m.responseType, JObj(ms), service + "." + m.name)
  }

  /** `!specificMethod || method.name === specificMethod`; the empty string stands for null. */
  predicate Selected(specific: string, m: RpcMethod) {
    specific == "" || m.name == specific
  }

  /** The records of the selected methods of one service, in declaration order. */
  function ServiceRecords(service: string, ms: seq<RpcMethod>, specific: string, reg: Registry, fuel: nat): seq<MethodInfo> {
    if ms == [] then []
    else
      var m := ms[|ms| - 1];
      ServiceRecords(service, ms[..|ms| - 1], specific, reg, fuel)
      + (if Selected(specific, m) then [MethodRecord(service, m, reg, fuel)] else [])
  }

  /** `findServices(n)`: the records of every service at or below `n`, depth first. */
  function Walk(n: Node, specific: string, reg: Registry, fuel: nat): seq<MethodInfo>
    decreases n, 1, 0
  {
    match n
    case Service(name, ms) => ServiceRecords(name, ms, specific, reg, fuel)
    case Namespace(_, nested) => WalkChildren(n, |nested|, specific, reg, fuel)
  }

  /** The walk of the first `k` children of a namespace, in key order. */
  function WalkChildren(n: Node, k: nat, specific: string, reg: Registry, fuel: nat): seq<MethodInfo>
    requires n.Namespace? && k <= |n.nested|
    decreases n, 0, k
  {
    if k == 0 then []
    else WalkChildren(n, k - 1, specific, reg, fuel) + Walk(n.nested[k - 1], specific, reg, fuel)
  }

  /** Every record belongs to a selected method and is named after its service. */
  lemma {:induction false} WalkRecords(n: Node, specific: string, reg: Registry, fuel: nat)
    ensures forall r :: r in Walk(n, specific, reg, fuel) ==>
      r.fullName == r.service + "." + r.name && (specific == "" || r.name == specific)
    decreases n, 1, 0
  {
    match n
    case Service(name, ms) => ServiceRecordsSelected(name, ms, specific, reg, fuel);
    case Namespace(_, nested) => WalkChildrenRecords(n, |nested|, specific, reg, fuel);
  }

  lemma {:induction false} WalkChildrenRecords(n: Node, k: nat, specific: string, reg: Registry, fuel: nat)
    requires n.Namespace? && k <= |n.nested|
    ensures forall r :: r in WalkChildren(n, k, specific, reg, fuel) ==>
      r.fullName == r.service + "." + r.name && (specific == "" || r.name == specific)
    decreases n, 0, k
  {
    if k > 0 {
      WalkChildrenRecords(n, k - 1, specific, reg, fuel);
      WalkRecords(n.nested[k - 1], specific, reg, fuel);
    }
  }

  /**
   * A service yields exactly one record per selected method, in declaration
   * order: every selected method's record is there, and every record is that
   * of a selected method.
   */
  lemma {:induction false} ServiceRecordsSelected(service: string, ms: seq<RpcMethod>, specific: string, reg: Registry, fuel: nat)
    ensures var rs := ServiceRecords(service, ms, specific, reg, fuel);
      (forall r :: r in rs ==> r.service == service && r.fullName == service + "." + r.name
                               && (specific == "" || r.name == specific))
      && (forall r :: r in rs ==> exists i :: 0 <= i < |ms| && Selected(specific, ms[i]) && r == MethodRecord(service, ms[i], reg, fuel))
      && (forall i :: 0 <= i < |ms| && Selected(specific, ms[i]) ==> MethodRecord(service, ms[i], reg, fuel) in rs)
      && (specific == "" ==> |rs| == |ms| && forall i :: 0 <= i < |ms| ==> rs[i] == MethodRecord(service, ms[i], reg, fuel))
  {
    var rs := ServiceRecords(service, ms, specific, reg, fuel);
    ServiceRecordsFrom(service, ms, specific, reg, fuel);
    ServiceRecordsCover(service, ms, specific, reg, fuel);
    forall r | r in rs
      ensures r.service == service && r.fullName == service + "." + r.name && (specific == "" || r.name == specific)
    {
      var i :| 0 <= i < |ms| && Selected(specific, ms[i]) && r == MethodRecord(service, ms[i], reg, fuel);
    }
    if specific == "" {
      ServiceRecordsAll(service, ms, reg, fuel);
    }
  }

  /** Every record of a service is that of one of its selected methods. */
  lemma {:induction false} ServiceRecordsFrom(service: string, ms: seq<RpcMethod>, specific: string, reg: Registry, fuel: nat)
    ensures forall r :: r in ServiceRecords(service, ms, specific, reg, fuel) ==>
      exists i :: 0 <= i < |ms| && Selected(specific, ms[i]) && r == MethodRecord(service, ms[i], reg, fuel)
  {
    if ms != [] {
      var p := ms[..|ms| - 1];
      var m := ms[|ms| - 1];
      ServiceRecordsFrom(service, p, specific, reg, fuel);
      var prs := ServiceRecords(service, p, specific, reg, fuel);
      forall r | r in ServiceRecords(service, ms, specific, reg, fuel)
        ensures exists i :: 0 <= i < |ms| && Selected(specific, ms[i]) && r == MethodRecord(service, ms[i], reg, fuel)
      {
        if r in prs {
          var i :| 0 <= i < |p| && Selected(specific, p[i]) && r == MethodRecord(service, p[i], reg, fuel);
          assert ms[i] == p[i];
        } else {
          assert r == MethodRecord(service, ms[|ms| - 1], reg, fuel);
        }
      }
    }
  }

  /** Every selected method of a service has its record among the service's records. */
  lemma {:induction false} ServiceRecordsCover(service: string, ms: seq<RpcMethod>, specific: string, reg: Registry, fuel: nat)
    ensures forall i :: 0 <= i < |ms| && Selected(specific, ms[i]) ==>
      MethodRecord(service, ms[i], reg, fuel) in ServiceRecords(service, ms, specific, reg, fuel)
  {
    if ms != [] {
      var p := ms[..|ms| - 1];
      ServiceRecordsCover(service, p, specific, reg, fuel);
      var prs := ServiceRecords(service, p, specific, reg, fuel);
      var rs := ServiceRecords(service, ms, specific, reg, fuel);
      assert rs == prs + (if Selected(specific, ms[|ms| - 1]) then [MethodRecord(service, ms[|ms| - 1], reg, fuel)] else []);
      forall i | 0 <= i < |ms| && Selected(specific, ms[i])
        ensures MethodRecord(service, ms[i], reg, fuel) in rs
      {
        if i < |p| {
          assert ms[i] == p[i];
          assert MethodRecord(service, p[i], reg, fuel) in prs;
        }
      }
    }
  }

  /** With no specific method, a service has exactly one record per method, in declaration order. */
  lemma {:induction false} ServiceRecordsAll(service: string, ms: seq<RpcMethod>, reg: Registry, fuel: nat)
    ensures var rs := ServiceRecords(service, ms, "", reg, fuel);
      |rs| == |ms| && forall i :: 0 <= i < |ms| ==> rs[i] == MethodRecord(service, ms[i], reg, fuel)
  {
    if ms != [] {
      var p := ms[..|ms| - 1];
      ServiceRecordsAll(service, p, reg, fuel);
      var rs := ServiceRecords(service, ms, "", reg, fuel);
      forall i | 0 <= i < |ms| ensures rs[i] == MethodRecord(service, ms[i], reg, fuel) {
        if i < |ms| - 1 { assert ms[i] == p[i]; }
      }
    }
  }

  /** `s` is `n` or lies somewhere below it. */
  predicate Within(s: Node, n: Node)
    decreases n
  {
    s == n || (n.Namespace? && exists i :: 0 <= i < |n.nested| && Within(s, n.nested[i]))
  }

  /** The walk reaches services at any depth: every record of a service below `n` is in the walk of `n`. */
  lemma {:induction false} WalkReachesAnyDepth(s: Node, n: Node, specific: string, reg: Registry, fuel: nat)
    requires s.Service? && Within(s, n)
    ensures forall r :: r in ServiceRecords(s.name, s.methods, specific, reg, fuel) ==> r in Walk(n, specific, reg, fuel)
    decreases n
  {
    if s != n {
      var i :| 0 <= i < |n.nested| && Within(s, n.nested[i]);
      WalkReachesAnyDepth(s, n.nested[i], specific, reg, fuel);
      WalkChildrenContains(n, |n.nested|, i, specific, reg, fuel);
    }
  }

  /** `r` is the record of a selected method of the service `s`. */
  predicate RecordOf(r: MethodInfo, s: Node, specific: string, reg: Registry, fuel: nat) {
    s.Service? && exists i :: 0 <= i < |s.methods| && Selected(specific, s.methods[i])
                              && r == MethodRecord(s.name, s.methods[i], reg, fuel)
  }

  /** Every record of the walk of `n` is that of a selected method of a service at or below `n`. */
  lemma {:induction false} WalkOrigins(n: Node, specific: string, reg: Registry, fuel: nat)
    ensures forall r :: r in Walk(n, specific, reg, fuel) ==> exists s :: Within(s, n) && RecordOf(r, s, specific, reg, fuel)
    decreases n, 1, 0
  {
    match n
    case Service(name, ms) =>
      ServiceRecordsSelected(name, ms, specific, reg, fuel);
      forall r | r in Walk(n, specific, reg, fuel)
        ensures exists s :: Within(s, n) && RecordOf(r, s, specific, reg, fuel)
      {
        assert Within(n, n) && RecordOf(r, n, specific, reg, fuel);
      }
    case Namespace(_, nested) => WalkChildrenOrigins(n, |nested|, specific, reg, fuel);
  }

  lemma {:induction false} WalkChildrenOrigins(n: Node, k: nat, specific: string, reg: Registry, fuel: nat)
    requires n.Namespace? && k <= |n.nested|
    ensures forall r :: r in WalkChildren(n, k, specific, reg, fuel) ==> exists s :: Within(s, n) && RecordOf(r, s, specific, reg, fuel)
    decreases n, 0, k
  {
    if k > 0 {
      var c := n.nested[k - 1];
      WalkChildrenOrigins(n, k - 1, specific, reg, fuel);
      WalkOrigins(c, specific, reg, fuel);
      forall r | r in Walk(c, specific, reg, fuel)
        ensures exists s :: Within(s, n) && RecordOf(r, s, specific, reg, fuel)
      {
        var s :| Within(s, c) && RecordOf(r, s, specific, reg, fuel);
        assert Within(s, n);
      }
    }
  }

  /** Some service at or below `n` declares a method named `name`. */
  ghost predicate HasMethodNamed(n: Node, name: string) {
    exists s :: Within(s, n) && s.Service? && exists i :: 0 <= i < |s.methods| && s.methods[i].name == name
  }

  /**
   * For a specific name, the walk finds something exactly when a service at or
   * below `n` declares a method with that name.
   */
  lemma WalkFindsNamed(n: Node, specific: string, reg: Registry, fuel: nat)
    requires specific != ""
    ensures Walk(n, specific, reg, fuel) != [] <==> HasMethodNamed(n, specific)
  {
    var w := Walk(n, specific, reg, fuel);
    if w != [] {
      WalkOrigins(n, specific, reg, fuel);
      assert w[0] in w;
      var s :| Within(s, n) && RecordOf(w[0], s, specific, reg, fuel);
      var i :| 0 <= i < |s.methods| && Selected(specific, s.methods[i]) && w[0] == MethodRecord(s.name, s.methods[i], reg, fuel);
      assert s.methods[i].name == specific;
    }
    if HasMethodNamed(n, specific) {
      var s :| Within(s, n) && s.Service? && exists i :: 0 <= i < |s.methods| && s.methods[i].name == specific;
      var i :| 0 <= i < |s.methods| && s.methods[i].name == specific;
      ServiceRecordsSelected(s.name, s.methods, specific, reg, fuel);
      WalkReachesAnyDepth(s, n, specific, reg, fuel);
      assert MethodRecord(s.name, s.methods[i], reg, fuel) in w;
    }
  }

  lemma {:induction false} WalkChildrenContains(n: Node, k: nat, i: nat, specific: string, reg: Registry, fuel: nat)
    requires n.Namespace? && i < k <= |n.nested|
    ensures forall r :: r in Walk(n.nested[i], specific, reg, fuel) ==> r in WalkChildren(n, k, specific, reg, fuel)
    decreases k
  {
    if i < k - 1 {
      WalkChildrenContains(n, k - 1, i, specific, reg, fuel);
    }
  }

  // ---------------------------------------------------------------------------
  // What the method records say

  /**
   * The request type policy. The four lookups are tried in order and the first
   * node found is used; if none is found the type is `Unknown` and the example
   * empty; an exception from a lookup (protobufjs' `lookupType` throws for a
   * name it does not know) or from the generator gives the unknown record; an
   * empty type name is recorded as written. The response type is always the
   * name as written, except in the unknown record.
   */
  lemma RequestTypePolicy(service: string, m: RpcMethod, reg: Registry, fuel: nat)
    ensures var rt := m.requestType; var r := MethodRecord(service, m, reg, fuel);
      && (rt == "" ==> r == MethodInfo(m.name, service, "", m.responseType, JObj([]), service + "." + m.name))
      && (rt != "" && reg.lookupType(rt).Throws? ==> r == UnknownRecord(service, m))
      && (rt != "" && reg.lookupType(rt).Found? && Example(reg.lookupType(rt).node, reg, fuel).Err? ==>
            r == UnknownRecord(service, m))
      && (rt != "" && reg.lookupType(rt).Found? && Example(reg.lookupType(rt).node, reg, fuel).Ok? ==>
            var t := reg.lookupType(rt).node;
            r == MethodInfo(m.name, service, if t.name != "" then t.name else "Unknown", m.responseType,
                            JObj(Example(t, reg, fuel).value), service + "." + m.name))
      && (rt != "" && reg.lookupType(rt) == Missing && reg.lookup(rt) == Missing
          && reg.lookupType(PackagePrefix + rt) == Missing && reg.lookup(PackagePrefix + rt) == Missing ==>
            r == MethodInfo(m.name, service, "Unknown", m.responseType, JObj([]), service + "." + m.name))
    ensures var rt := m.requestType; var r := MethodRecord(service, m, reg, fuel); var chain := RequestLookups(rt, reg);
      rt != "" ==>
        forall i :: 0 <= i < 4 && !chain[i].Missing? && (forall j :: 0 <= j < i ==> chain[j].Missing?) ==>
          && (chain[i].Throws? ==> r == UnknownRecord(service, m))
          && (chain[i].Found? && Example(chain[i].node, reg, fuel).Err? ==> r == UnknownRecord(service, m))
          && (chain[i].Found? && Example(chain[i].node, reg, fuel).Ok? ==>
                var t := chain[i].node;
                r == MethodInfo(m.name, service, if t.name != "" then t.name else "Unknown", m.responseType,
                                JObj(Example(t, reg, fuel).value), service + "." + m.name))
  {
    var rt := m.requestType;
    var a, b, c, d := reg.lookupType(rt), reg.lookup(rt), reg.lookupType(PackagePrefix + rt), reg.lookup(PackagePrefix + rt);
    assert RequestLookups(rt, reg) == [a, b, c, d];
    assert [a, b, c, d] == [a] + [b, c, d];
    assert [b, c, d] == [b] + [c, d];
    assert [c, d] == [c] + [d];
    assert [d] == [d] + [];
    FirstFoundCons(a, [b, c, d]);
    FirstFoundCons(b, [c, d]);
    FirstFoundCons(c, [d]);
    FirstFoundCons(d, []);
  }

  /**
   * The generator has no cycle guard, and its stack overflow is caught: a
   * request type with a field whose dotted type name looks the request type up
   * again is catalogued as the unknown record, however deep the stack.
   */
  lemma SelfReferentialRequestIsUnknown(service: string, m: RpcMethod, reg: Registry, fuel: nat, t: TypeNode, i: nat)
    requires m.requestType != "" && reg.lookupType(m.requestType) == Found(t)
    requires i < |t.fields| && t.fields[i].name != "" && NeedsLookup(t.fields[i])
    requires reg.lookupType(t.fields[i].typeName) == Found(t)
    ensures MethodRecord(service, m, reg, fuel) == UnknownRecord(service, m)
  {
    SelfReferenceNeverCompletes(t, i, reg, fuel);
    RequestTypePolicy(service, m, reg, fuel);
  }

  // ---------------------------------------------------------------------------
  // The catalogue

  /** `methods.find(m => m.name === name)`. */
  function FindFirst(ms: seq<MethodInfo>, name: string): (r: Option<MethodInfo>)
    ensures r.None? <==> forall i :: 0 <= i < |ms| ==> ms[i].name != name
    ensures r.Some? ==> exists i :: 0 <= i < |ms| && ms[i] == r.value && r.value.name == name
                                   && forall j :: 0 <= j < i ==> ms[j].name != name
  {
    if ms == [] then None
    else if ms[0].name == name then Some(ms[0])
    else
      var r := FindFirst(ms[1..], name);
      assert forall i :: 1 <= i < |ms| ==> ms[i] == ms[1..][i - 1];
      if r.Some? then
        var i :| 0 <= i < |ms[1..]| && ms[1..][i] == r.value && r.value.name == name
                 && forall j :: 0 <= j < i ==> ms[1..][j] != r.value && ms[1..][j].name != name;
        assert ms[i + 1] == r.value;
        r
      else r
  }

  lemma {:induction false} FindFirstAppend(a: seq<MethodInfo>, b: seq<MethodInfo>, name: string)
    ensures FindFirst(a + b, name) == if FindFirst(a, name).Some? then FindFirst(a, name) else FindFirst(b, name)
  {
    if a != [] {
      assert (a + b)[1..] == a[1..] + b;
      FindFirstAppend(a[1..], b, name);
    } else {
      assert a + b == b;
    }
  }

  /** The loaded root: its top-level children and its lookups. */
  datatype LoadedRoot = LoadedRoot(nested: seq<Node>, registry: Registry)

  datatype ParseResult = Methods(list: seq<MethodInfo>) | Single(found: Option<MethodInfo>)

  /** The files `parseProtoFile` finds under a directory with the given entries. */
  function FoundFiles(protoDir: string, entries: seq<DirEntry>): seq<ProtoFile> {
    FilesIn(Dir(protoDir, entries), |entries|, protoDir, [])
  }

  function Paths(fs: seq<ProtoFile>): (r: seq<string>)
    ensures |r| == |fs| && forall i :: 0 <= i < |fs| ==> r[i] == fs[i].path
  {
    seq(|fs|, i requires 0 <= i < |fs| => fs[i].path)
  }

  /**
   * What `parseProtoFile(protoDir, specificMethod)` resolves to: `load` maps the
   * paths, in load order, to the loaded root, and `fuel` is the stack the example
   * generator has. The top-level children are walked twice.
   */
  function Parse(protoDir: string, entries: seq<DirEntry>, specific: string,
                 load: seq<string> -> LoadedRoot, fuel: nat): ParseResult
  {
    var files := FoundFiles(protoDir, entries);
    if files == [] then Methods([])
    else
      var root := load(Paths(LoadOrder(files)));
      var once := Walk(Namespace("", root.nested), specific, root.registry, fuel);
      if specific == "" then Methods(once + once)
      else Single(FindFirst(once + once, specific))
  }

  /** With no `.proto` file the result is the empty list, even when one method is asked for. */
  lemma NoFilesNoMethods(protoDir: string, entries: seq<DirEntry>, specific: string,
                         load: seq<string> -> LoadedRoot, fuel: nat)
    requires FoundFiles(protoDir, entries) == []
    ensures Parse(protoDir, entries, specific, load, fuel) == Methods([])
  {
  }

  /**
   * The full list holds the walk twice over: its second half repeats its first,
   * so every method appears an even number of times.
   */
  lemma ListedTwice(protoDir: string, entries: seq<DirEntry>, load: seq<string> -> LoadedRoot, fuel: nat)
    requires FoundFiles(protoDir, entries) != []
    ensures var r := Parse(protoDir, entries, "", load, fuel);
      r.Methods? && |r.list| % 2 == 0 && r.list[..|r.list| / 2] == r.list[|r.list| / 2..]
      && forall x :: multiset(r.list)[x] % 2 == 0
  {
    var root := load(Paths(LoadOrder(FoundFiles(protoDir, entries))));
    var once := Walk(Namespace("", root.nested), "", root.registry, fuel);
    assert Parse(protoDir, entries, "", load, fuel) == Methods(once + once);
    Doubled(once);
  }

  lemma Doubled(once: seq<MethodInfo>)
    ensures var l := once + once;
      |l| % 2 == 0 && l[..|l| / 2] == l[|l| / 2..] && forall x :: multiset(l)[x] % 2 == 0
  {
    var l := once + once;
    assert l[..|l| / 2] == once;
    assert l[|l| / 2..] == once;
    assert multiset(l) == multiset(once) + multiset(once);
  }

  /**
   * A specific method gives the first record named after it in the walk, or
   * null exactly when no service of the loaded root declares a method with
   * that name: the second walk never changes which record is found.
   */
  lemma SpecificIsFirstMatch(protoDir: string, entries: seq<DirEntry>, specific: string,
                             load: seq<string> -> LoadedRoot, fuel: nat)
    requires FoundFiles(protoDir, entries) != [] && specific != ""
    ensures var root := load(Paths(LoadOrder(FoundFiles(protoDir, entries))));
      var once := Walk(Namespace("", root.nested), specific, root.registry, fuel);
      Parse(protoDir, entries, specific, load, fuel) == Single(if once == [] then None else Some(once[0]))
    ensures var root := load(Paths(LoadOrder(FoundFiles(protoDir, entries))));
      var r := Parse(protoDir, entries, specific, load, fuel);
      && (r.found.None? <==> !HasMethodNamed(Namespace("", root.nested), specific))
      && (r.found.Some? ==> r.found.value.name == specific)
  {
    var root := load(Paths(LoadOrder(FoundFiles(protoDir, entries))));
    var once := Walk(Namespace("", root.nested), specific, root.registry, fuel);
    FindFirstAppend(once, once, specific);
    WalkRecords(Namespace("", root.nested), specific, root.registry, fuel);
    WalkFindsNamed(Namespace("", root.nested), specific, root.registry, fuel);
    if once != [] {
      assert once[0] in once;
    }
  }

  /** The state `parseProtoFile`'s nested functions push into. */
  class ProtoScan {
    const specificMethod: string
    var methods: seq<MethodInfo>
    var protoFiles: seq<ProtoFile>

    constructor (specificMethod: string)
      ensures this.specificMethod == specificMethod && methods == [] && protoFiles == []
    {
      this.specificMethod := specificMethod;
      methods := [];
      protoFiles := [];
    }

    /**
     * `findProtoFiles(full, rel)` on the directory `d`, which lies at the end
     * of the names `segs` below `protoDir`.
     */
    method FindProtoFiles(d: DirEntry, full: string, rel: string, ghost protoDir: string, ghost segs: seq<string>)
      requires d.Dir? && full == JoinAll(protoDir, segs) && rel == JoinAll("", segs)
      modifies this
      ensures protoFiles == old(protoFiles) + FilesIn(d, |d.entries|, protoDir, segs)
      ensures methods == old(methods)
      decreases d, 1
    {
      var i := 0;
      while i < |d.entries|
        invariant 0 <= i <= |d.entries|
        invariant protoFiles == old(protoFiles) + FilesIn(d, i, protoDir, segs)
        invariant methods == old(methods)
      {
        ghost var found := FilesIn(d, i, protoDir, segs);
        VisitEntry(d, i, full, rel, protoDir, segs);
        assert protoFiles == old(protoFiles) + (found + Files(d.entries[i], protoDir, segs + [d.entries[i].name]));
        i := i + 1;
      }
    }

    /** One turn of the loop over the entries: descend into a directory, or keep a `.proto` file. */
    method VisitEntry(d: DirEntry, i: nat, full: string, rel: string, ghost protoDir: string, ghost segs: seq<string>)
      requires d.Dir? && i < |d.entries| && full == JoinAll(protoDir, segs) && rel == JoinAll("", segs)
      modifies this
      ensures protoFiles == old(protoFiles) + Files(d.entries[i], protoDir, segs + [d.entries[i].name])
      ensures methods == old(methods)
      decreases d, 0
    {
      var e := d.entries[i];
      var fullPath, relPath := Join(full, e.name), Join(rel, e.name);
      JoinAllSnoc(protoDir, segs, e.name);
      JoinAllSnoc("", segs, e.name);
      match e {
        case Dir(_, es) =>
          FindProtoFiles(e, fullPath, relPath, protoDir, segs + [e.name]);
        case File(n) =>
          if EndsWith(n, ".proto") {
            protoFiles := protoFiles + [ProtoFile(fullPath, relPath)];
          }
      }
    }

    /** `findServices(n)`, with the root's lookups and the generator's stack. */
    method FindServices(n: Node, reg: Registry, fuel: nat)
      modifies this
      ensures methods == old(methods) + Walk(n, specificMethod, reg, fuel)
      ensures protoFiles == old(protoFiles)
      decreases n
    {
      match n {
        case Service(name, ms) =>
          var i := 0;
          while i < |ms|
            invariant 0 <= i <= |ms|
            invariant methods == old(methods) + ServiceRecords(name, ms[..i], specificMethod, reg, fuel)
            invariant protoFiles == old(protoFiles)
          {
            assert ms[..i + 1][..i] == ms[..i];
            if specificMethod == "" || ms[i].name == specificMethod {
              methods := methods + [MethodRecord(name, ms[i], reg, fuel)];
            }
            i := i + 1;
          }
          assert ms[..|ms|] == ms;
        case Namespace(_, nested) =>
          var i := 0;
          while i < |nested|
            invariant 0 <= i <= |nested|
            invariant methods == old(methods) + WalkChildren(n, i, specificMethod, reg, fuel)
            invariant protoFiles == old(protoFiles)
          {
            FindServices(nested[i], reg, fuel);
            i := i + 1;
          }
      }
    }
  }

  /** `parseProtoFile(protoDir, specificMethod)`; the empty string stands for no specific method. */
  method ParseProtoFile(protoDir: string, entries: seq<DirEntry>, specificMethod: string,
                        load: seq<string> -> LoadedRoot, fuel: nat) returns (r: ParseResult)
    ensures r == Parse(protoDir, entries, specificMethod, load, fuel)
  {
    var scan := new ProtoScan(specificMethod);
    scan.FindProtoFiles(Dir(protoDir, entries), protoDir, "", protoDir, []);
    if |scan.protoFiles| == 0 {
      return Methods(scan.methods);
    }
    var sortedFiles := LoadOrder(scan.protoFiles);
    var root := load(Paths(sortedFiles));
    var top := Namespace("", root.nested);
    var i := 0;
    while i < |root.nested|
      invariant 0 <= i <= |root.nested|
      invariant scan.methods == WalkChildren(top, i, specificMethod, root.registry, fuel)
      invariant scan.protoFiles == FoundFiles(protoDir, entries)
    {
      scan.FindServices(root.nested[i], root.registry, fuel);
      i := i + 1;
    }
    var once := scan.methods;
    i := 0;
    while i < |root.nested|
      invariant 0 <= i <= |root.nested|
      invariant scan.methods == once + WalkChildren(top, i, specificMethod, root.registry, fuel)
      invariant scan.protoFiles == FoundFiles(protoDir, entries)
    {
      scan.FindServices(root.nested[i], root.registry, fuel);
      i := i + 1;
    }
    assert once == Walk(top, specificMethod, root.registry, fuel);
    assert scan.methods == once + once;
    if specificMethod != "" {
      return Single(FindFirst(scan.methods, specificMethod));
    }
    return Methods(scan.methods);
  }
}

=== FILE: proto_schema.dfy ===
/**
 * The reflected schema that protobufjs builds from the loaded `.proto` files,
 * reduced to what server/utils/protoParser.js reads from it.
 */
module ProtoSchema {
  import opened Wrappers

  /**
   * A reflected type: a message with its fields in declaration order. An enum,
   * a service or a namespace reached through a lookup has no fields, and the
   * code treats it exactly like a message without fields.
   */
  datatype TypeNode = TypeNode(name: string, fields: seq<Field>)

  /**
   * A field descriptor. `typeName` is the type as written in the file
   * (`string`, `int64`, `google.protobuf.StringValue`, `pkg.Msg`, ...);
   * `resolvedType` is the type object protobufjs has linked to the field, if
   * any. Being a value of an inductive type, it cannot be cyclic: a cycle can
   * only arise through the name lookup.
   */
  datatype Field = Field(name: string, typeName: string, repeated: bool, resolvedType: Option<TypeNode>)

  /** What one call of a protobufjs lookup does: return a node, return null, or throw. */
  datatype Lookup = Found(node: TypeNode) | Missing | Throws(message: string)

  /**
   * The two lookups of the loaded root: `root.lookupType(name)` and
   * `root.lookup(name)`. They are library code, so the model takes them as given
   * total functions.
   */
  datatype Registry = Registry(lookupType: string -> Lookup, lookup: string -> Lookup)

  /** The outcome of resolving a name written as `a(x) || b(x) || ...`. */
  datatype TypeRef = Resolved(node: TypeNode) | Unresolved

  /**
   * Evaluates the alternatives of a JavaScript `||` chain of lookups from left
   * to right: the first node found wins, the first exception escapes, and a chain
   * of misses gives null.
   */
  function FirstFound(chain: seq<Lookup>): Result<TypeRef, string> {
    if chain == [] then Ok(Unresolved)
    else match chain[0]
      case Found(t) => Ok(Resolved(t))
      case Throws(e) => Err(e)
      case Missing => FirstFound(chain[1..])
  }

  /** One step of the chain. */
  lemma FirstFoundCons(a: Lookup, rest: seq<Lookup>)
    ensures FirstFound([a] + rest) ==
      match a
      case Found(t) => Ok(Resolved(t))
      case Throws(e) => Err(e)
      case Missing => FirstFound(rest)
  {
    assert ([a] + rest)[1..] == rest;
  }

  /**
   * The chain gives null exactly when every lookup misses; otherwise the node or
   * the exception it gives is the one of the first lookup that does not miss.
   */
  lemma {:induction false} FirstFoundMeans(chain: seq<Lookup>)
    ensures FirstFound(chain) == Ok(Unresolved) <==> forall i :: 0 <= i < |chain| ==> chain[i] == Missing
    ensures FirstFound(chain).Ok? && FirstFound(chain).value.Resolved? ==>
      exists i :: 0 <= i < |chain| && chain[i] == Found(FirstFound(chain).value.node)
                  && forall j :: 0 <= j < i ==> chain[j] == Missing
    ensures FirstFound(chain).Err? ==>
      exists i :: 0 <= i < |chain| && chain[i] == Throws(FirstFound(chain).error)
                  && forall j :: 0 <= j < i ==> chain[j] == Missing
  {
    if chain != [] && chain[0] == Missing {
      FirstFoundMeans(chain[1..]);
      assert forall i :: 1 <= i < |chain| ==> chain[i] == chain[1..][i - 1];
      var r := FirstFound(chain);
      if r.Ok? && r.value.Resolved? {
        var k :| 0 <= k < |chain[1..]| && chain[1..][k] == Found(r.value.node)
                 && forall j :: 0 <= j < k ==> chain[1..][j] == Missing;
        assert chain[k + 1] == Found(r.value.node);
      }
      if r.Err? {
        var k :| 0 <= k < |chain[1..]| && chain[1..][k] == Throws(r.error)
                 && forall j :: 0 <= j < k ==> chain[1..][j] == Missing;
        assert chain[k + 1] == Throws(r.error);
      }
    }
  }
}

=== FILE: text.dfy ===
/**
 * The JavaScript string operations the modelled code relies on: `trim`,
 * `startsWith`, `endsWith`, `includes` and `indexOf`, and the characters the
 * regular-expression classes `\s` and `.` treat specially.
 */
module Text {

  /** The characters `String.prototype.trim` removes and `\s` matches. */
  predicate IsSpace(c: char) {
    || c == '\t' || c == '\n' || c == '\U{000B}' || c == '\U{000C}' || c == '\r' || c == ' '
    || c == '\U{00A0}' || c == '\U{1680}' || ('\U{2000}' <= c <= '\U{200A}')
    || c == '\U{2028}' || c == '\U{2029}' || c == '\U{202F}' || c == '\U{205F}'
    || c == '\U{3000}' || c == '\U{FEFF}'
  }

  /** The characters a regular-expression `.` does not match. */
  predicate IsLineTerminator(c: char) {
    c == '\n' || c == '\r' || c == '\U{2028}' || c == '\U{2029}'
  }

  predicate AllSpace(s: string) {
    forall i :: 0 <= i < |s| ==> IsSpace(s[i])
  }

  predicate SingleLine(s: string) {
    forall i :: 0 <= i < |s| ==> !IsLineTerminator(s[i])
  }

  function TrimStart(s: string): (r: string)
    ensures |r| <= |s| && r == s[|s| - |r|..]
    ensures AllSpace(s[..|s| - |r|])
    ensures r == [] || !IsSpace(r[0])
  {
    if s != [] && IsSpace(s[0]) then TrimStart(s[1..]) else s
  }

  function TrimEnd(s: string): (r: string)
    ensures |r| <= |s| && r == s[..|r|]
    ensures AllSpace(s[|r|..])
    ensures r == [] || !IsSpace(r[|r| - 1])
  {
    if s != [] && IsSpace(s[|s| - 1]) then TrimEnd(s[..|s| - 1]) else s
  }

  /** `s.trim()`: the longest infix of `s` that neither starts nor ends with a space. */
  function Trim(s: string): (r: string)
    ensures |r| <= |s|
    ensures r == [] || (!IsSpace(r[0]) && !IsSpace(r[|r| - 1]))
    ensures r == [] <==> AllSpace(s)
  {
    var t := TrimStart(s);
    assert s[..|s|] == s;
    assert t[|t|..] == [];
    TrimEnd(t)
  }

  /** `r` is the infix of `s` at `a`, with only white space before and after it. */
  predicate TrimmedAt(s: string, r: string, a: int) {
    0 <= a <= |s| - |r| && r == s[a..a + |r|] && AllSpace(s[..a]) && AllSpace(s[a + |r|..])
  }

  /**
   * `s.trim()` is `s` less exactly its leading and trailing white space: an
   * infix of `s` with only white space before and after it.
   */
  lemma TrimIsInfix(s: string)
    ensures exists a :: TrimmedAt(s, Trim(s), a)
  {
    var t := TrimStart(s);
    var r := TrimEnd(t);
    var a := |s| - |t|;
    assert Trim(s) == r;
    assert s[a..a + |r|] == s[a..][..|r|];
    assert s[a + |r|..] == t[|r|..];
    assert TrimmedAt(s, r, a);
  }

  predicate StartsWith(s: string, prefix: string) {
    |prefix| <= |s| && s[..|prefix|] == prefix
  }

  predicate EndsWith(s: string, suffix: string) {
    |suffix| <= |s| && s[|s| - |suffix|..] == suffix
  }

  /** `p` occurs in `s` at index `i`. */
  predicate At(s: string, p: string, i: int) {
    0 <= i && i + |p| <= |s| && s[i..i + |p|] == p
  }

  /** `s.indexOf(p, from)`: the first occurrence at or after `from`, or -1. */
  function IndexOfFrom(s: string, p: string, from: nat): (r: int)
    decreases |s| + 1 - from
    ensures r == -1 || (from <= r && At(s, p, r))
    ensures forall j :: from <= j && (r == -1 || j < r) ==> !At(s, p, j)
  {
    if from + |p| > |s| then -1
    else if s[from..from + |p|] == p then from
    else IndexOfFrom(s, p, from + 1)
  }

  function IndexOf(s: string, p: string): (r: int)
    ensures r == -1 || At(s, p, r)
    ensures forall j :: 0 <= j && (r == -1 || j < r) ==> !At(s, p, j)
  {
    IndexOfFrom(s, p, 0)
  }

  /** `s.includes(p)`. */
  predicate Contains(s: string, p: string) {
    ContainsFrom(s, p, 0)
  }

  /** `p` occurs in `s` at index `from` or later. */
  predicate ContainsFrom(s: string, p: string, from: nat)
    decreases |s| + 1 - from
  {
    from + |p| <= |s| && (s[from..from + |p|] == p || ContainsFrom(s, p, from + 1))
  }

  lemma ContainsFromMeans(s: string, p: string, from: nat)
    ensures ContainsFrom(s, p, from) <==> IndexOfFrom(s, p, from) >= 0
    decreases |s| + 1 - from
  {
    if from + |p| <= |s| && s[from..from + |p|] != p {
      ContainsFromMeans(s, p, from + 1);
    }
  }

  /** `includes` holds exactly when there is an occurrence, that is when `indexOf` finds one. */
  lemma ContainsMeans(s: string, p: string)
    ensures Contains(s, p) <==> IndexOf(s, p) >= 0
    ensures Contains(s, p) <==> exists i :: At(s, p, i)
  {
    ContainsFromMeans(s, p, 0);
  }

  /** An occurrence inside a part of a string is an occurrence in the whole string. */
  lemma ContainsInConcat(a: string, b: string, c: string, p: string)
    requires Contains(b, p)
    ensures Contains(a + b + c, p)
  {
    ContainsMeans(b, p);
    var i :| At(b, p, i);
    var s := a + b + c;
    assert s[|a| + i..|a| + i + |p|] == b[i..i + |p|];
    assert At(s, p, |a| + i);
    ContainsMeans(s, p);
  }
}

=== FILE: wrappers.dfy ===
/** Optional values and results with an error, used by every other module. */
module Wrappers {

  datatype Option<+T> = None | Some(value: T) {
    function GetOr(default: T): T {
      match this
      case Some(v) => v
      case None => default
    }
  }

  /** A computation that either yields a value or raises an exception carrying a message. */
  datatype Result<+T, +E> = Ok(value: T) | Err(error: E)
}
